=== FILE: README.md ===
# Srimad-Bhagavatam quiz: a Dafny model of the attempt state machine

The system is a Telegram quiz bot and a companion web site for chapter quizzes on the
Srimad-Bhagavatam. On both sides a user takes a quiz one timed question at a time. Each
question ends either with an answer or with a 60-second timeout. The finished attempt is
scored, stored and ranked on a leaderboard.

This project models the core of that system as immutable Dafny datatypes and pure
transition functions:

- **Bot store** (`Database`): the `users`, `results` and `active_quizzes` tables of the
  SQLite store, and every exported operation on them.
- **Bot state machine** (`QuizLogic`): the in-memory poll and timer registries, and the
  answer, timeout, `sendQuestion` and `finishQuiz` steps. Each handler is split at its
  `await`s into atomic event-loop steps.
- **Handlers** (`CallbackHandlers`, `CommandHandlers`, `MenuHandlers`): callback
  dispatch, the `start_` gate, the slash commands, and the menus, review and
  leaderboard texts they build.
- **Catalog and helpers**: the quiz catalog (`QuizData`) with its JavaScript property
  lookup (`Records`), HTML escaping and deep links (`Utils`), and the admin list
  (`Config`).
- **Web side**: the player component (`QuizPlayer`), the results screen
  (`QuizResults`), the web catalog (`WebQuizData`), the quiz listing page
  (`QuizzesPage`) and the leaderboard table (`LeaderboardTable`).
- **Process wiring** (`Wiring`): how updates and continuations reach the handlers, as
  bot.js wires them.

Modelling choices:

- Clocks are a `now` parameter in milliseconds.
- A JavaScript timeout still to fire is an entry of `Bot.pending`. Its firing is an event
  that may come between any two steps.
- `bot.getChat` is an input that may fail (`Option<ChatInfo>`).
- A Telegram poll id is an input to `SendQuestion`.
- Integers are unbounded. `Math.round` is stated as round-half-up on the exact ratio.
  JavaScript's `%` is `QuizResults.JsRem`.

## Model

| member | source | states |
|---|---|---|
| Database.InitDatabase | database.js:13-60 | Start-up keeps users and results and removes every active session. |
| Database.MarkUserAttempted | database.js:84-86 | Upserts the (user, quiz) row with the attempted flag set, so `HasUserAttempted` then holds; every other pair's row, the results and the sessions are unchanged. |
| Database.HasUserAttempted | database.js:79-82 | True exactly when the pair has a users row whose flag is 1; a pair without a row has not attempted the quiz. |
| Database.SaveResult | database.js:89-91 | Always appends exactly one new row with a fresh id above every earlier one, and never replaces an earlier row, even for the same pair; keeps AUTOINCREMENT freshness. |
| Database.GetUserResult | database.js:93-95 | Returns a stored row of that user and quiz, and returns none exactly when no such row exists. |
| Database.ResultsFor | database.js:68 | The quiz's rows: exactly the stored rows with that quiz id. |
| Database.GetLeaderboard | database.js:97-99 | At most ten rows, all of the quiz. Rows are ordered by score descending, then time ascending, and drawn from the quiz's rows. Exactly min(10, n) rows are returned, and every row left out ranks no better than the last row returned. |
| Database.ListUsers | database.js:128-130 | A permutation of the quiz's rows, in non-increasing score order. |
| Database.StartQuizSession | database.js:102-105 | The user's session is replaced by a fresh one (question 0, score 0, no answers, both start times `now`); other users' sessions are unchanged. |
| Database.GetQuizState | database.js:107-109 | Finds the user's session exactly when one exists. |
| Database.UpdateQuizState | database.js:111-113 | Updates only that user's session and keeps its quiz id and start time; with no session it is a no-op. |
| Database.DeleteQuizState | database.js:115-117 | Removes that user's session and nothing else. |
| Database.ClearUserData | database.js:120-126 | Removes exactly the results rows and users rows whose username and quiz match, keeping the remaining rows in order; other names and quizzes are untouched. |
| QuizLogic.Boot | bot.js:11 | A fresh process: the database after `initDatabase`, with no registered poll, timer or pending timeout. |
| QuizLogic.ClearTimer | quizLogic.js:11-17 | Cancels exactly the user's registered timeout and forgets its handle; other users' handles and the database are unchanged. |
| QuizLogic.HandlePollAnswer | quizLogic.js:81-113 | Changes nothing unless the poll is registered, its user has a session and the stored answers number at most the poll's question index. When accepted it appends the chosen option, sets the question to index+1, adds 1 exactly for the correct option, stamps the time and asks for the next question. It removes exactly that poll and that user's timer, and the cleared handle leaves the pending set. Other sessions, other polls, other users' timers, the users table, the results and the handle counter are unchanged. |
| QuizLogic.TimerFire | quizLogic.js:65-78 | A pending timeout that passes the same guard appends a timeout (null), advances the question, keeps the score and removes that timeout's poll. Otherwise it changes nothing but its own disappearance. Either way only the timed-out user's session can change; the fired handle leaves the pending set, no poll is added, and the timers, the users table and the handle counter are unchanged. |
| QuizLogic.FinishBegin | quizLogic.js:115-126 | Reads a completion exactly when a session and the quiz exist; the completion carries the session's score and answers, the question count, and a whole number of seconds since the start. |
| QuizLogic.DisplayUsername | quizLogic.js:130-132 | The chat's username when present and non-empty; otherwise, including a failed `getChat`, exactly 'Unknown'. Never empty. |
| QuizLogic.DisplayFirstName | quizLogic.js:130-132 | The chat's first name when present and non-empty; otherwise, including a failed `getChat`, exactly 'User'. Never empty. |
| QuizLogic.FinishCommit | quizLogic.js:135-138 | Marks the quiz attempted and appends one result carrying the completion's score, time, answers and display names. The users table changes only in that pair's row. The session and that user's timer are removed, and the cleared handle leaves the pending set. Other sessions, the poll registry, other users' timers and the handle counter are unchanged. |
| QuizLogic.FailedChatSavesDefaults | quizLogic.js:130-138 | When `getChat` fails, the saved result and the users row are named 'Unknown' and 'User'. |
| QuizLogic.CompletionTier | quizLogic.js:141 | The completion emoji compares the exact ratio with 80% and 60%. |
| QuizLogic.SendQuestion | quizLogic.js:19-79 | An unknown quiz or an empty question list changes nothing. An index past the last question routes to `finishQuiz`. A poll is posted exactly when the quiz is known, the index names one of its questions, and Telegram returned a poll. Then the poll is registered for that question, and a fresh timeout handle is armed and registered as the user's timer. |
| QuizLogic.ChosenOption | quizLogic.js:83 | The first selected option, and none exactly when the answer selects nothing (a retracted vote). |
| QuizLogic.AnswerKeepsShapeIff | quizLogic.js:88-107 | An accepted answer keeps "answers = current question" exactly when the poll is for the question the session is on. |
| QuizLogic.TimeoutKeepsShapeIff | quizLogic.js:65-76 | The same for an accepted timeout. |
| QuizLogic.AnswerThenTimeout | quizLogic.js:69 | Answer then timeout for the same question: exactly one answer is recorded, and the timeout changes nothing. |
| QuizLogic.TimeoutThenAnswer | quizLogic.js:94 | Timeout then answer: exactly one null is recorded, and the late answer changes nothing. |
| QuizLogic.AnswerTwice | quizLogic.js:96 | A duplicate answer to the same poll changes nothing. |
| QuizLogic.TimeoutAfterReset | quizLogic.js:66-67 | A timeout firing after the session was deleted leaves the database unchanged. |
| QuizLogic.FinishWithoutSession | quizLogic.js:116-126 | `finishQuiz` without a session reaches none of its writes. |
| QuizLogic.InterleavedFinishSavesTwice | quizLogic.js:115-138 | Two `finishQuiz` calls that both read the session before either writes save two result rows. |
| QuizLogic.StepsKeepHandlesBelow | quizLogic.js:65-78 | Every step keeps pending timer handles below the counter, so a newly armed handle never collides with a pending one. |
| CallbackHandlers.RouteOf | callbackHandlers.js:22-124 | Each routed branch's data is its fixed prefix followed by the extracted quiz id (`lb_combined` excepted). |
| CallbackHandlers.RouteRoundTrip | callbackHandlers.js:63-104 | Routing `prefix + id`, as the menus build it, gives back exactly that id, for each of the five prefixes. |
| CallbackHandlers.PrefixedRoute | callbackHandlers.js:22-124 | No earlier branch of the chain captures data built with a later prefix. |
| CallbackHandlers.StartBranch | callbackHandlers.js:67-89 | An id that is not an own key of the catalog, or a repeat attempt by a non-admin, only raises an alert and changes no state. Otherwise the user's timer is cleared and their session becomes a fresh one, and question 0 is to be sent. Results, users and polls are kept, other users' timers and pending handles are unchanged, and the cleared handle leaves the pending set. |
| CallbackHandlers.Restart | callbackHandlers.js:82-88 | Clearing the timer, deleting the session and starting a new one leaves the user on a fresh session at question 0 with question 0 to be sent. Results, users and polls are kept, and only that user's timer and its handle go. |
| CallbackHandlers.StartBranchAsWritten | callbackHandlers.js:67-89 | The `start_` branch with the written lookup: the same as `StartBranch` for own keys, the not-found alert when nothing is found, and a restart for an inherited member that passes the attempt gate. |
| CallbackHandlers.ConstructorStartDiscardsSession | callbackHandlers.js:67-88 | `start_constructor` from a user with an open session: the corrected branch only alerts, but the written one replaces the session with an empty one for quiz "constructor" and drops the user's timer. |
| Database.RestartSession | callbackHandlers.js:85-87 | Deleting the user's quiz state and starting a new session sets exactly that user's session to a fresh one at question 0. Users, results and the id counter are unchanged. |
| CallbackHandlers.RestartDiscardsSession | callbackHandlers.js:82-88 | Restarting abandons the open session without saving a result. |
| CallbackHandlers.HandleCallback | callbackHandlers.js:10-128 | Only `start_` changes state. The branches that reach missing functions end in the error alert, and unmatched data gets no reply. |
| CallbackHandlers.ReplyTo | callbackHandlers.js:22-124 | The `browse_cantos`, `canto_*` and `lb_combined` branches end in the error alert, and unmatched data gets no reply. |
| CallbackHandlers.LeaderboardMenu | callbackHandlers.js:36-59 | The picker: the combined entry, one `lb_<id>` button per live quiz in catalog order, then Back. |
| CallbackHandlers.BoardButtons | callbackHandlers.js:44-50 | One leaderboard button per quiz, in order. |
| CallbackHandlers.ShareMessage | callbackHandlers.js:103-124 | The share reply contains the quiz's deep link and offers a button back to the quiz. |
| CallbackHandlers.DetailButtonsRoute | menuHandlers.js:65-77 | Every button on the details screen routes back to a branch for the same quiz. |
| CommandHandlers.StartCommand | commandHandlers.js:10-23 | `/start <id>` for a known quiz shows its details; anything else shows the main menu. |
| CommandHandlers.CantosCommand | commandHandlers.js:26-29 | `/cantos` calls a function that does not exist, so its handler rejects. |
| CommandHandlers.QuizzesCommand | commandHandlers.js:32-35 | `/quizzes` shows the quiz list. |
| CommandHandlers.ShareCommand | commandHandlers.js:38-57 | `/share <id>` replies with the trimmed id's deep link for a known quiz, and with the usage hint otherwise. |
| CommandHandlers.LeaderboardCommand | commandHandlers.js:60-96 | No id shows the picker, and an unknown id gives "Quiz not found". A known id gives that quiz's standings. |
| CommandHandlers.ClearUserCommand | commandHandlers.js:99-114 | A non-admin only gets "Admin only" and no data changes. An admin clears the pair of the target name with its first '@' removed. |
| CommandHandlers.ClearedUserMayRestart | commandHandlers.js:109-113 | After clearing, a user whose row had that name is no longer marked as having attempted the quiz. |
| CommandHandlers.ResetQuizCommand | commandHandlers.js:117-131 | A non-admin changes nothing. An admin deletes only their own session; the timer, polls and tables are kept. |
| CommandHandlers.ResetThenTimeout | commandHandlers.js:128-130 | The timeout still armed after `/resetquiz` changes nothing when it fires. |
| CommandHandlers.ListedName | commandHandlers.js:158 | The listed username when there is one, and exactly 'unknown' without one; never empty. |
| CommandHandlers.UserLine | commandHandlers.js:157-159 | A line opens with the 1-based place, '@', the listed name and the score label. |
| CommandHandlers.ListUsersCommand | commandHandlers.js:134-163 | Admin-only. Without an id it shows the usage text. It replies "none found" exactly when the quiz has no results; otherwise it lists one numbered line per result row, in the score order of `listUsers`. |
| Config.AdminUsernames | config.js:5 | The admin list is the configured value, split at commas, each entry trimmed and lower-cased. |
| Config.AdminSource | config.js:5 | The environment value, or 'ys16108' when unset or empty. |
| Config.IsAdmin | commandHandlers.js:14 | A sender is an admin exactly when their lower-cased name is listed. A sender without a user name is an admin exactly when the list holds an empty entry. |
| Config.IsAdminIgnoresCase | commandHandlers.js:14 | Lower-casing the name beforehand gives the same answer, so the test ignores letter case. |
| Config.ListedNameIsAdmin | config.js:5 | A sender whose lower-cased name equals a listed entry, trimmed and lower-cased, is an admin. |
| Config.SingleAdmin | config.js:5 | A value naming one admin yields exactly that name, normalised. |
| Config.NamelessAdminIff | commandHandlers.js:14 | A sender without a username is an admin exactly when the list holds an empty entry. |
| MenuHandlers.MainMenu | menuHandlers.js:6-26 | The main menu states the number of live quizzes and offers the two navigation buttons. |
| MenuHandlers.QuizList | menuHandlers.js:28-46 | One `quiz_<id>` button per live quiz in catalog order, or the "no quizzes" text. |
| MenuHandlers.QuizButtons | menuHandlers.js:36-39 | One button per quiz, in order. |
| MenuHandlers.DetailButtons | menuHandlers.js:65-77 | The Start button is present exactly when the quiz is not attempted or the user is an admin, and then it comes first. Review is present exactly when the quiz is attempted. Leaderboard, Share and Back close the list, and no other button appears. |
| MenuHandlers.DetailText | menuHandlers.js:57-63 | The text ends with the "already completed" note exactly for a completed quiz, and with "Ready to begin?" otherwise. |
| MenuHandlers.QuizDetails | menuHandlers.js:48-83 | Shown exactly for a known quiz. Start appears exactly when the quiz is not attempted or the user is an admin, and Review exactly when it is attempted. Leaderboard, Share and Back always close the list. The text ends with "already completed" exactly when the quiz is attempted and the user is not an admin. |
| MenuHandlers.NotesDiffer | menuHandlers.js:59-63 | A details text ends with exactly one of the two notes. |
| MenuHandlers.ClassifyAnswer | menuHandlers.js:106-121 | A null or missing answer is a timeout. An answer equal to `correct` is correct. Any other answer is wrong and shows the correct option. An answer naming a missing option throws. |
| MenuHandlers.ReviewPart | menuHandlers.js:109-120 | Each part opens with its 1-based question number. |
| MenuHandlers.ReviewParts | menuHandlers.js:106-121 | One part per question, in order, unless some answer makes the handler throw. |
| MenuHandlers.ChunkFromFacts | menuHandlers.js:123-141 | Chunking keeps every part once and in order, and a chunk merging several parts is at most 4001 UTF-16 units (JavaScript `length`). |
| MenuHandlers.ChunksBounded | menuHandlers.js:127-135 | Every chunk holds at least one part, and a chunk merging several parts is at most 4001 UTF-16 units. |
| MenuHandlers.ChunkFrom | menuHandlers.js:127-138 | The chunk loop sends at most one message per part. |
| MenuHandlers.ChunksKeepParts | menuHandlers.js:127-138 | The chunks concatenate back to the parts, losing at most one final empty part, and none when every part is non-empty. |
| MenuHandlers.ReviewMessages | menuHandlers.js:123-141 | A review whose UTF-16 length is at most 4000 is one message. Otherwise the sent messages, joined by newlines, reproduce the full text, there are at most as many as parts, and each is within 4001 UTF-16 units or a single part. |
| Text.Utf16Length | menuHandlers.js:125-129 | The JavaScript length of a text lies between its number of characters and twice that. |
| Text.Utf16Append | menuHandlers.js:129 | The JavaScript length of a concatenation is the sum of the lengths. |
| Text.Utf16Astral | menuHandlers.js:125-129 | A character outside the Basic Multilingual Plane, such as the review's U+1F4DD emoji, counts two units and a plain letter one. |
| MenuHandlers.ReviewHeader | menuHandlers.js:102-104 | The header is never empty. |
| MenuHandlers.ShowReview | menuHandlers.js:85-142 | No stored result, or an unknown quiz, sends only the error. A bad stored option fails. Otherwise the messages reproduce the header and the parts. |
| MenuHandlers.Medal | menuHandlers.js:160-162 | Places 1 to 3 get medals, and later places get "n.". |
| MenuHandlers.MedalNumbersPlace | menuHandlers.js:160-162 | A place past the third reads back as its 1-based position. |
| MenuHandlers.MedalsDistinct | menuHandlers.js:160-162 | Different places get different marks. |
| MenuHandlers.DisplayName | menuHandlers.js:163 | The first name, else the username, else 'Anonymous'. |
| MenuHandlers.StatsReadBack | menuHandlers.js:164 | The rendered "score/total (time s)" tail reads back as the same score, question count and time. |
| MenuHandlers.StatsText | menuHandlers.js:164 | The "score/total (time s)" text: a non-negative score and time read back from it, together with the question count. |
| MenuHandlers.LeaderboardLine | menuHandlers.js:164 | A line is exactly its place mark, the escaped name and " - ", followed by the row's statistics text (score, the quiz's question count, time in seconds). |
| MenuHandlers.ShowLeaderboard | menuHandlers.js:144-173 | An unknown quiz gives the not-found reply. An empty board gives "No results yet". Otherwise there is one line per top-ten row, in order, each opening with its place mark and name and ending with that row's statistics text against the quiz's question count, and the text ends with the share link. |
| QuizData.GetQuiz | quizData.js:284-286 | The quiz stored under that id as an own key, or none exactly when there is no such key. |
| QuizData.GetQuizAsWritten | quizData.js:284-286 | The written lookup agrees with `GetQuiz` on own keys, but yields an inherited member for the `Object.prototype` names. |
| QuizData.ConstructorPassesGuard | quizData.js:284-286 | "constructor" is not a quiz, yet the written lookup returns something truthy for it. |
| QuizData.GetAllQuizzes | quizData.js:288-290 | The catalog's quizzes, in catalog order. |
| QuizData.GetAvailableQuizzes | quizData.js:292-295 | Exactly the live quizzes, in catalog order, as a subsequence of all quizzes. |
| QuizData.GetQuizWellFormed | quizData.js:284-286 | In a well-formed catalog a lookup yields a quiz with the requested id, at least one question, and every `correct` in range. |
| QuizData.QuizzesWellFormed | quizData.js:2-282 | The shipped catalog has unique keys, each equal to its quiz's id, at least one question per quiz, and valid `correct` indices. |
| QuizData.AllQuizzesLive | quizData.js:2-282 | Every shipped quiz is live. |
| Records.Lookup | quizData.js:285 | Own-property lookup finds a value exactly for a present key. |
| Records.LookupUnique | quizData.js:285 | With unique keys the value found is the one stored under that key. |
| Records.Get | quizData.js:285 | Bracket access: an own property first, then the prototype's members, else undefined. |
| Utils.EscapeHtmlIsEscapeEach | utils.js:12-18 | The three global replacements equal escaping each character once. |
| Utils.EscapeHtml | utils.js:12-18 | The output contains no '<' and no '>'. |
| Utils.UnescapeEscapeHtml | utils.js:14-17 | One left-to-right decode of the three entities recovers the input. |
| Utils.EscapeHtmlPlain | utils.js:14-17 | Text without '&', '<' and '>' is returned unchanged. |
| Utils.EscapeHtmlKeepsQuotes | utils.js:14-17 | Quotes are never escaped: the output has as many as the input. |
| Utils.EscapeHtmlLength | utils.js:15-17 | The output length is the input length plus four per '&' and three per '<' and '>'. |
| Utils.BotUsername | config.js:4 | The environment value when set and non-empty, and exactly 'sb_quizz_bot' otherwise. |
| Utils.ShareableLink | utils.js:4-6 | When the bot name has no '?', the text after "?start=" in the deep link is exactly the quiz id. |
| Ranking.SortBy | database.js:68 | The rows reordered so that no row ranks above an earlier one; a permutation. |
| Ranking.TakeDropsNoBetter | database.js:68 | Cutting a sorted list at the limit leaves out nothing ranked above the last row kept. |
| Ranking.TakeSortedFacts | database.js:68 | The first n rows of a sorted arrangement come from the input, and nothing left out beats the last kept. |
| QuizPlayer.Mount | sb_quiz_website/src/components/quiz/QuizPlayer.tsx:16-25 | The component mounts on question 0 with score 0, no answers, 60 seconds and no armed advance. |
| QuizPlayer.HandleAnswer | sb_quiz_website/src/components/quiz/QuizPlayer.tsx:32-63 | Ignored while feedback shows. Otherwise it appends exactly the given answer, adds 1 exactly for the correct index, and arms an advance capturing the current values. |
| QuizPlayer.Fire | sb_quiz_website/src/components/quiz/QuizPlayer.tsx:47-62 | After the last question it completes and reports the captured score (+1 for a correct answer), whole seconds since mount and all answers. Otherwise it moves on with a cleared selection and a fresh 60 seconds. |
| QuizPlayer.Tick | sb_quiz_website/src/components/quiz/QuizPlayer.tsx:66-82 | The countdown does nothing while feedback or results show. It decrements above 1, and at 1 or less it records a timeout (null) with the score unchanged and shows 0. |
| QuizPlayer.Reset | sb_quiz_website/src/components/quiz/QuizPlayer.tsx:85-94 | "Try Again" restores question 0, score 0, no answers and 60 seconds, but keeps the mount time. |
| QuizPlayer.Step | sb_quiz_website/src/components/quiz/QuizPlayer.tsx:32-94 | Every event keeps the component invariant. Any completion report holds one answer per question, a score that counts the correct ones, and the elapsed whole seconds. |
| QuizPlayer.MountInv | sb_quiz_website/src/components/quiz/QuizPlayer.tsx:16-25 | The mounted component satisfies the invariant. |
| QuizPlayer.AnswerRecordedOnce | sb_quiz_website/src/components/quiz/QuizPlayer.tsx:33 | A click followed by a second click or by the timeout records the answer once. |
| QuizPlayer.Seconds | sb_quiz_website/src/components/quiz/QuizPlayer.tsx:66-82 | Any number of ticks keeps the invariant. |
| QuizPlayer.CountdownTimesOut | sb_quiz_website/src/components/quiz/QuizPlayer.tsx:66-82 | Left alone for its remaining seconds, the countdown records exactly one timeout, keeps the score and the question, and shows 0. |
| QuizPlayer.ScoreLineCounts | sb_quiz_website/src/components/quiz/QuizPlayer.tsx:219 | The score line's denominator is the number of recorded answers, and its numerator counts the correct ones. |
| QuizPlayer.ScoreLine | sb_quiz_website/src/components/quiz/QuizPlayer.tsx:219 | The numerator is the running score. The denominator is 0 exactly on question 0 before any feedback, and never exceeds the current question plus one. |
| QuizPlayer.ScoreAtMostAnswers | sb_quiz_website/src/components/quiz/QuizPlayer.tsx:36-44 | The running score never exceeds the number of answers. |
| QuizPlayer.ColorOf | sb_quiz_website/src/components/quiz/QuizPlayer.tsx:117 | Red at 10 or less, orange up to 30, grey above. |
| QuizResults.Percentage | sb_quiz_website/src/components/quiz/QuizResults.tsx:18-19 | The nearest integer to score/total·100 (halves up), within 0..100 for a valid score. |
| QuizResults.PercentageAtLeast | sb_quiz_website/src/components/quiz/QuizResults.tsx:18-19 | The rounded percentage reaches m exactly when 200·score ≥ (2m−1)·total. |
| QuizResults.ResultTier | sb_quiz_website/src/components/quiz/QuizResults.tsx:26-42 | Exactly one of the four tiers applies, with each threshold stated on the score itself. |
| QuizResults.TierOf | sb_quiz_website/src/components/quiz/QuizResults.tsx:26-42 | "Excellent" exactly from 80%, "Good job" exactly from 60% below 80%, "Keep practicing" exactly from 40% below 60%, and "Time to revisit" exactly below 40%. |
| QuizResults.BotTrophyIsExcellent | sb_quiz_website/src/components/quiz/QuizResults.tsx:26-42 | A bot trophy is always a web "Excellent". |
| QuizResults.TiersDisagree | quizLogic.js:141 | 39 of 49 is "Excellent" on the web but only a clap in the bot. |
| QuizResults.JsRem | sb_quiz_website/src/components/quiz/QuizResults.tsx:46 | JavaScript's `%`: the remainder takes the dividend's sign. |
| QuizResults.FormatTime | sb_quiz_website/src/components/quiz/QuizResults.tsx:44-48 | The label ends in 's' and has a minutes field exactly from 60 seconds on. |
| QuizResults.FormatTimeShape | sb_quiz_website/src/components/quiz/QuizResults.tsx:44-48 | "Mm Ss" with M = s div 60 and S = s mod 60 from one minute on; "Ss" below. |
| QuizResults.FormatTimeRoundTrip | sb_quiz_website/src/components/quiz/QuizResults.tsx:44-48 | Every non-negative duration reads back from its label. |
| QuizResults.FormatTimeInjective | sb_quiz_website/src/components/quiz/QuizResults.tsx:44-48 | Distinct durations get distinct labels. |
| QuizResults.ShareText | sb_quiz_website/src/components/quiz/QuizResults.tsx:51 | The share text embeds "score/total (p%)" with the shown percentage, and the page address. |
| QuizResults.ScoreLabelRoundTrip | sb_quiz_website/src/components/quiz/QuizResults.tsx:51 | The digits before '/' in the share label read back as the score. |
| QuizResults.Classify | sb_quiz_website/src/components/quiz/QuizResults.tsx:84-124 | Exactly one class applies. Timeout holds exactly when the answer is null, correct exactly when it equals `correct`, and otherwise the answer is wrong and shown with the correct option. |
| QuizResults.ReviewsAgree | sb_quiz_website/src/components/quiz/QuizResults.tsx:84-124 | For a stored answer with valid indices, the web review and the bot review give the same class. |
| QuizResults.ReviewsDisagreePastEnd | sb_quiz_website/src/components/quiz/QuizResults.tsx:87 | Past the end of the answer list the bot shows a timeout but the web shows a wrong answer. |
| WebQuizData.GetWebQuiz | sb_quiz_website/src/data/quizData.ts:216-218 | The quiz stored under the id as an own key, or none exactly when there is no such key. |
| WebQuizData.GetWebQuizAsWritten | sb_quiz_website/src/data/quizData.ts:216-218 | The written web lookup finds exactly the own keys' quizzes, and an inherited member exactly for a prototype name the catalog lacks. |
| WebQuizData.WebConstructorPassesGuard | sb_quiz_website/src/data/quizData.ts:216-218 | "constructor" is not a web quiz id, yet the written lookup returns an inherited member for it. |
| WebQuizData.GetAvailableWebQuizzes | sb_quiz_website/src/data/quizData.ts:224-226 | Exactly the live quizzes, in catalog order. |
| WebQuizData.GetQuizzesByCanto | sb_quiz_website/src/data/quizData.ts:228-230 | Exactly the live quizzes of canto n, in order, as a subsequence of the available ones. |
| WebQuizData.GetCantoInfo | sb_quiz_website/src/data/quizData.ts:232-234 | The first canto entry with that number, and none exactly when there is none. |
| WebQuizData.CantosNumbered | sb_quiz_website/src/data/quizData.ts:24-37 | Cantos 1 to 12 are listed in order, each once. |
| WebQuizData.CantoInfoRange | sb_quiz_website/src/data/quizData.ts:232-234 | `getCantoInfo` finds exactly the numbers 1 to 12. |
| WebQuizData.InCantoIff | sb_quiz_website/src/data/quizData.ts:24-37 | Indexing the canto list by number agrees with looking the canto up. |
| WebQuizData.WebQuizzesWellFormed | sb_quiz_website/src/data/quizData.ts:39-213 | Each key equals its quiz's id, every `correct` is in range, every quiz has a question, and every chapter exists in its canto. |
| QuizzesPage.Filtered | sb_quiz_website/src/app/quizzes/page.tsx:14-24 | A quiz is kept exactly when the search matches its title or description case-insensitively and the selected canto matches; catalog order is preserved. |
| QuizzesPage.NoFilterKeepsAll | sb_quiz_website/src/app/quizzes/page.tsx:15-22 | An empty search with no canto keeps every quiz. |
| QuizzesPage.SearchIgnoresCase | sb_quiz_website/src/app/quizzes/page.tsx:17-18 | Lower-casing the search changes nothing. |
| QuizzesPage.SelectedCantoOnly | sb_quiz_website/src/app/quizzes/page.tsx:20 | A selected canto admits only its own quizzes. |
| QuizzesPage.Group | sb_quiz_website/src/app/quizzes/page.tsx:27-36 | One group per canto present, each holding that canto's quizzes in order. |
| QuizzesPage.SortAscending | sb_quiz_website/src/app/quizzes/page.tsx:112-113 | The canto numbers, strictly ascending and none lost. |
| QuizzesPage.Sections | sb_quiz_website/src/app/quizzes/page.tsx:112-113 | Sections are in ascending canto order, each non-empty and holding exactly its canto's quizzes in order; every quiz has a section. |
| QuizzesPage.SectionOfQuiz | sb_quiz_website/src/app/quizzes/page.tsx:27-36 | Each quiz sits in exactly the section of its canto. |
| QuizzesPage.CountLabel | sb_quiz_website/src/app/quizzes/page.tsx:87 | "quiz" for exactly one, "quizzes" otherwise. |
| QuizzesPage.Page | sb_quiz_website/src/app/quizzes/page.tsx:92-140 | A hint exactly when nothing matches. When something matches, a flat list of the matches exactly when a non-zero canto is selected, and the matches in groups sorted by canto exactly otherwise. |
| LeaderboardTable.BadgeOf | sb_quiz_website/src/components/leaderboard/LeaderboardTable.tsx:27-42 | A medal exactly for ranks 1 to 3, the rank number otherwise. |
| LeaderboardTable.BackgroundOf | sb_quiz_website/src/components/leaderboard/LeaderboardTable.tsx:44-55 | A tint exactly for ranks 1 to 3. |
| LeaderboardTable.BadgeMatchesBackground | sb_quiz_website/src/components/leaderboard/LeaderboardTable.tsx:27-55 | Gold, silver and bronze each come with their own tint, and a number comes with the plain background. |
| LeaderboardTable.RowOf | sb_quiz_website/src/components/leaderboard/LeaderboardTable.tsx:79-115 | A row shows the name, the rank's badge and background, the rounded percentage and the formatted time; for a valid entry its score text reads back as score '/' total. |
| LeaderboardTable.ScoreTextReadsBack | sb_quiz_website/src/components/leaderboard/LeaderboardTable.tsx:100-105 | The digits on each side of '/' in the score text read back as the score and the question count. |
| LeaderboardTable.Render | sb_quiz_website/src/components/leaderboard/LeaderboardTable.tsx:57-115 | "No Results Yet" exactly for no entries; otherwise one row per entry in input order. Rows are not re-sorted: each row's medal follows its entry's rank field wherever the entry sits. |
| LeaderboardTable.RowPercentageBounded | sb_quiz_website/src/components/leaderboard/LeaderboardTable.tsx:105 | A row's percentage is within 0..100 for a valid score. |
| Wiring.Start | bot.js:11-34 | After start-up no continuation is pending and the bot is booted. |
| Wiring.Step | bot.js:33-43 | Without a `poll_answer` listener a poll answer changes nothing. A continuation that is not queued changes nothing. Resuming one consumes it and queues at most one finish; committing one consumes it and saves one result; any other event leaves the finishes alone and queues at most one ask. |
| Wiring.StartNoPoints | database.js:57 | Right after start-up no session holds a point. |
| Wiring.AsWrittenKeepsNoPoints | bot.js:33-43 | With no `poll_answer` listener, no update or continuation scores a point. |
| Wiring.AsWrittenRunKeepsNoPoints | bot.js:33-43 | The same holds over any sequence of events. |
| Wiring.EveryResultScoresZero | bot.js:33-43 | As wired, every result saved after start-up has score 0, whatever users and admins do. |
| Wiring.DeliveredAnswerScores | quizLogic.js:81-113 | With answers delivered, a correct answer to an admitted poll adds one point and queues the next question; undelivered, it changes nothing. |
| Wiring.DeliveredPerfectRun | quizLogic.js:19-159 | With answers delivered, a correct answer to a one-question quiz saves a result of score 1. |

## Left out

- Telegram I/O (`sendMessage`, `sendPoll`, `editMessageText`, `answerCallbackQuery`), JSX markup, `Link` routing, and the HTTP health server and signal handling in bot.js: these are platform effects. Replies are modelled as values, and `getChat` as an input that may fail.
- Clocks and timers (`Date.now`, `setTimeout`, `setInterval`, `sleep`): they become a `now` parameter and explicit events. The 1500 ms `sleep` in the answer handler is the point where `HandlePollAnswer` returns its follow-up `Ask`.
- SQLite details (WAL pragmas, indexes, JSON encoding of `user_answers`): the tables are abstract maps and sequences.
- Which row `getUserResult` returns when a pair has several: SQLite promises none, so `Database.GetUserResult` only promises some row of the pair.
- Ordering among leaderboard rows that tie on score and time, and among `listUsers` rows that tie on score: SQLite does not fix it. `Database.GetLeaderboard` and `Database.ListUsers` state only the ordering the queries request.
- `showCantos`, `showCantoChapters` and `showCombinedLeaderboard` are not exported by menuHandlers.js. The `browse_cantos`, `canto_*` and `lb_combined` callbacks are modelled as the catch path (an error alert), and `/cantos` as a rejected handler.
- Command matching by regular expression: the captured argument is an input.
- The question explanation and verse-reference fields, and the emoji in the web components, are presentation only.
- The web pages that hold only mock data or layout (home, profile and leaderboard pages, `Header`, `Footer`, `layout`, `QuizCard`), and the types-only `database.ts`.
- React mechanics (hook dependencies, stale closures, the 2000 ms feedback delay): each handler is one atomic step. The armed advance is a captured closure value.
- Floating point: percentages are exact rational comparisons and round-half-up. A total of 0 (JavaScript NaN) is excluded or gives no percentage. The two can differ at an exact half: for 23 of 40, `(23 / 40) * 100` is 57.49999999999999 in IEEE doubles, so the page shows 57% where `QuizResults.Percentage` gives 58%. A result tier moves only if such a case falls at 39.5, 59.5 or 79.5, which needs a multiple of 200 questions.
- QuizPlayer.HandleAnswer: requires a current question, which the component guarantees because the question screen is shown only while one exists.
- LeaderboardTable.RowOf: gives no percentage for a non-positive question count instead of JavaScript's NaN or a negative value.
- Wiring.Step: callback branches other than `start_` are not events of the wiring model, because `CallbackHandlers.HandleCallback` shows they leave the state alone. The `/start`, `/quizzes`, `/share`, `/leaderboard` and `/listusers` commands are omitted for the same reason.
- CommandHandlers.StartCommand: uses the own-key lookup. As written, `/start constructor` passes the guard and the handler then rejects at `escapeHtml(quiz.title)`; only the `start_` callback's as-written path is modelled.
- CommandHandlers.ShareCommand: uses the own-key lookup. As written, `/share constructor` passes the guard and the handler throws at `escapeHtml(quiz.title)`, since the inherited member has no title.
- CommandHandlers.LeaderboardCommand: uses the own-key lookup. As written, `/leaderboard constructor` passes both guards and `showLeaderboard` rejects at `escapeHtml(quiz.title)`.
- MenuHandlers.QuizDetails: uses the own-key lookup. As written, `quiz_constructor` passes the guard and the handler rejects at `escapeHtml(quiz.title)`.
- MenuHandlers.ShowLeaderboard: uses the own-key lookup. As written, `lb_constructor` passes the guard and the handler rejects at `escapeHtml(quiz.title)` (the board is empty, since no attempt at that id can finish).
- WebQuizData.GetWebQuiz: is the own-key lookup. As written, the quiz and leaderboard pages for the id `constructor` receive an inherited member. `WebQuizData.GetWebQuizAsWritten` models that lookup; the pages rendered from it are not modelled.
- ToLower and trim act on ASCII letters and a fixed whitespace set; there is no Unicode case folding.

## Findings

| source | as written | input that shows it | evidently intended | confidence | as-written member | corrected member |
|---|---|---|---|---|---|---|
| quizData.js:284-286 | `QUIZZES[quizId] \|\| null` also returns members inherited from `Object.prototype`. `/start constructor` and the callback `start_constructor` pass the "quiz exists" guards: the callback replaces the user's open session with one for a quiz that does not exist, and the other handlers throw at `escapeHtml(quiz.title)`. The same lookup is in sb_quiz_website/src/data/quizData.ts:216-218. | quiz id `constructor` | only own keys of the catalog are quizzes | not executed | QuizData.GetQuizAsWritten, QuizData.ConstructorPassesGuard, CallbackHandlers.StartBranchAsWritten, CallbackHandlers.ConstructorStartDiscardsSession, WebQuizData.GetWebQuizAsWritten, WebQuizData.WebConstructorPassesGuard | QuizData.GetQuiz, CallbackHandlers.StartBranch, WebQuizData.GetWebQuiz |
| bot.js:33-43 | No `poll_answer` listener is registered anywhere, so `handlePollAnswer` never runs. Every question ends by timeout, and every saved score is 0. | start any quiz and answer every poll correctly | answers reach `handlePollAnswer` and score | not executed | Wiring.EveryResultScoresZero, Wiring.AsWrittenRunKeepsNoPoints | Wiring.DeliveredPerfectRun, Wiring.DeliveredAnswerScores |

=== FILE: callbackhandlers.dfy ===
/**
 * callbackHandlers.js: the `callback_query` handler. The callback data is
 * routed by the first branch that matches in source order; `start_` is the
 * one branch that changes state. An exception inside any branch, including
 * the call of a menu function `menuHandlers.js` does not export, ends in the
 * "An error occurred" alert.
 */
module CallbackHandlers {
  import opened Wrappers
  import opened Text
  import opened Telegram
  import opened Config
  import opened Utils
  import opened QuizData
  import opened Database
  import opened QuizLogic
  import opened MenuHandlers

  /** The branch a callback takes; each carries the data with its prefix stripped. */
  datatype Route =
    | BrowseCantos
    | BrowseQuizzes
    | CantoInactive
    | CantoChapters(rest: string)
    | ViewLeaderboards
    | BackMain
    | ShowDetails(quizId: string)
    | StartQuiz(quizId: string)
    | CombinedBoard
    | QuizBoard(quizId: string)
    | ReviewAnswers(quizId: string)
    | ShareQuiz(quizId: string)
    | NoRoute

  /** The if/else-if chain of the handler, prefixes stripped with `substring`. */
  function RouteOf(data: string): (r: Route)
    ensures r.ShowDetails? ==> data == "quiz_" + r.quizId
    ensures r.StartQuiz? ==> data == "start_" + r.quizId
    ensures r.QuizBoard? ==> data == "lb_" + r.quizId && r.quizId != "combined"
    ensures r.ReviewAnswers? ==> data == "review_" + r.quizId
    ensures r.ShareQuiz? ==> data == "share_" + r.quizId
  {
    if data == "browse_cantos" then BrowseCantos
    else if data == "browse_quizzes" then BrowseQuizzes
    else if data == "canto_inactive" then CantoInactive
    else if StartsWith(data, "canto_") then CantoChapters(data[6..])
    else if data == "view_leaderboards" then ViewLeaderboards
    else if data == "back_main" then BackMain
    else if StartsWith(data, "quiz_") then ShowDetails(data[5..])
    else if StartsWith(data, "start_") then StartQuiz(data[6..])
    else if StartsWith(data, "lb_") then (if data[3..] == "combined" then CombinedBoard else QuizBoard(data[3..]))
    else if StartsWith(data, "review_") then ReviewAnswers(data[7..])
    else if StartsWith(data, "share_") then ShareQuiz(data[6..])
    else NoRoute
  }

  /** Two strings that differ in their first `n` characters cannot be equal or one a prefix
      of the other; the branches tested before a prefix all differ from it early. */
  lemma PrefixedRoute(prefix: string, quizId: string)
    requires prefix in ["quiz_", "start_", "lb_", "review_", "share_"]
    ensures var data := prefix + quizId;
      && data[..|prefix|] == prefix && data[|prefix|..] == quizId
      && data != "browse_cantos" && data != "browse_quizzes" && data != "canto_inactive"
      && !StartsWith(data, "canto_") && data != "view_leaderboards" && data != "back_main"
  {
    var data := prefix + quizId;
    assert data[0] == prefix[0];
    assert data[..|prefix|] == prefix;
  }

  lemma RouteQuiz(quizId: string)
    ensures RouteOf("quiz_" + quizId) == ShowDetails(quizId)
  {
    PrefixedRoute("quiz_", quizId);
  }

  lemma RouteStart(quizId: string)
    ensures RouteOf("start_" + quizId) == StartQuiz(quizId)
  {
    var d := "start_" + quizId;
    PrefixedRoute("start_", quizId);
    DiffersAt(d, "quiz_", 0);
  }

  lemma RouteBoard(quizId: string)
    ensures RouteOf("lb_" + quizId) == if quizId == "combined" then CombinedBoard else QuizBoard(quizId)
  {
    var d := "lb_" + quizId;
    PrefixedRoute("lb_", quizId);
    DiffersAt(d, "quiz_", 0);
    DiffersAt(d, "start_", 0);
  }

  lemma RouteReview(quizId: string)
    ensures RouteOf("review_" + quizId) == ReviewAnswers(quizId)
  {
    var d := "review_" + quizId;
    PrefixedRoute("review_", quizId);
    DiffersAt(d, "quiz_", 0);
    DiffersAt(d, "start_", 0);
    DiffersAt(d, "lb_", 0);
  }

  lemma RouteShare(quizId: string)
    ensures RouteOf("share_" + quizId) == ShareQuiz(quizId)
  {
    var d := "share_" + quizId;
    PrefixedRoute("share_", quizId);
    DiffersAt(d, "quiz_", 0);
    DiffersAt(d, "start_", 1);
    DiffersAt(d, "lb_", 0);
    DiffersAt(d, "review_", 0);
  }

  /** Routing the callback data the menus build gives back the quiz id they embedded. */
  lemma RouteRoundTrip(quizId: string)
    ensures RouteOf("quiz_" + quizId) == ShowDetails(quizId)
    ensures RouteOf("start_" + quizId) == StartQuiz(quizId)
    ensures RouteOf("lb_" + quizId) == if quizId == "combined" then CombinedBoard else QuizBoard(quizId)
    ensures RouteOf("review_" + quizId) == ReviewAnswers(quizId)
    ensures RouteOf("share_" + quizId) == ShareQuiz(quizId)
  {
    RouteQuiz(quizId);
    RouteStart(quizId);
    RouteBoard(quizId);
    RouteReview(quizId);
    RouteShare(quizId);
  }

  /** What the handler answers with. */
  datatype Reply =
    | ErrorAlert            // the catch block: 'An error occurred'
    | Alert(text: string)   // answerCallbackQuery with show_alert
    | Send(message: Message)
    | SendAll(texts: seq<string>)
    | NoReply

  const BackToMainButton := Button("\U{25C0}\U{FE0F} Back to Main Menu", "back_main")
  const CombinedButton := Button("\U{1F31F} Combined Leaderboard", "lb_combined")

  function BoardButtons(qs: seq<Quiz>): (r: seq<Button>)
    ensures |r| == |qs|
    ensures forall i :: 0 <= i < |qs| ==> r[i] == Button("\U{1F4D6} " + qs[i].title, "lb_" + qs[i].id)
  {
    if |qs| == 0 then [] else [Button("\U{1F4D6} " + qs[0].title, "lb_" + qs[0].id)] + BoardButtons(qs[1..])
  }

  /** The leaderboard picker (`view_leaderboards`, and `/leaderboard` without an argument):
      the combined entry, one `lb_<id>` entry per live quiz in catalog order, and Back. */
  function LeaderboardMenu(cat: Catalog): (m: Message)
    ensures |m.buttons| == |GetAvailableQuizzes(cat)| + 2
    ensures m.buttons[0] == CombinedButton && m.buttons[|m.buttons| - 1] == BackToMainButton
    ensures forall i :: 0 <= i < |GetAvailableQuizzes(cat)| ==> m.buttons[i + 1].data == "lb_" + GetAvailableQuizzes(cat)[i].id
  {
    Message("\U{1F3C6} <b>Select Leaderboard:</b>", [CombinedButton] + BoardButtons(GetAvailableQuizzes(cat)) + [BackToMainButton])
  }

  const QuizNotFoundText := Warning + "Quiz not found."

  /** The `start_` branch: an unknown quiz or a repeat attempt by a non-admin only raises
      an alert. Otherwise the user's timer is cleared, any previous session is deleted
      (it leaves no result, and its polls stay registered), a fresh session begins, and
      question 0 is to be sent. */
  function StartBranch(b: Bot, cat: Catalog, isAdmin: bool, chatId: int, userId: UserId, quizId: string, now: int)
    : (r: (Bot, Reply, Option<Ask>))
    ensures GetQuiz(cat, quizId).None? ==> r == (b, Alert("Quiz not found!"), None)
    ensures GetQuiz(cat, quizId).Some? && HasUserAttempted(b.db, userId, quizId) && !isAdmin ==>
      r == (b, Alert("You already completed this quiz!"), None)
    ensures GetQuiz(cat, quizId).Some? && (!HasUserAttempted(b.db, userId, quizId) || isAdmin) ==>
      && r.2 == Some(Ask(chatId, userId, quizId, 0))
      && r.1 == NoReply
      && r.0.db.sessions == b.db.sessions[userId := SessionRow(quizId, 0, 0, now, now, [])]
      && r.0.db.results == b.db.results && r.0.db.users == b.db.users
      && r.0.polls == b.polls
      && r.0.timers == b.timers - {userId} && r.0.nextTimer == b.nextTimer
      && (userId in b.timers ==> r.0.pending == b.pending - {b.timers[userId]})
      && (userId !in b.timers ==> r.0.pending == b.pending)
  {
    if GetQuiz(cat, quizId).None? then (b, Alert("Quiz not found!"), None)
    else if HasUserAttempted(b.db, userId, quizId) && !isAdmin then (b, Alert("You already completed this quiz!"), None)
    else Restart(b, chatId, userId, quizId, now)
  }

  /** The branch past its guards: clear the timer, replace the session, ask question 0. */
  function Restart(b: Bot, chatId: int, userId: UserId, quizId: string, now: int): (r: (Bot, Reply, Option<Ask>))
    ensures r.2 == Some(Ask(chatId, userId, quizId, 0)) && r.1 == NoReply
    ensures r.0.db.sessions == b.db.sessions[userId := SessionRow(quizId, 0, 0, now, now, [])]
    ensures r.0.db.results == b.db.results && r.0.db.users == b.db.users && r.0.polls == b.polls
    ensures r.0.timers == b.timers - {userId} && r.0.nextTimer == b.nextTimer
    ensures userId in b.timers ==> r.0.pending == b.pending - {b.timers[userId]}
    ensures userId !in b.timers ==> r.0.pending == b.pending
  {
    var b1 := ClearTimer(b, userId);
    RestartSession(b1.db, userId, quizId, now);
    var db := StartQuizSession(DeleteQuizState(b1.db, userId), userId, quizId, now);
    (b1.(db := db), NoReply, Some(Ask(chatId, userId, quizId, 0)))
  }

  /** The `start_` branch as written: its `!quiz` guard tests `QUIZZES[quizId] || null`, so
      a name every object inherits passes it like a quiz id. */
  function StartBranchAsWritten(b: Bot, cat: Catalog, isAdmin: bool, chatId: int, userId: UserId, quizId: string, now: int)
    : (r: (Bot, Reply, Option<Ask>))
    ensures GetQuizAsWritten(cat, quizId).Own? ==> r == StartBranch(b, cat, isAdmin, chatId, userId, quizId, now)
    ensures GetQuizAsWritten(cat, quizId).Undefined? ==> r == (b, Alert("Quiz not found!"), None)
    ensures GetQuizAsWritten(cat, quizId).Inherited? && (!HasUserAttempted(b.db, userId, quizId) || isAdmin) ==>
      r == Restart(b, chatId, userId, quizId, now)
  {
    if GetQuizAsWritten(cat, quizId).Undefined? then (b, Alert("Quiz not found!"), None)
    else if HasUserAttempted(b.db, userId, quizId) && !isAdmin then (b, Alert("You already completed this quiz!"), None)
    else Restart(b, chatId, userId, quizId, now)
  }

  /** Pressing `start_constructor` during a quiz: the corrected lookup rejects it and keeps
      everything, while the written one cancels the user's timer and replaces the session in
      progress with an empty session of the non-quiz "constructor". */
  lemma ConstructorStartDiscardsSession(b: Bot, isAdmin: bool, chatId: int, userId: UserId, now: int)
    requires userId in b.db.sessions && |b.db.sessions[userId].answers| > 0
    requires !HasUserAttempted(b.db, userId, "constructor") || isAdmin
    ensures StartBranch(b, QUIZZES, isAdmin, chatId, userId, "constructor", now) == (b, Alert("Quiz not found!"), None)
    ensures var r := StartBranchAsWritten(b, QUIZZES, isAdmin, chatId, userId, "constructor", now).0;
      && r.db.sessions[userId] == SessionRow("constructor", 0, 0, now, now, [])
      && r.db.sessions[userId] != b.db.sessions[userId]
      && userId !in r.timers
  {
    ConstructorPassesGuard();
  }

  /** The callback handler up to its first `await`. For `start_` the returned Ask is the
      `sendQuestion` call still to be made; every other branch leaves the state alone. */
  function HandleCallback(b: Bot, cat: Catalog, admins: seq<string>, botUsername: string,
                          chatId: int, userId: UserId, username: string, data: string, now: int)
    : (r: (Bot, Reply, Option<Ask>))
    ensures !RouteOf(data).StartQuiz? ==> r.0 == b && r.2 == None
    ensures RouteOf(data).StartQuiz? ==>
      r == StartBranch(b, cat, IsAdmin(admins, username), chatId, userId, RouteOf(data).quizId, now)
    ensures RouteOf(data) in {BrowseCantos, CombinedBoard} || RouteOf(data).CantoChapters? ==> r.1 == ErrorAlert
    ensures RouteOf(data) == NoRoute ==> r.1 == NoReply
  {
    var route := RouteOf(data);
    if route.StartQuiz? then StartBranch(b, cat, IsAdmin(admins, username), chatId, userId, route.quizId, now)
    else (b, ReplyTo(b.db, cat, IsAdmin(admins, username), botUsername, userId, route), None)
  }

  /** The reply of every branch but `start_`, none of which writes anything. The branches
      that call a function menuHandlers.js does not export end in the error alert. */
  function ReplyTo(db: Db, cat: Catalog, isAdmin: bool, botUsername: string, userId: UserId, route: Route): (r: Reply)
    requires !route.StartQuiz?
    ensures route in {BrowseCantos, CombinedBoard} || route.CantoChapters? ==> r == ErrorAlert
    ensures route == NoRoute ==> r == NoReply
  {
    match route
    case BrowseCantos => ErrorAlert
    case BrowseQuizzes => Send(QuizList(cat))
    case CantoInactive => Alert("This Canto is not yet active!")
    case CantoChapters(_) => ErrorAlert
    case ViewLeaderboards => Send(LeaderboardMenu(cat))
    case BackMain => Send(MainMenu(cat))
    case ShowDetails(quizId) => DetailsReply(db, cat, isAdmin, userId, quizId)
    case CombinedBoard => ErrorAlert
    case QuizBoard(quizId) => BoardReply(db, cat, botUsername, quizId)
    case ReviewAnswers(quizId) => ReviewReply(db, cat, userId, quizId)
    case ShareQuiz(quizId) => ShareReply(cat, botUsername, quizId)
    case NoRoute => NoReply
  }

  /** `quiz_<id>`: the details, or "Quiz not found." */
  function DetailsReply(db: Db, cat: Catalog, isAdmin: bool, userId: UserId, quizId: string): Reply
  {
    match QuizDetails(db, cat, userId, quizId, isAdmin)
    case None => Send(Message(QuizNotFoundText, []))
    case Some(m) => Send(m)
  }

  /** `lb_<id>`: the quiz's leaderboard text. */
  function BoardReply(db: Db, cat: Catalog, botUsername: string, quizId: string): Reply
  {
    match ShowLeaderboard(db, cat, botUsername, quizId)
    case BoardQuizNotFound => Send(Message(QuizNotFoundText, []))
    case NoResults(text) => Send(Message(text, []))
    case Standings(_, text) => Send(Message(text, []))
  }

  /** `review_<id>`: the review messages; a throwing review is caught as the error alert. */
  function ReviewReply(db: Db, cat: Catalog, userId: UserId, quizId: string): Reply
  {
    match ShowReview(db, cat, userId, quizId)
    case NotTaken => Send(Message(Warning + "You haven't taken this quiz yet!", []))
    case QuizNotFound => Send(Message(QuizNotFoundText, []))
    case Failed => ErrorAlert
    case Sent(texts) => SendAll(texts)
  }

  /** `share_<id>`: the share message of a known quiz; nothing for an unknown one. */
  function ShareReply(cat: Catalog, botUsername: string, quizId: string): Reply
  {
    match GetQuiz(cat, quizId)
    case None => NoReply
    case Some(quiz) => Send(ShareMessage(quiz, botUsername, quizId))
  }

  /** The `share_` reply: the escaped title, the deep link, and a button back to the quiz. */
  function ShareMessage(quiz: Quiz, botUsername: string, quizId: string): (m: Message)
    ensures m.buttons == [Button("\U{25C0}\U{FE0F} Back to Quiz", "quiz_" + quizId)]
    ensures Contains(m.text, ShareableLink(botUsername, quizId))
  {
    var before := "\U{1F517} <b>Share \"" + EscapeHtml(quiz.title) + "\"</b>\n\n";
    var link := ShareableLink(botUsername, quizId);
    var text := before + link + "\n\n<i>Forward this link to friends!</i>";
    assert OccursAt(text, link, |before|);
    Message(text, [Button("\U{25C0}\U{FE0F} Back to Quiz", "quiz_" + quizId)])
  }

  /** Abandoning: starting again while a session is open discards it without a result. */
  lemma RestartDiscardsSession(b: Bot, cat: Catalog, chatId: int, userId: UserId, quizId: string, now: int)
    requires GetQuiz(cat, quizId).Some? && userId in b.db.sessions
    ensures var r := StartBranch(b, cat, true, chatId, userId, quizId, now).0;
      && |r.db.results| == |b.db.results|
      && r.db.sessions[userId].answers == [] && r.db.sessions[userId].quizId == quizId
  {
  }

  /** Every button of the quiz-details screen routes back to the quiz it was built for.
      For the quiz id "combined" the Leaderboard button's data is `lb_combined`, which the
      handler sends to the combined leaderboard and so to the error alert. */
  lemma DetailButtonsRoute(db: Db, cat: Catalog, userId: UserId, quizId: string, isAdmin: bool, i: nat)
    requires QuizDetails(db, cat, userId, quizId, isAdmin).Some?
    requires i < |QuizDetails(db, cat, userId, quizId, isAdmin).value.buttons|
    ensures var route := RouteOf(QuizDetails(db, cat, userId, quizId, isAdmin).value.buttons[i].data);
      route in {StartQuiz(quizId), ReviewAnswers(quizId), ShareQuiz(quizId), BrowseQuizzes}
      || route == (if quizId == "combined" then CombinedBoard else QuizBoard(quizId))
  {
    var button := QuizDetails(db, cat, userId, quizId, isAdmin).value.buttons[i];
    if button == StartButton(quizId) {
      RouteStart(quizId);
    } else if button == ReviewButton(quizId) {
      RouteReview(quizId);
    } else if button == LeaderboardButton(quizId) {
      RouteBoard(quizId);
    } else if button == ShareButton(quizId) {
      RouteShare(quizId);
    }
  }
}

=== FILE: commandhandlers.dfy ===
/**
 * commandHandlers.js: the slash commands. Each command is modelled from the
 * text its regular expression captured (None when the optional group did not
 * take part in the match); the Telegram reply is returned, not sent.
 */
module CommandHandlers {
  import opened Wrappers
  import opened Text
  import opened Telegram
  import opened Config
  import opened Utils
  import opened QuizData
  import opened Database
  import opened QuizLogic
  import opened MenuHandlers
  import opened CallbackHandlers

  /** What a command replies with; Rejected is an async handler whose promise rejects
      (it calls a menu function `menuHandlers.js` does not export) and sends nothing. */
  datatype Outcome = Reply(message: Message) | Rejected

  const AdminOnly := "\U{26D4} Admin only command."

  function Plain(s: string): Message
  {
    Message(s, [])
  }

  /** `/start [id]`: the details of a known quiz, otherwise the main menu. The captured
      argument is used as is, without trimming. */
  function StartCommand(db: Db, cat: Catalog, admins: seq<string>, userId: UserId, username: string,
                        arg: Option<string>): (o: Outcome)
    ensures arg.Some? && arg.value != "" && GetQuiz(cat, arg.value).Some? ==>
      o == Reply(QuizDetails(db, cat, userId, arg.value, IsAdmin(admins, username)).value)
    ensures !(arg.Some? && arg.value != "" && GetQuiz(cat, arg.value).Some?) ==> o == Reply(MainMenu(cat))
  {
    if arg.Some? && arg.value != "" && GetQuiz(cat, arg.value).Some? then
      Reply(QuizDetails(db, cat, userId, arg.value, IsAdmin(admins, username)).value)
    else Reply(MainMenu(cat))
  }

  /** `/cantos` calls `showCantos`, which does not exist. */
  function CantosCommand(): (o: Outcome)
    ensures o.Rejected?
  {
    Rejected
  }

  /** `/quizzes` */
  function QuizzesCommand(cat: Catalog): (o: Outcome)
    ensures o == Reply(QuizList(cat))
  {
    Reply(QuizList(cat))
  }

  /** `/share <id>`: the trimmed id's link and escaped title and description, or a hint. */
  function ShareCommand(cat: Catalog, botUsername: string, arg: string): (o: Outcome)
    ensures GetQuiz(cat, Trim(arg)).None? ==>
      o == Reply(Plain(Warning + "Quiz not found. Use /quizzes to see available quizzes."))
    ensures GetQuiz(cat, Trim(arg)).Some? ==> o.Reply? && Contains(o.message.text, ShareableLink(botUsername, Trim(arg)))
  {
    var quizId := Trim(arg);
    match GetQuiz(cat, quizId)
    case None => Reply(Plain(Warning + "Quiz not found. Use /quizzes to see available quizzes."))
    case Some(quiz) =>
      var before := "\U{1F517} <b>Share this quiz:</b>\n\n"
        + "\U{1F4DD} <b>" + EscapeHtml(quiz.title) + "</b>\n"
        + EscapeHtml(quiz.description) + "\n\n"
        + "\U{1F517} Link: ";
      var link := ShareableLink(botUsername, quizId);
      var text := before + link + "\n\n<i>Anyone can click this link to start the quiz!</i>";
      assert OccursAt(text, link, |before|);
      Reply(Plain(text))
  }

  /** `/leaderboard [id]`: with no id (or only spaces) the leaderboard picker; an unknown
      id gets "Quiz not found."; otherwise the quiz's leaderboard. */
  function LeaderboardCommand(db: Db, cat: Catalog, botUsername: string, arg: Option<string>): (o: Outcome)
    ensures arg.None? || Trim(arg.value) == "" ==> o == Reply(LeaderboardMenu(cat))
    ensures arg.Some? && Trim(arg.value) != "" && GetQuiz(cat, Trim(arg.value)).None? ==> o == Reply(Plain(QuizNotFoundText))
    ensures arg.Some? && Trim(arg.value) != "" && GetQuiz(cat, Trim(arg.value)).Some? ==>
      ShowLeaderboard(db, cat, botUsername, Trim(arg.value)) != BoardQuizNotFound
      && o == Reply(Plain(ShowLeaderboard(db, cat, botUsername, Trim(arg.value)).text))
  {
    if arg.None? || Trim(arg.value) == "" then Reply(LeaderboardMenu(cat))
    else
      var quizId := Trim(arg.value);
      if GetQuiz(cat, quizId).None? then Reply(Plain(QuizNotFoundText))
      else Reply(Plain(ShowLeaderboard(db, cat, botUsername, quizId).text))
  }

  /** `/clearuser <name> <id>` (admin): the first '@' is removed from the name and that
      name's results and attempted flags for the quiz are cleared. */
  function ClearUserCommand(db: Db, admins: seq<string>, username: string, target: string, quizId: string)
    : (r: (Db, Outcome))
    ensures !IsAdmin(admins, username) ==> r == (db, Reply(Plain(AdminOnly)))
    ensures IsAdmin(admins, username) ==>
      && r.0 == ClearUserData(db, RemoveFirst(target, '@'), quizId)
      && r.1 == Reply(Plain("\U{2705} Cleared @" + RemoveFirst(target, '@') + " from " + quizId))
  {
    if !IsAdmin(admins, username) then (db, Reply(Plain(AdminOnly)))
    else
      var name := RemoveFirst(target, '@');
      (ClearUserData(db, name, quizId), Reply(Plain("\U{2705} Cleared @" + name + " from " + quizId)))
  }

  /** After `/clearuser`, a user the pair belonged to may start that quiz again. */
  lemma ClearedUserMayRestart(db: Db, admins: seq<string>, username: string, target: string, quizId: string,
                              userId: UserId)
    requires IsAdmin(admins, username)
    requires (userId, quizId) in db.users && db.users[(userId, quizId)].username == RemoveFirst(target, '@')
    ensures !HasUserAttempted(ClearUserCommand(db, admins, username, target, quizId).0, userId, quizId)
  {
  }

  /** `/resetquiz` (admin): deletes the caller's own session, nothing else. The user's
      timer stays armed and finds no session when it fires. */
  function ResetQuizCommand(b: Bot, admins: seq<string>, userId: UserId, username: string): (r: (Bot, Outcome))
    ensures !IsAdmin(admins, username) ==> r == (b, Reply(Plain(AdminOnly)))
    ensures IsAdmin(admins, username) ==>
      && r.0.db.sessions == b.db.sessions - {userId}
      && r.0.db.users == b.db.users && r.0.db.results == b.db.results
      && r.0.timers == b.timers && r.0.pending == b.pending && r.0.polls == b.polls
  {
    if !IsAdmin(admins, username) then (b, Reply(Plain(AdminOnly)))
    else
      (b.(db := DeleteQuizState(b.db, userId)),
       Reply(Plain("\U{2705} Your active quiz session has been reset. You can start a new quiz now.")))
  }

  /** A timeout still armed after `/resetquiz` changes nothing when it fires. */
  lemma ResetThenTimeout(b: Bot, admins: seq<string>, userId: UserId, username: string, now: int)
    requires IsAdmin(admins, username) && userId in b.timers && b.timers[userId] in b.pending
    requires b.pending[b.timers[userId]].userId == userId
    ensures var b1 := ResetQuizCommand(b, admins, userId, username).0;
      TimerFire(b1, b.timers[userId], now).0.db == b1.db
  {
  }

  /** The name a `/listusers` line shows: the username, or "unknown" without one. */
  function ListedName(row: ResultRow): (r: string)
    ensures r != ""
    ensures row.username != "" ==> r == row.username
    ensures row.username == "" ==> r == "unknown"
  {
    if row.username != "" then row.username else "unknown"
  }

  /** Line `n` of `/listusers`: the place, the name and the score. */
  function UserLine(row: ResultRow, n: nat): (line: string)
    ensures StartsWith(line, NatToString(n) + ". @" + ListedName(row) + " - Score: ")
  {
    NatToString(n) + ". @" + ListedName(row) + " - Score: " + IntToString(row.score) + "\n"
  }

  /** The numbered lines, one per listed user, in order. */
  function UserLines(users: seq<ResultRow>): (r: seq<string>)
    ensures |r| == |users|
    ensures forall i :: 0 <= i < |r| ==> r[i] == UserLine(users[i], i + 1)
  {
    seq(|users|, i requires 0 <= i < |users| => UserLine(users[i], i + 1))
  }

  /** `/listusers <id>` (admin): one numbered line per result of the quiz, by score. */
  function ListUsersCommand(db: Db, admins: seq<string>, username: string, arg: Option<string>): (o: Outcome)
    ensures !IsAdmin(admins, username) ==> o == Reply(Plain(AdminOnly))
    ensures IsAdmin(admins, username) && (arg.None? || Trim(arg.value) == "") ==> o == Reply(Plain("Usage: /listusers quiz_id"))
    ensures IsAdmin(admins, username) && arg.Some? && Trim(arg.value) != "" && |ResultsFor(db, Trim(arg.value))| == 0 ==>
      o == Reply(Plain("No users found for " + Trim(arg.value)))
    ensures IsAdmin(admins, username) && arg.Some? && Trim(arg.value) != "" && |ResultsFor(db, Trim(arg.value))| > 0 ==>
      && o.Reply?
      && o.message.text == "\U{1F465} <b>Users in " + Trim(arg.value) + ":</b>\n\n" + Join(UserLines(ListUsers(db, Trim(arg.value))), "")
      && |UserLines(ListUsers(db, Trim(arg.value)))| == |ResultsFor(db, Trim(arg.value))|
  {
    if !IsAdmin(admins, username) then Reply(Plain(AdminOnly))
    else if arg.None? || Trim(arg.value) == "" then Reply(Plain("Usage: /listusers quiz_id"))
    else
      var quizId := Trim(arg.value);
      var users := ListUsers(db, quizId);
      assert |users| == |ResultsFor(db, quizId)| by {
        assert |multiset(users)| == |multiset(ResultsFor(db, quizId))|;
      }
      if |users| == 0 then
        Reply(Plain("No users found for " + quizId))
      else
        Reply(Plain("\U{1F465} <b>Users in " + quizId + ":</b>\n\n" + Join(UserLines(users), "")))
  }
}

=== FILE: config.dfy ===
/**
 * config.js: the administrator list, read from the environment, and the
 * admin test every handler performs on the sender's user name.
 */
module Config {
  import opened Wrappers
  import opened Text

  /** `ADMIN_USERNAMES`: the environment value (or 'ys16108' when unset or empty),
      split on ',', each piece trimmed and lower-cased. */
  function AdminUsernames(env: Option<string>): (r: seq<string>)
    ensures |r| == |Split(AdminSource(env), ',')|
    ensures forall i :: 0 <= i < |r| ==> r[i] == ToLower(Trim(Split(AdminSource(env), ',')[i]))
  {
    Normalize(Split(AdminSource(env), ','))
  }

  function AdminSource(env: Option<string>): (r: string)
    ensures env.Some? && env.value != "" ==> r == env.value
    ensures !(env.Some? && env.value != "") ==> r == "ys16108"
  {
    if env.Some? && env.value != "" then env.value else "ys16108"
  }

  function Normalize(names: seq<string>): (r: seq<string>)
    ensures |r| == |names|
    ensures forall i :: 0 <= i < |names| ==> r[i] == ToLower(Trim(names[i]))
  {
    if |names| == 0 then [] else [ToLower(Trim(names[0]))] + Normalize(names[1..])
  }

  /** `ADMIN_USERNAMES.includes(username.toLowerCase())`, where a sender without a user
      name is tested as ''. */
  function IsAdmin(admins: seq<string>, username: string): (r: bool)
    ensures r <==> ToLower(username) in admins
    ensures username == "" ==> (r <==> "" in admins)
  {
    ToLower(username) in admins
  }

  /** The test ignores the letter case of the name: lower-casing it first changes nothing. */
  lemma IsAdminIgnoresCase(admins: seq<string>, username: string)
    ensures IsAdmin(admins, ToLower(username)) == IsAdmin(admins, username)
  {
    ToLowerIdempotent(username);
  }

  /** An entry of the list matches the sender whose name lower-cases to it, whatever
      spaces or capitals the environment value put around it. */
  lemma ListedNameIsAdmin(env: Option<string>, i: nat, username: string)
    requires i < |Split(AdminSource(env), ',')|
    requires ToLower(username) == ToLower(Trim(Split(AdminSource(env), ',')[i]))
    ensures IsAdmin(AdminUsernames(env), username)
  {
    assert AdminUsernames(env)[i] == ToLower(username);
  }

  /** A value naming one administrator yields exactly that name, trimmed and lower-cased. */
  lemma SingleAdmin(name: string)
    requires name != "" && ',' !in name
    ensures AdminUsernames(Some(name)) == [ToLower(Trim(name))]
  {
    SplitAbsent(name, ',');
  }

  /** Senders without a user name are tested as '', so they are administrators exactly
      when an empty piece survives in the list, as with a trailing comma. */
  lemma NamelessAdminIff(env: Option<string>)
    ensures IsAdmin(AdminUsernames(env), "") <==> "" in AdminUsernames(env)
  {
    assert ToLower("") == "";
  }
}

=== FILE: database.dfy ===
/**
 * database.js: the three SQLite tables as abstract state and every exported
 * statement as a pure function on that state.
 *
 *   users          (user_id, quiz_id) primary key -> username, first_name, has_attempted
 *   results        append-only rows with an AUTOINCREMENT id
 *   active_quizzes user_id primary key -> one in-progress session
 */
module Database {
  import opened Wrappers
  import opened Seqs
  import opened Ranking

  type UserId = int

  /** An answer as stored in `user_answers`: an option index, or null for a timeout. */
  type Answer = Option<int>

  datatype UserRow = UserRow(username: string, firstName: string, hasAttempted: int)

  datatype ResultRow = ResultRow(
    id: nat,
    userId: UserId,
    quizId: string,
    username: string,
    firstName: string,
    score: int,
    totalTime: int,
    answers: seq<Answer>)

  datatype SessionRow = SessionRow(
    quizId: string,
    currentQuestion: int,
    score: int,
    startTime: int,
    questionStartTime: int,
    answers: seq<Answer>)

  datatype Db = Db(
    users: map<(UserId, string), UserRow>,
    results: seq<ResultRow>,
    nextResultId: nat,
    sessions: map<UserId, SessionRow>)

  /** The state of a freshly created database file. */
  const EmptyDb := Db(map[], [], 1, map[])

  /** AUTOINCREMENT: ids are strictly increasing in insertion order and below the next id. */
  predicate ResultIdsFresh(db: Db)
  {
    && (forall i :: 0 <= i < |db.results| ==> db.results[i].id < db.nextResultId)
    && (forall i, j :: 0 <= i < j < |db.results| ==> db.results[i].id < db.results[j].id)
  }

  /** `initDatabase`: the tables survive (CREATE TABLE IF NOT EXISTS); every active session is deleted. */
  function InitDatabase(db: Db): (r: Db)
    ensures r.sessions == map[]
    ensures r.users == db.users && r.results == db.results && r.nextResultId == db.nextResultId
  {
    db.(sessions := map[])
  }

  /** `hasUserAttempted`: true exactly when a users row for the pair exists and its
      flag is 1; a pair without a row has not attempted the quiz. */
  function HasUserAttempted(db: Db, userId: UserId, quizId: string): (r: bool)
    ensures (userId, quizId) !in db.users ==> !r
    ensures r ==> db.users[(userId, quizId)].hasAttempted == 1
    ensures (userId, quizId) in db.users && db.users[(userId, quizId)].hasAttempted == 1 ==> r
  {
    (userId, quizId) in db.users && db.users[(userId, quizId)].hasAttempted == 1
  }

  /** `markUserAttempted`: INSERT OR REPLACE of the pair's row with has_attempted = 1. */
  function MarkUserAttempted(db: Db, userId: UserId, quizId: string, username: string, firstName: string): (r: Db)
    ensures HasUserAttempted(r, userId, quizId)
    ensures r.users[(userId, quizId)] == UserRow(username, firstName, 1)
    ensures forall k :: k != (userId, quizId) ==> (k in r.users <==> k in db.users)
    ensures forall k :: k != (userId, quizId) && k in db.users ==> r.users[k] == db.users[k]
    ensures r.results == db.results && r.nextResultId == db.nextResultId && r.sessions == db.sessions
  {
    db.(users := db.users[(userId, quizId) := UserRow(username, firstName, 1)])
  }

  /** `saveResult`: always INSERTs a new row; an earlier row for the same pair stays. */
  function SaveResult(db: Db, userId: UserId, quizId: string, username: string, firstName: string,
                      score: int, totalTime: int, answers: seq<Answer>): (r: Db)
    ensures |r.results| == |db.results| + 1
    ensures r.results[..|db.results|] == db.results
    ensures r.results[|db.results|] == ResultRow(db.nextResultId, userId, quizId, username, firstName, score, totalTime, answers)
    ensures r.nextResultId > db.nextResultId
    ensures ResultIdsFresh(db) ==> ResultIdsFresh(r)
    ensures r.users == db.users && r.sessions == db.sessions
  {
    var row := ResultRow(db.nextResultId, userId, quizId, username, firstName, score, totalTime, answers);
    db.(results := db.results + [row], nextResultId := db.nextResultId + 1)
  }

  predicate IsResultOf(row: ResultRow, userId: UserId, quizId: string)
  {
    row.userId == userId && row.quizId == quizId
  }

  /** `getUserResult`: some row for the pair, or undefined when there is none.
      SQLite does not promise which row; the contract does not either. */
  function GetUserResult(db: Db, userId: UserId, quizId: string): (r: Option<ResultRow>)
    ensures r.None? <==> forall i :: 0 <= i < |db.results| ==> !IsResultOf(db.results[i], userId, quizId)
    ensures r.Some? ==> r.value in db.results && IsResultOf(r.value, userId, quizId)
  {
    FirstResult(db.results, userId, quizId)
  }

  function FirstResult(rows: seq<ResultRow>, userId: UserId, quizId: string): (r: Option<ResultRow>)
    ensures r.None? <==> forall i :: 0 <= i < |rows| ==> !IsResultOf(rows[i], userId, quizId)
    ensures r.Some? ==> r.value in rows && IsResultOf(r.value, userId, quizId)
  {
    if |rows| == 0 then None
    else if IsResultOf(rows[0], userId, quizId) then Some(rows[0])
    else FirstResult(rows[1..], userId, quizId)
  }

  /** Leaderboard rank: higher score first, then shorter total time. */
  function LeaderboardKey(row: ResultRow): (int, int)
  {
    (row.score, -row.totalTime)
  }

  /** Row `a` would be listed strictly before row `b` on a leaderboard. */
  predicate Beats(a: ResultRow, b: ResultRow)
  {
    a.score > b.score || (a.score == b.score && a.totalTime < b.totalTime)
  }

  function ResultsFor(db: Db, quizId: string): (r: seq<ResultRow>)
    ensures forall i :: 0 <= i < |r| ==> r[i].quizId == quizId
    ensures forall i :: 0 <= i < |db.results| ==> (db.results[i] in r <==> db.results[i].quizId == quizId)
  {
    Filter(db.results, (row: ResultRow) => row.quizId == quizId)
  }

  /** `getLeaderboard`: the quiz's results ordered by score DESC, total_time ASC, LIMIT 10.
      (The statement projects four columns; the model returns whole rows.) */
  function GetLeaderboard(db: Db, quizId: string): (r: seq<ResultRow>)
    ensures |r| <= 10
    ensures |r| == if |ResultsFor(db, quizId)| < 10 then |ResultsFor(db, quizId)| else 10
    ensures forall i :: 0 <= i < |r| ==> r[i].quizId == quizId
    ensures forall i, j :: 0 <= i < j < |r| ==> !Beats(r[j], r[i])
    ensures multiset(r) <= multiset(ResultsFor(db, quizId))
    ensures |r| > 0 ==> forall x :: x in multiset(ResultsFor(db, quizId)) - multiset(r) ==> !Beats(x, r[|r| - 1])
  {
    var r := Take(SortBy(ResultsFor(db, quizId), LeaderboardKey), 10);
    LeaderboardFacts(ResultsFor(db, quizId), quizId);
    r
  }

  /** The rank order on keys is the order `Beats` states on rows. */
  lemma BeatsOutranks(a: ResultRow, b: ResultRow)
    ensures Beats(a, b) <==> Outranks(LeaderboardKey(a), LeaderboardKey(b))
  {
  }

  /** The top rows keep the quiz of the rows they are drawn from. */
  lemma TopRowsOfQuiz(all: seq<ResultRow>, r: seq<ResultRow>, quizId: string)
    requires forall i :: 0 <= i < |all| ==> all[i].quizId == quizId
    requires multiset(r) <= multiset(all)
    ensures forall i :: 0 <= i < |r| ==> r[i].quizId == quizId
  {
    forall i | 0 <= i < |r| ensures r[i].quizId == quizId {
      assert r[i] in multiset(r);
      assert r[i] in all;
      var k :| 0 <= k < |all| && all[k] == r[i];
    }
  }

  /** A prefix of a list sorted by rank key lists no row after a row it beats. */
  lemma TopRowsOrdered(sorted: seq<ResultRow>, r: seq<ResultRow>)
    requires SortedBy(sorted, LeaderboardKey) && |r| <= |sorted| && r == sorted[..|r|]
    ensures forall i, j :: 0 <= i < j < |r| ==> !Beats(r[j], r[i])
  {
    forall i, j | 0 <= i < j < |r| ensures !Beats(r[j], r[i]) {
      assert r[i] == sorted[i] && r[j] == sorted[j];
      BeatsOutranks(r[j], r[i]);
    }
  }

  /** No row left out beats the last row kept. */
  lemma TopRowsCut(all: seq<ResultRow>, r: seq<ResultRow>)
    requires |r| > 0
    requires forall x :: x in multiset(all) - multiset(r) ==> !Outranks(LeaderboardKey(x), LeaderboardKey(r[|r| - 1]))
    ensures forall x :: x in multiset(all) - multiset(r) ==> !Beats(x, r[|r| - 1])
  {
    forall x | x in multiset(all) - multiset(r) ensures !Beats(x, r[|r| - 1]) {
      BeatsOutranks(x, r[|r| - 1]);
    }
  }

  lemma LeaderboardFacts(all: seq<ResultRow>, quizId: string)
    requires forall i :: 0 <= i < |all| ==> all[i].quizId == quizId
    ensures var r := Take(SortBy(all, LeaderboardKey), 10);
      && |r| == (if |all| < 10 then |all| else 10)
      && (forall i :: 0 <= i < |r| ==> r[i].quizId == quizId)
      && (forall i, j :: 0 <= i < j < |r| ==> !Beats(r[j], r[i]))
      && multiset(r) <= multiset(all)
      && (|r| > 0 ==> forall x :: x in multiset(all) - multiset(r) ==> !Beats(x, r[|r| - 1]))
  {
    var sorted := SortBy(all, LeaderboardKey);
    TakeSortedFacts(all, sorted, 10, LeaderboardKey);
    var r := Take(sorted, 10);
    TopRowsOfQuiz(all, r, quizId);
    TopRowsOrdered(sorted, r);
    if |r| > 0 {
      TopRowsCut(all, r);
    }
  }

  /** `listUsers`: the quiz's results ordered by score DESC (username, first_name, score). */
  function ListUsers(db: Db, quizId: string): (r: seq<ResultRow>)
    ensures multiset(r) == multiset(ResultsFor(db, quizId))
    ensures forall i, j :: 0 <= i < j < |r| ==> r[i].score >= r[j].score
  {
    SortBy(ResultsFor(db, quizId), (row: ResultRow) => (row.score, 0))
  }

  /** `startQuizSession`: INSERT OR REPLACE a fresh session started at `now`. */
  function StartQuizSession(db: Db, userId: UserId, quizId: string, now: int): (r: Db)
    ensures userId in r.sessions
    ensures r.sessions[userId] == SessionRow(quizId, 0, 0, now, now, [])
    ensures forall u :: u != userId ==> (u in r.sessions <==> u in db.sessions)
    ensures forall u :: u != userId && u in db.sessions ==> r.sessions[u] == db.sessions[u]
    ensures r.users == db.users && r.results == db.results && r.nextResultId == db.nextResultId
  {
    db.(sessions := db.sessions[userId := SessionRow(quizId, 0, 0, now, now, [])])
  }

  /** `getQuizState` */
  function GetQuizState(db: Db, userId: UserId): (r: Option<SessionRow>)
    ensures r.Some? <==> userId in db.sessions
    ensures r.Some? ==> r.value == db.sessions[userId]
  {
    if userId in db.sessions then Some(db.sessions[userId]) else None
  }

  /** `updateQuizState`: an UPDATE; a user without a session row is left without one.
      quiz_id and start_time keep their values. */
  function UpdateQuizState(db: Db, userId: UserId, currentQuestion: int, score: int,
                           questionStartTime: int, answers: seq<Answer>): (r: Db)
    ensures userId !in db.sessions ==> r == db
    ensures userId in db.sessions ==>
      && userId in r.sessions
      && r.sessions[userId] == SessionRow(db.sessions[userId].quizId, currentQuestion, score,
                                          db.sessions[userId].startTime, questionStartTime, answers)
    ensures r.sessions.Keys == db.sessions.Keys
    ensures forall u :: u != userId && u in db.sessions ==> r.sessions[u] == db.sessions[u]
    ensures r.users == db.users && r.results == db.results && r.nextResultId == db.nextResultId
  {
    if userId in db.sessions then
      var s := db.sessions[userId];
      db.(sessions := db.sessions[userId := s.(currentQuestion := currentQuestion, score := score,
                                              questionStartTime := questionStartTime, answers := answers)])
    else db
  }

  /** `deleteQuizState` */
  function DeleteQuizState(db: Db, userId: UserId): (r: Db)
    ensures userId !in r.sessions
    ensures forall u :: u != userId ==> (u in r.sessions <==> u in db.sessions)
    ensures forall u :: u != userId && u in db.sessions ==> r.sessions[u] == db.sessions[u]
    ensures r.users == db.users && r.results == db.results && r.nextResultId == db.nextResultId
  {
    db.(sessions := db.sessions - {userId})
  }

  /** Deleting the user's session and starting a fresh one sets exactly that user's entry. */
  lemma RestartSession(db: Db, userId: UserId, quizId: string, now: int)
    ensures var r := StartQuizSession(DeleteQuizState(db, userId), userId, quizId, now);
      && r.sessions == db.sessions[userId := SessionRow(quizId, 0, 0, now, now, [])]
      && r.users == db.users && r.results == db.results && r.nextResultId == db.nextResultId
  {
    var r := StartQuizSession(DeleteQuizState(db, userId), userId, quizId, now);
    var m := db.sessions[userId := SessionRow(quizId, 0, 0, now, now, [])];
    assert r.sessions.Keys == m.Keys;
    assert forall u :: u in m ==> r.sessions[u] == m[u];
  }

  /** `clearUserData`: one transaction deleting the results rows and the users rows of
      (username, quiz_id); rows of other names or quizzes stay. */
  function ClearUserData(db: Db, username: string, quizId: string): (r: Db)
    ensures forall i :: 0 <= i < |r.results| ==> !(r.results[i].username == username && r.results[i].quizId == quizId)
    ensures forall i :: 0 <= i < |db.results| ==>
      (db.results[i] in r.results <==> !(db.results[i].username == username && db.results[i].quizId == quizId))
    ensures Subseq(r.results, db.results)
    ensures forall i :: 0 <= i < |r.results| ==> r.results[i] in db.results
    ensures forall k :: k in r.users <==> k in db.users && !(db.users[k].username == username && k.1 == quizId)
    ensures forall k :: k in r.users ==> r.users[k] == db.users[k]
    ensures r.sessions == db.sessions && r.nextResultId == db.nextResultId
  {
    db.(results := Filter(db.results, (row: ResultRow) => !(row.username == username && row.quizId == quizId)),
        users := map k | k in db.users && !(db.users[k].username == username && k.1 == quizId) :: db.users[k])
  }
}

=== FILE: leaderboardtable.dfy ===
/**
 * sb_quiz_website/src/components/leaderboard/LeaderboardTable.tsx: the web
 * leaderboard. Each entry becomes one row, in the order given. The medal and
 * the background follow the entry's own `rank` field, not its position. The
 * time label is the results screen's `formatTime`.
 */
module LeaderboardTable {
  import opened Wrappers
  import opened Text
  import opened QuizResults

  datatype Entry = Entry(
    rank: int, name: string, score: int, totalQuestions: int, timeSpent: int, completedAt: Option<string>)

  /** `getMedalIcon`: a medal for ranks 1 to 3, the rank number otherwise. */
  datatype Badge = Gold | Silver | Bronze | Number(n: int)

  /** `getRankBg`: a tinted background for ranks 1 to 3, plain otherwise. */
  datatype Background = GoldTint | SilverTint | BronzeTint | Plain

  function BadgeOf(rank: int): (b: Badge)
    ensures !b.Number? <==> 1 <= rank <= 3
    ensures b.Number? ==> b.n == rank
  {
    if rank == 1 then Gold else if rank == 2 then Silver else if rank == 3 then Bronze else Number(rank)
  }

  function BackgroundOf(rank: int): (g: Background)
    ensures g != Plain <==> 1 <= rank <= 3
  {
    if rank == 1 then GoldTint else if rank == 2 then SilverTint else if rank == 3 then BronzeTint else Plain
  }

  /** The two switches agree: each medal comes with its own tint. */
  lemma BadgeMatchesBackground(rank: int)
    ensures BadgeOf(rank) == Gold <==> BackgroundOf(rank) == GoldTint
    ensures BadgeOf(rank) == Silver <==> BackgroundOf(rank) == SilverTint
    ensures BadgeOf(rank) == Bronze <==> BackgroundOf(rank) == BronzeTint
    ensures BadgeOf(rank).Number? <==> BackgroundOf(rank) == Plain
  {
  }

  /** One rendered row. The percentage is absent when the entry has no questions
      (the floating-point division then gives NaN or Infinity). */
  datatype Row = Row(
    badge: Badge, background: Background, name: string, scoreText: string,
    percentage: Option<int>, time: string)

  function RowOf(e: Entry): (r: Row)
    ensures r.name == e.name && r.badge == BadgeOf(e.rank) && r.background == BackgroundOf(e.rank)
    ensures r.percentage.Some? <==> e.totalQuestions > 0
    ensures r.percentage.Some? ==> r.percentage.value == Percentage(e.score, e.totalQuestions)
    ensures r.time == FormatTime(e.timeSpent)
    ensures e.score >= 0 && e.totalQuestions >= 0 ==> ReadsBack(r.scoreText, e.score, e.totalQuestions)
  {
    ScoreTextReadsBack(e.score, e.totalQuestions);
    Row(BadgeOf(e.rank), BackgroundOf(e.rank), e.name,
        IntToString(e.score) + "/" + IntToString(e.totalQuestions),
        if e.totalQuestions > 0 then Some(Percentage(e.score, e.totalQuestions)) else None,
        FormatTime(e.timeSpent))
  }

  /** `text` is "a/b" in decimal: the digits before its first '/' read `a`, those after it read `b`. */
  predicate ReadsBack(text: string, a: nat, b: nat)
  {
    && '/' in text
    && AllDigits(text[..FirstIndex(text, '/')]) && AllDigits(text[FirstIndex(text, '/') + 1..])
    && ParseNat(text[..FirstIndex(text, '/')]) == a && ParseNat(text[FirstIndex(text, '/') + 1..]) == b
  }

  /** The score column `{score}/{totalQuestions}` reads back as the two numbers. */
  lemma ScoreTextReadsBack(score: int, total: int)
    ensures score >= 0 && total >= 0 ==> ReadsBack(IntToString(score) + "/" + IntToString(total), score, total)
  {
    if score >= 0 && total >= 0 {
      var s := NatToString(score);
      var l := s + "/" + NatToString(total);
      assert l[|s|] == '/';
      assert l[..|s|] == s;
      assert '/' !in s;
      assert FirstIndex(l, '/') == |s|;
      assert l[|s| + 1..] == NatToString(total);
      NatToStringRoundTrip(score);
      NatToStringRoundTrip(total);
    }
  }

  datatype Table = NoResultsYet | Rows(rows: seq<Row>)

  /** The table: "No Results Yet" for no entries, otherwise one row per entry in
      input order, never re-sorted, so the medal goes by the `rank` field wherever the
      entry sits (a first place listed second still gets gold). */
  function Render(entries: seq<Entry>): (t: Table)
    ensures t.NoResultsYet? <==> |entries| == 0
    ensures t.Rows? ==> |t.rows| == |entries| && forall i :: 0 <= i < |entries| ==> t.rows[i] == RowOf(entries[i])
    ensures t.Rows? ==> forall i :: 0 <= i < |entries| ==> t.rows[i].badge == BadgeOf(entries[i].rank)
  {
    if |entries| == 0 then NoResultsYet
    else Rows(seq(|entries|, i requires 0 <= i < |entries| => RowOf(entries[i])))
  }

  /** A row's percentage lies in 0..100 for a valid score. */
  lemma RowPercentageBounded(e: Entry)
    requires 0 <= e.score <= e.totalQuestions && e.totalQuestions > 0
    ensures 0 <= RowOf(e).percentage.value <= 100
  {
  }
}

=== FILE: menuhandlers.dfy ===
/**
 * menuHandlers.js: the screens the bot sends. Each `show…` function becomes a
 * function from the store and catalog to the message it would send; the
 * Telegram call itself is left out.
 */
module MenuHandlers {
  import opened Wrappers
  import opened Text
  import opened Telegram
  import opened Utils
  import opened QuizData
  import opened Database

  const Warning := "\U{26A0}\U{FE0F} "

  // ----- main menu and quiz list -----

  const BrowseQuizzesButton := Button("\U{1F4DA} Browse All Quizzes", "browse_quizzes")
  const ViewLeaderboardsButton := Button("\U{1F3C6} View Leaderboards", "view_leaderboards")

  /** `showMainMenu`: the number of live quizzes and two navigation buttons. */
  function MainMenu(cat: Catalog): (m: Message)
    ensures m.buttons == [BrowseQuizzesButton, ViewLeaderboardsButton]
    ensures Contains(m.text, "<b>Available Quizzes:</b> " + NatToString(|GetAvailableQuizzes(cat)|) + "\n")
  {
    var count := "<b>Available Quizzes:</b> " + NatToString(|GetAvailableQuizzes(cat)|) + "\n";
    var before := "\U{1F3AF} <b>Welcome to the Quiz Bot!</b>\n\n\U{1F4DA} ";
    var text := before + count
      + "\nChoose a quiz below or use:\n\U{2022} /quizzes - List all quizzes\n\U{2022} /leaderboard - View leaderboards";
    assert OccursAt(text, count, |before|);
    Message(text, [BrowseQuizzesButton, ViewLeaderboardsButton])
  }

  function QuizButton(q: Quiz): Button
  {
    Button("\U{1F4DD} " + q.title, "quiz_" + q.id)
  }

  function QuizButtons(qs: seq<Quiz>): (r: seq<Button>)
    ensures |r| == |qs|
    ensures forall i :: 0 <= i < |qs| ==> r[i] == QuizButton(qs[i])
  {
    if |qs| == 0 then [] else [QuizButton(qs[0])] + QuizButtons(qs[1..])
  }

  /** `showQuizList`: one `quiz_<id>` button per live quiz, in catalog order, or a
      warning without buttons when no quiz is live. */
  function QuizList(cat: Catalog): (m: Message)
    ensures |m.buttons| == |GetAvailableQuizzes(cat)|
    ensures forall i :: 0 <= i < |m.buttons| ==> m.buttons[i].data == "quiz_" + GetAvailableQuizzes(cat)[i].id
    ensures |GetAvailableQuizzes(cat)| == 0 ==> m.text == Warning + "No quizzes available yet."
  {
    var quizzes := GetAvailableQuizzes(cat);
    if |quizzes| == 0 then Message(Warning + "No quizzes available yet.", [])
    else Message("\U{1F4DA} <b>All Available Quizzes</b>\n\n", QuizButtons(quizzes))
  }

  // ----- quiz details -----

  function StartButton(quizId: string): Button { Button("\U{25B6}\U{FE0F} Start Quiz", "start_" + quizId) }
  function ReviewButton(quizId: string): Button { Button("\U{1F4DD} Review My Answers", "review_" + quizId) }
  function LeaderboardButton(quizId: string): Button { Button("\U{1F3C6} Leaderboard", "lb_" + quizId) }
  function ShareButton(quizId: string): Button { Button("\U{1F517} Share Quiz", "share_" + quizId) }
  const BackToQuizzesButton := Button("\U{25C0}\U{FE0F} Back to Quizzes", "browse_quizzes")

  const CompletedNote := "\U{2705} <i>You have already completed this quiz!</i>"
  const ReadyNote := "\U{2728} <i>Ready to begin?</i>"

  predicate EndsWith(s: string, suffix: string)
  {
    |suffix| <= |s| && s[|s| - |suffix|..] == suffix
  }

  /** The details keyboard: Start exactly when the quiz is not yet attempted or the user
      is an admin, Review exactly when it is attempted; Leaderboard, Share and Back always
      close it. */
  function DetailButtons(quizId: string, attempted: bool, isAdmin: bool): (b: seq<Button>)
    ensures StartButton(quizId) in b <==> !attempted || isAdmin
    ensures ReviewButton(quizId) in b <==> attempted
    ensures |b| == 3 + (if !attempted || isAdmin then 1 else 0) + (if attempted then 1 else 0)
    ensures b[|b| - 3..] == [LeaderboardButton(quizId), ShareButton(quizId), BackToQuizzesButton]
    ensures !attempted || isAdmin ==> b[0] == StartButton(quizId)
    ensures forall k :: 0 <= k < |b| ==> b[k] in [StartButton(quizId), ReviewButton(quizId),
      LeaderboardButton(quizId), ShareButton(quizId), BackToQuizzesButton]
  {
    var start := if !attempted || isAdmin then [StartButton(quizId)] else [];
    var review := if attempted then [ReviewButton(quizId)] else [];
    var tail := [LeaderboardButton(quizId), ShareButton(quizId), BackToQuizzesButton];
    var b := start + review + tail;
    assert b[|b| - 3..] == tail;
    b
  }

  /** The details text: the header, then the "already completed" note exactly when the
      quiz is attempted and the user is not an admin, else the "ready" note. */
  function DetailText(header: string, completed: bool): (t: string)
    ensures EndsWith(t, CompletedNote) <==> completed
    ensures EndsWith(t, ReadyNote) <==> !completed
  {
    NotesDiffer(header);
    header + if completed then CompletedNote else ReadyNote
  }

  /** `showQuizDetails`: None is the "Quiz not found." reply. */
  function QuizDetails(db: Db, cat: Catalog, userId: UserId, quizId: string, isAdmin: bool): (r: Option<Message>)
    ensures r.Some? <==> GetQuiz(cat, quizId).Some?
    ensures r.Some? ==>
      var attempted := HasUserAttempted(db, userId, quizId);
      var b := r.value.buttons;
      && (StartButton(quizId) in b <==> !attempted || isAdmin)
      && (ReviewButton(quizId) in b <==> attempted)
      && |b| == 3 + (if !attempted || isAdmin then 1 else 0) + (if attempted then 1 else 0)
      && b[|b| - 3..] == [LeaderboardButton(quizId), ShareButton(quizId), BackToQuizzesButton]
      && (!attempted || isAdmin ==> b[0] == StartButton(quizId))
      && (forall k :: 0 <= k < |b| ==> b[k] in [StartButton(quizId), ReviewButton(quizId),
            LeaderboardButton(quizId), ShareButton(quizId), BackToQuizzesButton])
      && (EndsWith(r.value.text, CompletedNote) <==> attempted && !isAdmin)
      && (EndsWith(r.value.text, ReadyNote) <==> !(attempted && !isAdmin))
  {
    match GetQuiz(cat, quizId)
    case None => None
    case Some(quiz) =>
      var attempted := HasUserAttempted(db, userId, quizId);
      var header := "\U{1F3AF} <b>" + EscapeHtml(quiz.title) + "</b> \U{1F4D6}\n\n";
      Some(Message(DetailText(header, attempted && !isAdmin), DetailButtons(quizId, attempted, isAdmin)))
  }

  /** A detail text ends with exactly one of the two notes. */
  lemma NotesDiffer(header: string)
    ensures EndsWith(header + CompletedNote, CompletedNote) && !EndsWith(header + CompletedNote, ReadyNote)
    ensures EndsWith(header + ReadyNote, ReadyNote) && !EndsWith(header + ReadyNote, CompletedNote)
  {
    var c, r := header + CompletedNote, header + ReadyNote;
    assert c[|header|..] == CompletedNote;
    assert r[|header|..] == ReadyNote;
    assert CompletedNote[|CompletedNote| - 5] == '!';
    assert ReadyNote[|ReadyNote| - 5] == '?';
    assert c[|c| - 5] == '!';
    assert r[|r| - 5] == '?';
  }

  // ----- answer review -----

  /** How one question of a stored result is reviewed. */
  datatype ReviewClass = TimedOut | Correct(chosen: string) | Wrong(chosen: string, correct: string)

  /** The stored answer for question `i`; a list too short for `i` reads as undefined. */
  function StoredAnswer(answers: seq<Answer>, i: nat): Answer
  {
    if i < |answers| then answers[i] else None
  }

  /** `null`/`undefined` is a timeout; equal to `correct` is correct; anything else is
      wrong and shows the correct option as well. None when an option index does not
      exist: `escapeHtml(undefined)` throws. */
  function ClassifyAnswer(q: Question, answers: seq<Answer>, i: nat): (r: Option<ReviewClass>)
    ensures StoredAnswer(answers, i).None? ==> r == Some(TimedOut)
    ensures r.Some? && r.value.Correct? <==> StoredAnswer(answers, i) == Some(q.correct) && 0 <= q.correct < |q.options|
    ensures r.Some? && r.value.Wrong? <==>
      && StoredAnswer(answers, i).Some? && StoredAnswer(answers, i) != Some(q.correct)
      && 0 <= StoredAnswer(answers, i).value < |q.options| && 0 <= q.correct < |q.options|
    ensures r.Some? && r.value.Wrong? ==> r.value.correct == q.options[q.correct]
    ensures r.Some? && !r.value.TimedOut? ==> r.value.chosen == q.options[StoredAnswer(answers, i).value]
  {
    match StoredAnswer(answers, i)
    case None => Some(TimedOut)
    case Some(c) =>
      if !(0 <= c < |q.options|) then None
      else if c == q.correct then Some(Correct(q.options[c]))
      else if 0 <= q.correct < |q.options| then Some(Wrong(q.options[c], q.options[q.correct]))
      else None
  }

  /** One question of the review: its number and escaped text, then its class's line(s). */
  function ReviewPart(i: nat, q: Question, c: ReviewClass): (p: string)
    ensures StartsWith(p, "<b>Q" + NatToString(i + 1) + ": ")
  {
    var head := "<b>Q" + NatToString(i + 1) + ": ";
    var p := head + EscapeHtml(q.question) + "</b>\n" +
      match c
      case TimedOut => "\U{23F0} Time's up - No answer\n"
      case Correct(chosen) => "\U{2705} Your answer: " + EscapeHtml(chosen) + "\n"
      case Wrong(chosen, correct) =>
        "\U{274C} Your answer: " + EscapeHtml(chosen) + "\n" + "\U{2713} Correct: " + EscapeHtml(correct) + "\n";
    assert p[..|head|] == head;
    p
  }

  /** The review parts of questions `from..`, or None when one of them throws. */
  function ReviewParts(qs: seq<Question>, answers: seq<Answer>, from: nat): (r: Option<seq<string>>)
    requires from <= |qs|
    ensures r.Some? <==> forall i :: from <= i < |qs| ==> ClassifyAnswer(qs[i], answers, i).Some?
    ensures r.Some? ==> |r.value| == |qs| - from
    ensures r.Some? ==> forall i :: from <= i < |qs| ==>
      r.value[i - from] == ReviewPart(i, qs[i], ClassifyAnswer(qs[i], answers, i).value)
    decreases |qs| - from
  {
    if from == |qs| then Some([])
    else match (ClassifyAnswer(qs[from], answers, from), ReviewParts(qs, answers, from + 1))
      case (Some(c), Some(rest)) => Some([ReviewPart(from, qs[from], c)] + rest)
      case _ => None
  }

  /** Telegram's message limit, less a margin. */
  const ReviewLimit := 4000

  /** A group of parts merged into one message stays within one UTF-16 unit of the limit. */
  predicate Bounded(group: seq<string>)
  {
    |group| <= 1 || Utf16Length(Join(group, "\n")) <= ReviewLimit + 1
  }

  /** The chunking loop with `current` the parts merged so far: a part that would push the
      chunk past the limit in UTF-16 units (measured without the '\n' it would add) starts
      a new chunk; the last chunk is sent unless its text is empty. At most one message
      per part is sent. */
  function ChunkFrom(current: seq<string>, rest: seq<string>): (gs: seq<seq<string>>)
    ensures |gs| <= 1 + |rest|
    decreases |rest|
  {
    if |rest| == 0 then (if Join(current, "\n") != "" then [current] else [])
    else if Utf16Length(Join(current, "\n") + rest[0]) > ReviewLimit then [current] + ChunkFrom([rest[0]], rest[1..])
    else ChunkFrom(current + [rest[0]], rest[1..])
  }

  /** Chunking keeps every part once and in order (only a final empty part can be lost),
      and a chunk merging several parts is at most 4001 UTF-16 units. */
  lemma ChunkFromFacts(current: seq<string>, rest: seq<string>)
    requires |current| > 0 && Bounded(current)
    ensures var gs := ChunkFrom(current, rest);
      && (forall i :: 0 <= i < |gs| ==> |gs[i]| > 0 && Bounded(gs[i]))
      && (Concat(gs) == current + rest || Concat(gs) + [""] == current + rest)
      && ((forall i :: 0 <= i < |rest| ==> rest[i] != "") && Join(current, "\n") != "" ==> Concat(gs) == current + rest)
  {
    ChunksBounded(current, rest);
    assert AllBounded(ChunkFrom(current, rest));
    ChunksKeepParts(current, rest);
  }

  /** Every chunk is non-empty and merges parts within the limit. */
  predicate AllBounded(gs: seq<seq<string>>)
  {
    forall i :: 0 <= i < |gs| ==> |gs[i]| > 0 && Bounded(gs[i])
  }

  lemma {:induction false} ChunksBounded(current: seq<string>, rest: seq<string>)
    requires |current| > 0 && Bounded(current)
    ensures AllBounded(ChunkFrom(current, rest))
    decreases |rest|
  {
    if |rest| == 0 {
    } else if Utf16Length(Join(current, "\n") + rest[0]) > ReviewLimit {
      assert Bounded([rest[0]]);
      ChunksBounded([rest[0]], rest[1..]);
      var tail := ChunkFrom([rest[0]], rest[1..]);
      var gs := [current] + tail;
      assert ChunkFrom(current, rest) == gs;
      forall i | 0 <= i < |gs|
        ensures |gs[i]| > 0 && Bounded(gs[i])
      {
        if i > 0 {
          assert gs[i] == tail[i - 1];
        }
      }
    } else {
      var next := current + [rest[0]];
      JoinSnoc(current, rest[0], "\n");
      Utf16Append(Join(current, "\n"), rest[0]);
      Utf16Append(Join(current, "\n") + "\n", rest[0]);
      Utf16Append(Join(current, "\n"), "\n");
      assert "\n"[..0] == "";
      ChunksBounded(next, rest[1..]);
    }
  }

  /** The chunks concatenate back to the parts, less at most one final empty part. */
  lemma {:induction false} ChunksKeepParts(current: seq<string>, rest: seq<string>)
    requires |current| > 0
    ensures var gs := ChunkFrom(current, rest);
      && (Concat(gs) == current + rest || Concat(gs) + [""] == current + rest)
      && ((forall i :: 0 <= i < |rest| ==> rest[i] != "") && Join(current, "\n") != "" ==> Concat(gs) == current + rest)
    decreases |rest|
  {
    if |rest| == 0 {
      if Join(current, "\n") == "" {
        JoinEmptyIsOneEmpty(current);
      }
      assert Concat([current]) == current + Concat([]);
    } else if Utf16Length(Join(current, "\n") + rest[0]) > ReviewLimit {
      var tail := ChunkFrom([rest[0]], rest[1..]);
      assert ChunkFrom(current, rest) == [current] + tail;
      ChunksKeepParts([rest[0]], rest[1..]);
      assert Join([rest[0]], "\n") == rest[0];
      KeepPartsAtBreak(current, rest[0], tail, rest[1..]);
      assert [rest[0]] + rest[1..] == rest;
    } else {
      var next := current + [rest[0]];
      assert ChunkFrom(current, rest) == ChunkFrom(next, rest[1..]);
      JoinSnoc(current, rest[0], "\n");
      ChunksKeepParts(next, rest[1..]);
      KeepPartsAtMerge(current, rest[0], rest[1..], ChunkFrom(next, rest[1..]));
      assert [rest[0]] + rest[1..] == rest;
    }
  }

  /** A chunk closed before `first` keeps the parts when the chunks after it keep theirs. */
  lemma KeepPartsAtBreak(current: seq<string>, first: string, tail: seq<seq<string>>, more: seq<string>)
    requires Concat(tail) == [first] + more || Concat(tail) + [""] == [first] + more
    requires (forall i :: 0 <= i < |more| ==> more[i] != "") && first != "" ==> Concat(tail) == [first] + more
    ensures var rest := [first] + more;
      && (Concat([current] + tail) == current + rest || Concat([current] + tail) + [""] == current + rest)
      && ((forall i :: 0 <= i < |rest| ==> rest[i] != "") ==> Concat([current] + tail) == current + rest)
  {
    var rest := [first] + more;
    ConcatCons(current, tail);
    if forall i :: 0 <= i < |rest| ==> rest[i] != "" {
      assert rest[0] == first;
      assert forall i :: 0 <= i < |more| ==> more[i] == rest[i + 1];
    }
    if Concat(tail) + [""] == rest {
      assert Concat([current] + tail) + [""] == current + rest;
    }
  }

  /** Merging `first` into the open chunk keeps the parts when the chunks after it keep theirs. */
  lemma KeepPartsAtMerge(current: seq<string>, first: string, more: seq<string>, gs: seq<seq<string>>)
    requires Join(current + [first], "\n") != ""
    requires Concat(gs) == (current + [first]) + more || Concat(gs) + [""] == (current + [first]) + more
    requires (forall i :: 0 <= i < |more| ==> more[i] != "") && Join(current + [first], "\n") != "" ==>
      Concat(gs) == (current + [first]) + more
    ensures var rest := [first] + more;
      && (Concat(gs) == current + rest || Concat(gs) + [""] == current + rest)
      && ((forall i :: 0 <= i < |rest| ==> rest[i] != "") ==> Concat(gs) == current + rest)
  {
    var rest := [first] + more;
    assert (current + [first]) + more == current + rest;
    if forall i :: 0 <= i < |rest| ==> rest[i] != "" {
      assert forall i :: 0 <= i < |more| ==> more[i] == rest[i + 1];
    }
  }

  /** Concatenating a leading group puts its parts first. */
  lemma ConcatCons(g: seq<string>, gs: seq<seq<string>>)
    ensures Concat([g] + gs) == g + Concat(gs)
  {
    assert ([g] + gs)[1..] == gs;
  }

  /** A join is empty only for a single empty part: two or more parts contain a separator. */
  lemma JoinEmptyIsOneEmpty(parts: seq<string>)
    requires |parts| > 0 && Join(parts, "\n") == ""
    ensures parts == [""]
  {
  }

  /** `showReview`'s sending rule: the joined review as one message when its JavaScript
      `length` is within 4000, otherwise the chunks. */
  function ReviewMessages(parts: seq<string>): (msgs: seq<string>)
    requires |parts| > 0
    ensures (forall i :: 0 <= i < |parts| ==> parts[i] != "") ==> Join(msgs, "\n") == Join(parts, "\n")
    ensures forall i :: 0 <= i < |msgs| ==> Utf16Length(msgs[i]) <= ReviewLimit + 1 || msgs[i] in parts
    ensures Utf16Length(Join(parts, "\n")) <= ReviewLimit ==> msgs == [Join(parts, "\n")]
    ensures Utf16Length(Join(parts, "\n")) > ReviewLimit ==> |msgs| <= |parts|
  {
    if Utf16Length(Join(parts, "\n")) <= ReviewLimit then [Join(parts, "\n")]
    else
      var gs := ChunkFrom([parts[0]], parts[1..]);
      ChunkFromFacts([parts[0]], parts[1..]);
      assert [parts[0]] + parts[1..] == parts;
      JoinOfJoins(gs, "\n");
      var msgs := JoinEach(gs, "\n");
      assert forall i :: 0 <= i < |msgs| ==> Utf16Length(msgs[i]) <= ReviewLimit + 1 || msgs[i] in parts by {
        forall i | 0 <= i < |msgs|
          ensures Utf16Length(msgs[i]) <= ReviewLimit + 1 || msgs[i] in parts
        {
          if |gs[i]| == 1 {
            ConcatMember(gs, i);
          }
        }
      }
      msgs
  }

  /** The part of a one-part group is one of the concatenated parts. */
  lemma {:induction false} ConcatMember(gs: seq<seq<string>>, i: nat)
    requires i < |gs| && |gs[i]| == 1
    ensures gs[i][0] in Concat(gs)
  {
    if i > 0 {
      ConcatMember(gs[1..], i - 1);
    }
  }

  /** The first review part: title, score over the question count, and time. */
  function ReviewHeader(quiz: Quiz, result: ResultRow): (h: string)
    ensures h != ""
  {
    "\U{1F4DD} <b>Review: " + EscapeHtml(quiz.title) + "</b>\n\n"
      + "\U{1F4CA} Score: " + IntToString(result.score) + "/" + NatToString(|quiz.questions|) + "\n"
      + "\U{23F1}\U{FE0F} Time: " + IntToString(result.totalTime) + "s\n\n"
  }

  /** Every part of a review is non-empty: the header, and each question's part
      begins with its number. */
  lemma ReviewTextsNonEmpty(header: string, qs: seq<Question>, answers: seq<Answer>, parts: seq<string>)
    requires header != "" && ReviewParts(qs, answers, 0) == Some(parts)
    ensures forall i :: 0 <= i < |[header] + parts| ==> ([header] + parts)[i] != ""
  {
    var all := [header] + parts;
    forall i | 0 <= i < |all|
      ensures all[i] != ""
    {
      if i > 0 {
        var k := i - 1;
        assert all[i] == parts[k];
        assert parts[k - 0] == ReviewPart(k, qs[k], ClassifyAnswer(qs[k], answers, k).value);
        assert |all[i]| >= 4;
      }
    }
  }

  /** What `showReview` sends. */
  datatype Review = NotTaken | QuizNotFound | Failed | Sent(messages: seq<string>)

  /** `showReview`: the stored result is looked up before the quiz; a result whose answer
      names a missing option makes the handler throw (Failed). */
  function ShowReview(db: Db, cat: Catalog, userId: UserId, quizId: string): (r: Review)
    ensures r == NotTaken <==> GetUserResult(db, userId, quizId).None?
    ensures r == QuizNotFound <==> GetUserResult(db, userId, quizId).Some? && GetQuiz(cat, quizId).None?
    ensures r.Sent? ==>
      var result := GetUserResult(db, userId, quizId).value;
      var quiz := GetQuiz(cat, quizId).value;
      && ReviewParts(quiz.questions, result.answers, 0).Some?
      && Join(r.messages, "\n") == Join([ReviewHeader(quiz, result)] + ReviewParts(quiz.questions, result.answers, 0).value, "\n")
    ensures r.Failed? <==>
      && GetUserResult(db, userId, quizId).Some? && GetQuiz(cat, quizId).Some?
      && exists i :: 0 <= i < |GetQuiz(cat, quizId).value.questions| &&
           ClassifyAnswer(GetQuiz(cat, quizId).value.questions[i], GetUserResult(db, userId, quizId).value.answers, i).None?
  {
    match GetUserResult(db, userId, quizId)
    case None => NotTaken
    case Some(result) =>
      match GetQuiz(cat, quizId)
      case None => QuizNotFound
      case Some(quiz) =>
        match ReviewParts(quiz.questions, result.answers, 0)
        case None => Failed
        case Some(parts) =>
          var all := [ReviewHeader(quiz, result)] + parts;
          ReviewTextsNonEmpty(ReviewHeader(quiz, result), quiz.questions, result.answers, parts);
          Sent(ReviewMessages(all))
  }

  // ----- leaderboard -----

  const Medals := ["\U{1F947}", "\U{1F948}", "\U{1F949}"]

  /** `medals[index] || `${index + 1}.``: a medal for the first three places. */
  function Medal(index: nat): (r: string)
    ensures index < 3 ==> r == Medals[index]
    ensures index >= 3 ==> r == NatToString(index + 1) + "."
  {
    if index < 3 then Medals[index] else NatToString(index + 1) + "."
  }

  /** A place past the third reads back as its 1-based position. */
  lemma MedalNumbersPlace(index: nat)
    requires index >= 3
    ensures var m := Medal(index);
      m[|m| - 1] == '.' && ParseNat(m[..|m| - 1]) == index + 1
  {
    var m := Medal(index);
    assert m[..|m| - 1] == NatToString(index + 1);
    NatToStringRoundTrip(index + 1);
  }

  /** Different places get different marks. */
  lemma MedalsDistinct(i: nat, j: nat)
    requires i != j
    ensures Medal(i) != Medal(j)
  {
    if i >= 3 && j >= 3 {
      var mi, mj := Medal(i), Medal(j);
      if mi == mj {
        MedalNumbersPlace(i);
        MedalNumbersPlace(j);
      }
    } else if i >= 3 || j >= 3 {
      var k := if i >= 3 then i else j;
      assert Medal(k)[0] != Medals[0][0] && Medal(k)[0] != Medals[1][0] && Medal(k)[0] != Medals[2][0];
    }
  }

  /** `entry.first_name || entry.username || 'Anonymous'` */
  function DisplayName(e: ResultRow): (r: string)
    ensures r != ""
    ensures e.firstName != "" ==> r == e.firstName
    ensures e.firstName == "" && e.username != "" ==> r == e.username
    ensures e.firstName == "" && e.username == "" ==> r == "Anonymous"
  {
    if e.firstName != "" then e.firstName else if e.username != "" then e.username else "Anonymous"
  }

  /** The place mark and the escaped name that open a leaderboard line. */
  function LinePrefix(index: nat, e: ResultRow): string
  {
    Medal(index) + " <b>" + EscapeHtml(DisplayName(e)) + "</b>"
  }

  /** Reads the tail "S/T (Ns)" of a leaderboard line back as (S, T, N); None for any
      other shape. */
  function ReadStats(t: string): Option<(int, int, int)>
  {
    if |t| >= 2 && t[|t| - 2..] == "s)" then ReadScore(t[..|t| - 2]) else None
  }

  /** "S/T (N" read as (S, T, N). */
  function ReadScore(body: string): Option<(int, int, int)>
  {
    if '/' in body then
      var i := FirstIndex(body, '/');
      match (ParseDigits(body[..i]), ReadTotal(body[i + 1..]))
      case (Some(s), Some((n, time))) => Some((s, n, time))
      case _ => None
    else None
  }

  /** "T (N" read as (T, N). */
  function ReadTotal(rest: string): Option<(int, int)>
  {
    if ' ' in rest then
      var j := FirstIndex(rest, ' ');
      var c := rest[j + 1..];
      if |c| > 0 && c[0] == '(' then
        match (ParseDigits(rest[..j]), ParseDigits(c[1..]))
        case (Some(n), Some(time)) => Some((n, time))
        case _ => None
      else None
    else None
  }

  lemma {:induction false} TotalReadBack(sb: string, sc: string)
    requires |sb| > 0 && AllDigits(sb) && |sc| > 0 && AllDigits(sc)
    ensures ReadTotal(sb + " (" + sc) == Some((ParseNat(sb), ParseNat(sc)))
  {
    var rest := sb + " (" + sc;
    assert rest[|sb|] == ' ' && rest[..|sb|] == sb;
    assert ' ' !in sb;
    FirstIndexAt(rest, ' ', |sb|);
    assert rest[|sb| + 1..] == "(" + sc;
    assert ("(" + sc)[1..] == sc;
  }

  lemma {:induction false} ScoreReadBack(sa: string, rest: string)
    requires |sa| > 0 && AllDigits(sa) && ReadTotal(rest).Some?
    ensures ReadScore(sa + "/" + rest) == Some((ParseNat(sa), ReadTotal(rest).value.0, ReadTotal(rest).value.1))
  {
    var body := sa + "/" + rest;
    assert body[|sa|] == '/' && body[..|sa|] == sa;
    assert '/' !in sa;
    FirstIndexAt(body, '/', |sa|);
    assert body[|sa| + 1..] == rest;
  }

  /** The rendered score, question count and time read back as themselves. */
  lemma {:induction false} StatsReadBack(a: nat, b: nat, c: nat)
    ensures ReadStats(NatToString(a) + "/" + NatToString(b) + " (" + NatToString(c) + "s)") == Some((a as int, b as int, c as int))
  {
    var sa, sb, sc := NatToString(a), NatToString(b), NatToString(c);
    var body := sa + "/" + (sb + " (" + sc);
    assert sa + "/" + sb + " (" + sc + "s)" == body + "s)";
    assert (body + "s)")[..|body|] == body && (body + "s)")[|body|..] == "s)";
    assert ReadStats(body + "s)") == ReadScore(body);
    TotalReadBack(sb, sc);
    ScoreReadBack(sa, sb + " (" + sc);
    NatToStringRoundTrip(a);
    NatToStringRoundTrip(b);
    NatToStringRoundTrip(c);
  }

  /** `${score}/${total} (${time}s)`: the statistics closing a leaderboard line. A
      non-negative score and time read back from it, with the question count. */
  function StatsText(score: int, totalQuestions: nat, time: int): (t: string)
    ensures score >= 0 && time >= 0 ==> ReadStats(t) == Some((score, totalQuestions as int, time))
  {
    var t := IntToString(score) + "/" + NatToString(totalQuestions) + " (" + IntToString(time) + "s)";
    if score >= 0 && time >= 0 then
      StatsReadBack(score, totalQuestions, time);
      t
    else t
  }

  /** `${medal} <b>${name}</b> - ${score}/${total} (${time}s)`: the place mark, the name
      and " - ", then the row's statistics and nothing else. */
  function LeaderboardLine(index: nat, e: ResultRow, totalQuestions: nat): (line: string)
    ensures StartsWith(line, LinePrefix(index, e) + " - ")
    ensures EndsWith(line, StatsText(e.score, totalQuestions, e.totalTime))
    ensures |line| == |LinePrefix(index, e)| + 3 + |StatsText(e.score, totalQuestions, e.totalTime)|
  {
    var head := LinePrefix(index, e) + " - ";
    var stats := StatsText(e.score, totalQuestions, e.totalTime);
    var line := head + stats;
    assert line[..|head|] == head && line[|head|..] == stats;
    line
  }

  /** One leaderboard line per row, in order, each for its place. */
  function BoardLines(top: seq<ResultRow>, totalQuestions: nat): (lines: seq<string>)
    ensures |lines| == |top|
    ensures forall i :: 0 <= i < |top| ==> StartsWith(lines[i], LinePrefix(i, top[i]) + " - ")
    ensures forall i :: 0 <= i < |top| ==> EndsWith(lines[i], StatsText(top[i].score, totalQuestions, top[i].totalTime))
  {
    seq(|top|, i requires 0 <= i < |top| => LeaderboardLine(i, top[i], totalQuestions))
  }

  datatype Board = BoardQuizNotFound | NoResults(text: string) | Standings(lines: seq<string>, text: string)

  /** `showLeaderboard`: the quiz's top ten, one line each in leaderboard order, each line
      opening with that place's mark; an empty board is the "No results yet" message. */
  function ShowLeaderboard(db: Db, cat: Catalog, botUsername: string, quizId: string): (r: Board)
    ensures r == BoardQuizNotFound <==> GetQuiz(cat, quizId).None?
    ensures r.NoResults? <==> GetQuiz(cat, quizId).Some? && |GetLeaderboard(db, quizId)| == 0
    ensures r.NoResults? ==> EndsWith(r.text, "No results yet. Be the first!")
    ensures r.Standings? ==>
      var top := GetLeaderboard(db, quizId);
      && |r.lines| == |top| > 0
      && (forall i :: 0 <= i < |top| ==> StartsWith(r.lines[i], LinePrefix(i, top[i]) + " - "))
      && forall i :: 0 <= i < |top| ==>
           EndsWith(r.lines[i], StatsText(top[i].score, |GetQuiz(cat, quizId).value.questions|, top[i].totalTime))
    ensures r.Standings? ==> EndsWith(r.text, ShareableLink(botUsername, quizId))
  {
    match GetQuiz(cat, quizId)
    case None => BoardQuizNotFound
    case Some(quiz) =>
      var top := GetLeaderboard(db, quizId);
      var title := "\U{1F3C6} <b>Leaderboard: " + EscapeHtml(quiz.title) + "</b>\n\n";
      if |top| == 0 then NoResults(title + "No results yet. Be the first!")
      else
        var lines := BoardLines(top, |quiz.questions|);
        var text := title + Join(lines, "\n") + "\n\n\U{1F517} Share: " + ShareableLink(botUsername, quizId);
        assert text[|text| - |ShareableLink(botUsername, quizId)|..] == ShareableLink(botUsername, quizId);
        Standings(lines, text)
  }
}

=== FILE: quizdata.dfy ===
/**
 * quizData.js: the bot's quiz catalog, an object literal keyed by quiz id,
 * and its three lookups.
 */
module QuizData {
  import opened Wrappers
  import opened Seqs
  import opened Records

  datatype Question = Question(question: string, options: seq<string>, correct: int)

  datatype Quiz = Quiz(
    id: string,
    title: string,
    description: string,
    createdDate: string,
    live: bool,
    questions: seq<Question>)

  type Catalog = Entries<Quiz>

  /** `getQuiz`: the quiz stored under `quizId` as an own key, or null when there is none. */
  function GetQuiz(c: Catalog, quizId: string): (r: Option<Quiz>)
    ensures r.Some? <==> quizId in Keys(c)
    ensures r.Some? ==> (quizId, r.value) in c
    ensures DistinctKeys(c) ==> forall i :: 0 <= i < |c| && c[i].0 == quizId ==> r == Some(c[i].1)
  {
    LookupAll(c);
    Lookup(c, quizId)
  }

  lemma LookupAll<V>(c: Entries<V>)
    ensures DistinctKeys(c) ==> forall i :: 0 <= i < |c| ==> Lookup(c, c[i].0) == Some(c[i].1)
  {
    if DistinctKeys(c) {
      forall i | 0 <= i < |c|
        ensures Lookup(c, c[i].0) == Some(c[i].1)
      {
        LookupUnique(c, i);
      }
    }
  }

  /** `getQuiz` as written, `QUIZZES[quizId] || null`: the bracket lookup also finds the
      properties every object inherits, and those are truthy. */
  function GetQuizAsWritten(c: Catalog, quizId: string): (r: Property<Quiz>)
    ensures r.Own? <==> GetQuiz(c, quizId).Some?
    ensures r.Own? ==> r.value == GetQuiz(c, quizId).value
    ensures r.Inherited? <==> GetQuiz(c, quizId).None? && quizId in PrototypeNames
  {
    Get(c, quizId)
  }

  /** "constructor" is not a quiz id, yet the written lookup returns something truthy for
      it, so every `if (!quiz)` guard lets it through. */
  lemma ConstructorPassesGuard()
    ensures GetQuiz(QUIZZES, "constructor").None?
    ensures GetQuizAsWritten(QUIZZES, "constructor") == Inherited("constructor")
  {
    assert "constructor" !in Keys(QUIZZES) by {
      assert Keys(QUIZZES) == ["quiz_1", "quiz_2", "quiz_3", "quiz_4", "quiz_5", "quiz_6"];
    }
    assert "constructor" in PrototypeNames;
  }

  /** `getAllQuizzes`: `Object.values(QUIZZES)`. */
  function GetAllQuizzes(c: Catalog): (r: seq<Quiz>)
    ensures |r| == |c|
    ensures forall i :: 0 <= i < |c| ==> r[i] == c[i].1
  {
    Values(c)
  }

  predicate IsLive(q: Quiz)
  {
    q.live
  }

  /** `getAvailableQuizzes`: the live quizzes, in catalog order. */
  function GetAvailableQuizzes(c: Catalog): (r: seq<Quiz>)
    ensures Subseq(r, GetAllQuizzes(c))
    ensures forall i :: 0 <= i < |r| ==> r[i].live
    ensures forall i :: 0 <= i < |c| ==> (c[i].1 in r <==> c[i].1.live)
    ensures |r| == CountIf(GetAllQuizzes(c), IsLive)
  {
    Filter(GetAllQuizzes(c), IsLive)
  }

  /** Every correct answer indexes one of its options. */
  predicate WellFormedQuestion(q: Question)
  {
    0 <= q.correct < |q.options|
  }

  predicate WellFormedQuiz(q: Quiz)
  {
    |q.questions| >= 1 && forall j :: 0 <= j < |q.questions| ==> WellFormedQuestion(q.questions[j])
  }

  /** The catalog's data invariants: unique keys, each key equal to its quiz's `id`,
      at least one question per quiz, and every `correct` in range. */
  predicate WellFormed(c: Catalog)
  {
    && DistinctKeys(c)
    && (forall i :: 0 <= i < |c| ==> c[i].0 == c[i].1.id)
    && (forall i :: 0 <= i < |c| ==> WellFormedQuiz(c[i].1))
  }

  /** A lookup in a well-formed catalog yields a well-formed quiz with the requested id. */
  lemma GetQuizWellFormed(c: Catalog, quizId: string)
    requires WellFormed(c)
    ensures GetQuiz(c, quizId).Some? ==>
      GetQuiz(c, quizId).value.id == quizId && WellFormedQuiz(GetQuiz(c, quizId).value)
  {
    if GetQuiz(c, quizId).Some? {
      var i :| 0 <= i < |c| && c[i] == (quizId, GetQuiz(c, quizId).value);
    }
  }

  /** The shipped catalog satisfies the data invariants. */
  lemma QuizzesWellFormed()
    ensures WellFormed(QUIZZES)
  {
    assert WellFormedQuiz(Quiz1);
    assert WellFormedQuiz(Quiz2);
    assert WellFormedQuiz(Quiz3);
    assert WellFormedQuiz(Quiz4);
    assert WellFormedQuiz(Quiz5);
    assert WellFormedQuiz(Quiz6);
  }

  /** Every quiz of the shipped catalog is live. */
  lemma AllQuizzesLive()
    ensures GetAvailableQuizzes(QUIZZES) == GetAllQuizzes(QUIZZES)
  {
    var all := GetAllQuizzes(QUIZZES);
    assert all == [Quiz1, Quiz2, Quiz3, Quiz4, Quiz5, Quiz6];
    assert Quiz1.live && Quiz2.live && Quiz3.live && Quiz4.live && Quiz5.live && Quiz6.live;
    FilterAll(all, IsLive);
  }

  /** `QUIZZES`, as written in quizData.js. */
  const QUIZZES: Catalog := [
    ("quiz_1", Quiz1),
    ("quiz_2", Quiz2),
    ("quiz_3", Quiz3),
    ("quiz_4", Quiz4),
    ("quiz_5", Quiz5),
    ("quiz_6", Quiz6)
  ]

  const Quiz1: Quiz := Quiz(
    "quiz_1",
    "SB Canto 3 Chapter 17",
    "Śrīmad Bhāgavatam Quiz - Canto 3 Chapter 17", "2025-12-23", true, [
      Question(
        "According to the Pinda-siddhi logic mentioned in the SB 3/17/18 purport, why was Hiranyakasipu considered the elder twin despite being born second?",
        ["He was delivered from the right side of the womb.", "Brahma explicitly named him the elder in a benediction.", "He was the first to be conceived in the womb.", "He exhibited greater physical strength at the moment of birth."],
        2),
      Question(
        "What was the cause of natural disturbances & bad omen throughout the universe?",
        ["Attack's caused by the demon's", "It was the time for a dissolution of the universe.", "End of Brahma's Kalpa.", "Birth of Diti's son's"],
        3),
      Question(
        "Which of the following was NOT described as an inauspicious omen at the birth of the demons?",
        ["She-jackals vomited fire and howled ominously.", "Cows passed dung and urine out of sheer terror.", "Flowers rained from the sky in the heavenly planets.", "The earth and mountains quaked violently."],
        2),
      Question(
        "When Hiranyaksa entered the ocean searching for a fight, how did the aquatic creatures react?",
        ["They formed an army to defend the palace of Varuna.", "They remained indifferent as he was a land-dweller.", "They fled in great fear, even though he did not strike them.", "They gathered to offer him tributes of gold and jewels."],
        2),
      Question(
        "Which one is lord Varuna's Planet?",
        ["Virajā", "Varuna loka", "Indraloka", "Vibhavari"],
        3)
    ])

  const Quiz2: Quiz := Quiz(
    "quiz_2",
    "SB Canto 3 Chapter 18",
    "Śrīmad Bhāgavatam Quiz - Canto 3 Chapter 18", "2025-12-24", true, [
      Question(
        "Who is described as the most independent demigod of the universe who came to witness the fight?",
        ["Lord Shiva", "Lord Brahma", "Indra", "Manu"],
        1),
      Question(
        "How did Lord Varaha ensure the safety of the Earth before engaging in the final duel?",
        ["He placed her on the water and empowered her to float", "He hid the Earth behind the sun", "He handed the Earth over to Lord Brahma", "He swallowed the Earth to keep her safe inside His body"],
        0),
      Question(
        "Did the demon Hiranyaksha glorify the Lord with his words, despite his wanting to deride Him?",
        ["True", "False"],
        0),
      Question(
        "Who refuses liberation even if it is offered to them?",
        ["Impersonalists", "Asuras", "Karmis", "Devotees of the Lord"],
        3)
    ])

  const Quiz3: Quiz := Quiz(
    "quiz_3",
    "SB Canto 3 Chapter 19",
    "Śrīmad Bhāgavatam Quiz - Canto 3 Chapter 19", "2025-12-25", true, [
      Question(
        "What spiritual benefit is gained by hearing or telling this story?",
        ["They will gain the physical strength of a boar.", "They will never face any financial loss.", "They are freed from even the sin of killing a brahmana and gain Vaikuṇṭha.", "They will become the next Lord Brahma."],
        2),
      Question(
        "Why did Brahmā call Hiraṇyākṣa 'blessed'?",
        ["Because his brother would eventually avenge him.", "Because he died while seeing the face of the Supreme Lord.", "Because he was the strongest demon to ever live.", "Because he was granted a place in the sun planet."],
        1),
      Question(
        "How was Hiraṇyākṣa finally killed by the Lord?",
        ["By the striking of His mace", "By the Sudarśana Cakra", "By a simple slap at the root of the ear", "By the crushing of His forefeet"],
        2),
      Question(
        "How did the Lord feel the impact of the demon's hard fist?",
        ["Like a mountain struck by a thunderbolt", "Like an elephant struck by flowers", "It caused Him great pain", "He felt a slight scratch on His chest"],
        1),
      Question(
        "What did Hiraṇyākṣa do when all his weapons were broken and his magic failed?",
        ["He tried to crush the Lord in embrace.", "He begged for a boon of immortality.", "He dove back into the depths of the ocean to hide.", "He threw a mountain at the Lord."],
        0),
      Question(
        "How did the Lord bring an end to all the demon's mystic conjuring tricks?",
        ["By drinking the rain of blood and pus.", "By blowing His conchshell, the Pāñcajanya.", "By striking the ground with His hoof.", "By casting His Sudarśana Cakra."],
        3),
      Question(
        "How did Hiraṇyākṣa react when the Lord stood before him unarmed after losing His mace?",
        ["He laughed and tried to grab the Earth.", "He immediately struck the Lord's chest.", "He respected the laws of combat and did not strike.", "He surrendered out of respect for the Lord's bravery."],
        2),
      Question(
        "What distinguishes the Lord from the inhabitants of Vaikuṇṭha?",
        ["They have distinct bodily form", "His wearing of a golden Mukuta", "His wearing of a peacock feather", "The Śrīvatsa mark on His chest"],
        3)
    ])

  const Quiz4: Quiz := Quiz(
    "quiz_4",
    "SB Canto 3 Chapter 20",
    "Śrīmad Bhāgavatam Quiz - Canto 3 Chapter 20", "2025-12-26", true, [
      Question(
        "What happened to Brahmā's body when his sons, the Kumāras, refused to follow his orders?",
        ["He became filled with a terrible anger that he tried to suppress.", "He immediately gave up his life and took a new body.", "He laughed at their determination.", "He fell into a deep sleep out of disappointment."],
        0),
      Question(
        "Who was born from between the eyebrows of Brahmā as a result of his suppressed anger?",
        ["Lord Rudra (Śiva)", "Nārada Muni", "Dakṣa", "Kardama Muni"],
        0),
      Question(
        "Which group of beings was created from Brahmā's 'shining' and 'jovial' form, associated with the daytime?",
        ["The ghosts and spirits.", "The Demigods (Devas).", "The Rakshasas (Man-eaters).", "The Pitṛs (Ancestors)."],
        1),
      Question(
        "From which part of Brahmā were the sages (like Marīci, Atri, and Vasiṣṭha) born?",
        ["From various limbs and parts of his body.", "From his breath (Prāna).", "From his hair.", "From his tears."],
        0),
      Question(
        "When the Yakṣas and Rākṣasas were born, what was their immediate reaction toward Brahma?",
        ["They offered him prayers and flowers.", "They ran to Eat him out of extreme hunger and thirst.", "They asked him for a kingdom to rule.", "They immediately began performing severe penance."],
        1),
      Question(
        "What entities were created from the hair that dropped from Brahma's body while he was crawling in a frustrated state?",
        ["Birds and flying insects.", "Ferocious snakes and cobras (Nāgas).", "The forest trees and medicinal herbs.", "Small animals like rabbits and deer."],
        1),
      Question(
        "From which part of Brahma's body were the ghosts (Bhūtas) and fiends (Piśācas) evolved?",
        ["From his sloth and laziness.", "From his laughter.", "From his shadow.", "From his fingernails."],
        0),
      Question(
        "The more one is free from the desire for sex, the more he is promoted to the level of the demigods.",
        ["True", "False"],
        0)
    ])

  const Quiz5: Quiz := Quiz(
    "quiz_5",
    "SB Canto 3 Chapter 21",
    "Śrīmad Bhāgavatam Quiz - Canto 3 Chapter 21", "2025-12-27", true, [
      Question(
        "What did Svāyambhuva Manu do every morning to keep his kingdom spiritual?",
        ["He slept until the sun was high in the sky", "He listened to the pastimes of the Lord", "He counted the taxes collected from the people", "He practiced sword fighting for many hours"],
        1),
      Question(
        "Why is the city of Barhiṣmatī considered a holy place (pīṭha-sthāna)?",
        ["Because the hairs of Lord Varāha fell there", "Because it was the capital of the largest empire", "Because it was built using very expensive stones", "Because the weather there was always perfect"],
        0),
      Question(
        "What makes a person's life meaningful, even if it is very short?",
        ["Having a lot of money and power", "Spending every moment in spiritual service", "Living longer than a thousand years", "Writing many books about history"],
        1),
      Question(
        "How can we make sure a very long life is not wasted?",
        ["By hearing and chanting about the Lord's pastimes", "By building a famous historical legacy", "By exercising to stay young forever", "By traveling to every country in the world"],
        0),
      Question(
        "Why is hearing from a spiritual teacher the best way to learn?",
        ["It saves us from making our own mistakes", "It gives knowledge inaccessible to eyes and ears", "It is a nice social tradition to show respect", "It is easier than reading books by ourselves"],
        1),
      Question(
        "Why did Kardama Muni agree to marry after being a monk?",
        ["He was lonely and wanted a friend", "The King forced him to accept his daughter", "His vow was finished and his Guru gave permission", "He was tired of living in the forest"],
        2),
      Question(
        "What is the main goal of family life for a devotee?",
        ["To achieve a high status in society", "To earn money to live comfortably", "To make a child a devotee of Lord", "To live a long and healthy physical life"],
        2),
      Question(
        "What was Kardama Muni's main reason for getting married?",
        ["To fulfill his own material desires", "To follow the Lord's will and help creation", "To get a portion of the King's wealth", "To make his daily life easier and lazier"],
        1),
      Question(
        "How should a devotee use their body, mind, and words?",
        ["To gain personal fame and mystic powers", "To fulfill all social and family duties perfectly", "To satisfy and please the Supreme Lord", "To keep the body healthy and live for a long time"],
        2),
      Question(
        "Why is hearing the truth better than seeing it with our eyes?",
        ["Because eyes are too slow to see everything", "Because our senses are limited and easily tricked", "Because books are more famous than memories", "Because you can hear things even in the dark"],
        1)
    ])

  const Quiz6: Quiz := Quiz(
    "quiz_6",
    "SB Canto 3 Chapter 22",
    "Śrīmad Bhāgavatam Quiz - Canto 3 Chapter 22", "2025-01-08", true, [
      Question(
        "What did Svāyambhuva Manu do every morning to keep his kingdom spiritual?",
        ["He slept until the sun was high in the sky", "He listened to the pastimes of the Lord", "He counted the taxes collected from the people", "He practiced sword fighting for many hours"],
        1),
      Question(
        "Why is the city of Barhiṣmatī considered a holy place (pīṭha-sthāna)?",
        ["Because the hairs of Lord Varāha fell there", "Because it was the capital of the largest empire", "Because it was built using very expensive stones", "Because the weather there was always perfect"],
        0),
      Question(
        "What makes a person's life meaningful, even if it is very short?",
        ["Having a lot of money and power", "Spending every moment in spiritual service", "Living longer than a thousand years", "Writing many books about history"],
        1),
      Question(
        "How can we make sure a very long life is not wasted?",
        ["By hearing and chanting about the Lord's pastimes", "By building a famous historical legacy", "By exercising to stay young forever", "By traveling to every country in the world"],
        0),
      Question(
        "Why is hearing from a spiritual teacher the best way to learn?",
        ["It saves us from making our own mistakes", "It gives knowledge inaccessible to eyes and ears", "It is a nice social tradition to show respect", "It is easier than reading books by ourselves"],
        1),
      Question(
        "Why did Kardama Muni agree to marry after being a monk?",
        ["He was lonely and wanted a friend", "The King forced him to accept his daughter", "His vow was finished and his Guru gave permission", "He was tired of living in the forest"],
        2),
      Question(
        "What is the main goal of family life for a devotee?",
        ["To achieve a high status in society", "To earn money to live comfortably", "To make a child a devotee of Lord", "To live a long and healthy physical life"],
        2),
      Question(
        "What was Kardama Muni's main reason for getting married?",
        ["To fulfill his own material desires", "To follow the Lord's will and help creation", "To get a portion of the King's wealth", "To make his daily life easier and lazier"],
        1),
      Question(
        "How should a devotee use their body, mind, and words?",
        ["To gain personal fame and mystic powers", "To fulfill all social and family duties perfectly", "To satisfy and please the Supreme Lord", "To keep the body healthy and live for a long time"],
        2),
      Question(
        "Why is hearing the truth better than seeing it with our eyes?",
        ["Because eyes are too slow to see everything", "Because our senses are limited and easily tricked", "Because books are more famous than memories", "Because you can hear things even in the dark"],
        1)
    ])
}

=== FILE: quizlogic.dfy ===
/**
 * quizLogic.js: the bot's session engine.
 *
 * JavaScript runs one event-loop step at a time, and better-sqlite3 is
 * synchronous, so every stretch of a handler between two `await`s is one
 * atomic transition of `Bot`. A handler that awaits is cut at the await:
 *
 *   HandlePollAnswer  the poll answer up to `sleep(1500)`; its follow-up is `SendQuestion(k+1)`
 *   TimerFire         the auto-advance closure up to its `sendQuestion(k+1)`
 *   SendQuestion      `sendQuestion` once `sendPoll` has returned (or finishQuiz's first half)
 *   FinishBegin       `finishQuiz` up to `await bot.getChat`
 *   FinishCommit      `finishQuiz` after `getChat`: the writes
 *
 * Timers are explicit: `timers` is the `userTimers` registry (the handle last
 * armed for a user) and `pending` holds every timeout that has neither fired
 * nor been cleared. A timeout firing is an event that may occur between any
 * two steps.
 */
module QuizLogic {
  import opened Wrappers
  import opened QuizData
  import opened Database

  /** config.js `QUESTION_TIME_LIMIT`, in seconds. */
  const QuestionTimeLimit: int := 60

  /** The auto-advance timeout fires two seconds after the poll closes. */
  const AutoAdvanceDelayMs: int := (QuestionTimeLimit + 2) * 1000

  /** An entry of `userPolls`. */
  datatype PollInfo = PollInfo(userId: UserId, chatId: int, quizId: string, questionIndex: int, correctAnswer: int)

  /** The closure `sendQuestion` hands to `setTimeout`. */
  datatype Timeout = Timeout(userId: UserId, chatId: int, quizId: string, questionIndex: int, pollId: string)

  datatype Bot = Bot(
    db: Db,
    polls: map<string, PollInfo>,
    timers: map<UserId, nat>,
    pending: map<nat, Timeout>,
    nextTimer: nat)

  /** A `sendQuestion(bot, chatId, userId, quizId, questionIndex)` call still to be made. */
  datatype Ask = Ask(chatId: int, userId: UserId, quizId: string, questionIndex: int)

  /** Process start: the database after `initDatabase`, and empty in-memory registries. */
  function Boot(db: Db): (b: Bot)
    ensures b.db.sessions == map[] && b.db.users == db.users && b.db.results == db.results
    ensures b.db.nextResultId == db.nextResultId
    ensures b.polls == map[] && b.timers == map[] && b.pending == map[]
  {
    Bot(InitDatabase(db), map[], map[], map[], 0)
  }

  /** `clearTimer`: cancels the user's registered timeout, if any, and forgets the handle. */
  function ClearTimer(b: Bot, userId: UserId): (r: Bot)
    ensures userId !in r.timers
    ensures r.timers == b.timers - {userId}
    ensures forall u :: u != userId ==> (u in r.timers <==> u in b.timers)
    ensures forall u :: u != userId && u in b.timers ==> r.timers[u] == b.timers[u]
    ensures userId in b.timers ==> r.pending == b.pending - {b.timers[userId]}
    ensures userId !in b.timers ==> r.pending == b.pending
    ensures r.db == b.db && r.polls == b.polls && r.nextTimer == b.nextTimer
  {
    if userId in b.timers then
      b.(pending := b.pending - {b.timers[userId]}, timers := b.timers - {userId})
    else b
  }

  /** The length guard both handlers share: the user has a session holding at most
      `questionIndex` answers. Neither `current_question` nor `quiz_id` is consulted. */
  predicate Admits(db: Db, userId: UserId, questionIndex: int)
  {
    userId in db.sessions && |db.sessions[userId].answers| <= questionIndex
  }

  /** The option a poll answer carries: `option_ids[0]`, undefined (stored as null) when empty. */
  function ChosenOption(optionIds: seq<int>): (r: Answer)
    ensures r.None? <==> |optionIds| == 0
    ensures r.Some? ==> r.value == optionIds[0]
  {
    if |optionIds| > 0 then Some(optionIds[0]) else None
  }

  /** `handlePollAnswer` up to its `sleep`: records the answer of poll `pollId`
      when the poll is known and the guard admits its question. */
  function HandlePollAnswer(b: Bot, pollId: string, optionIds: seq<int>, now: int): (r: (Bot, Option<Ask>))
    ensures !(pollId in b.polls && Admits(b.db, b.polls[pollId].userId, b.polls[pollId].questionIndex)) ==>
      r.0 == b && r.1 == None
    ensures pollId in b.polls && Admits(b.db, b.polls[pollId].userId, b.polls[pollId].questionIndex) ==>
      var p := b.polls[pollId];
      var s := b.db.sessions[p.userId];
      var choice := ChosenOption(optionIds);
      && p.userId in r.0.db.sessions
      && r.0.db.sessions[p.userId] == SessionRow(
           s.quizId, p.questionIndex + 1,
           if choice == Some(p.correctAnswer) then s.score + 1 else s.score,
           s.startTime, now, s.answers + [choice])
      && pollId !in r.0.polls
      && p.userId !in r.0.timers
      && r.1 == Some(Ask(p.chatId, p.userId, p.quizId, p.questionIndex + 1))
    ensures pollId in b.polls && Admits(b.db, b.polls[pollId].userId, b.polls[pollId].questionIndex) ==>
      var u := b.polls[pollId].userId;
      && r.0.polls == b.polls - {pollId}
      && r.0.timers == b.timers - {u}
      && (u in b.timers ==> r.0.pending == b.pending - {b.timers[u]})
      && (u !in b.timers ==> r.0.pending == b.pending)
    ensures r.0.db.results == b.db.results && r.0.db.nextResultId == b.db.nextResultId
    ensures r.0.db.users == b.db.users && r.0.nextTimer == b.nextTimer
    ensures r.0.db.sessions.Keys == b.db.sessions.Keys
    ensures pollId in b.polls ==>
      forall u :: u in b.db.sessions && u != b.polls[pollId].userId ==> r.0.db.sessions[u] == b.db.sessions[u]
  {
    if pollId !in b.polls then (b, None)
    else
      var p := b.polls[pollId];
      match GetQuizState(b.db, p.userId)
      case None => (b, None)
      case Some(s) =>
        if |s.answers| > p.questionIndex then (b, None)
        else
          var b1 := ClearTimer(b, p.userId);
          var choice := ChosenOption(optionIds);
          var isCorrect := choice == Some(p.correctAnswer);
          var db := UpdateQuizState(b1.db, p.userId, p.questionIndex + 1,
                                    if isCorrect then s.score + 1 else s.score, now, s.answers + [choice]);
          (b1.(db := db, polls := b1.polls - {pollId}), Some(Ask(p.chatId, p.userId, p.quizId, p.questionIndex + 1)))
  }

  /** The auto-advance closure of timeout `timer`: when the guard admits its question it
      records a timeout (null), leaves the score alone and drops the poll. A handle that
      is not pending (cleared or already fired) never fires. */
  function TimerFire(b: Bot, timer: nat, now: int): (r: (Bot, Option<Ask>))
    ensures timer !in b.pending ==> r.0 == b && r.1 == None
    ensures timer in b.pending ==> r.0.pending == b.pending - {timer} && r.0.polls.Keys <= b.polls.Keys
    ensures timer in b.pending && !Admits(b.db, b.pending[timer].userId, b.pending[timer].questionIndex) ==>
      r.0.db == b.db && r.0.polls == b.polls && r.1 == None
    ensures timer in b.pending && Admits(b.db, b.pending[timer].userId, b.pending[timer].questionIndex) ==>
      var t := b.pending[timer];
      var s := b.db.sessions[t.userId];
      && t.userId in r.0.db.sessions
      && r.0.db.sessions[t.userId] == SessionRow(s.quizId, t.questionIndex + 1, s.score, s.startTime, now, s.answers + [None])
      && r.0.polls == b.polls - {t.pollId}
      && r.1 == Some(Ask(t.chatId, t.userId, t.quizId, t.questionIndex + 1))
    ensures r.0.timers == b.timers && r.0.nextTimer == b.nextTimer
    ensures r.0.db.results == b.db.results && r.0.db.nextResultId == b.db.nextResultId
    ensures r.0.db.users == b.db.users
    ensures r.0.db.sessions.Keys == b.db.sessions.Keys
    ensures timer in b.pending ==>
      forall u :: u in b.db.sessions && u != b.pending[timer].userId ==> r.0.db.sessions[u] == b.db.sessions[u]
  {
    if timer !in b.pending then (b, None)
    else
      var t := b.pending[timer];
      var b1 := b.(pending := b.pending - {timer});
      match GetQuizState(b1.db, t.userId)
      case None => (b1, None)
      case Some(s) =>
        if |s.answers| <= t.questionIndex then
          var db := UpdateQuizState(b1.db, t.userId, t.questionIndex + 1, s.score, now, s.answers + [None]);
          (b1.(db := db, polls := b1.polls - {t.pollId}), Some(Ask(t.chatId, t.userId, t.quizId, t.questionIndex + 1)))
        else (b1, None)
  }

  /** What finishQuiz read before awaiting `getChat`. */
  datatype Completion = Completion(
    userId: UserId, quizId: string, score: int, totalTime: int, answers: seq<Answer>, totalQuestions: nat)

  /** `finishQuiz` up to `await bot.getChat`: reads the session and stamps the total time
      `floor((now - start_time) / 1000)`. None when the session or the quiz is missing
      ("Quiz session not found."). Nothing is written yet. */
  function FinishBegin(b: Bot, cat: Catalog, userId: UserId, quizId: string, now: int): (c: Option<Completion>)
    ensures c.Some? <==> userId in b.db.sessions && GetQuiz(cat, quizId).Some?
    ensures c.Some? ==>
      var s := b.db.sessions[userId];
      && c.value.score == s.score && c.value.answers == s.answers
      && c.value.totalTime * 1000 <= now - s.startTime < (c.value.totalTime + 1) * 1000
      && c.value.totalQuestions == |GetQuiz(cat, quizId).value.questions|
      && c.value.userId == userId && c.value.quizId == quizId
  {
    match (GetQuizState(b.db, userId), GetQuiz(cat, quizId))
    case (Some(s), Some(q)) =>
      Some(Completion(userId, quizId, s.score, (now - s.startTime) / 1000, s.answers, |q.questions|))
    case _ => None
  }

  /** What `bot.getChat` resolved to; None when it rejected. An absent field is "". */
  datatype ChatInfo = ChatInfo(username: string, firstName: string)

  /** `user.username || 'Unknown'`; a failed lookup behaves as `{username: 'Unknown'}`. */
  function DisplayUsername(info: Option<ChatInfo>): (r: string)
    ensures r != ""
    ensures info.Some? && info.value.username != "" ==> r == info.value.username
    ensures !(info.Some? && info.value.username != "") ==> r == "Unknown"
  {
    if info.Some? && info.value.username != "" then info.value.username else "Unknown"
  }

  /** `user.first_name || 'User'` */
  function DisplayFirstName(info: Option<ChatInfo>): (r: string)
    ensures r != ""
    ensures info.Some? && info.value.firstName != "" ==> r == info.value.firstName
    ensures !(info.Some? && info.value.firstName != "") ==> r == "User"
  {
    if info.Some? && info.value.firstName != "" then info.value.firstName else "User"
  }

  /** `finishQuiz` after `getChat`: marks the quiz attempted, appends one result carrying
      the snapshot's score, time and answers, deletes the session and clears the timer. */
  function FinishCommit(b: Bot, c: Completion, info: Option<ChatInfo>): (r: Bot)
    ensures HasUserAttempted(r.db, c.userId, c.quizId)
    ensures |r.db.results| == |b.db.results| + 1
    ensures r.db.results[..|b.db.results|] == b.db.results
    ensures var row := r.db.results[|b.db.results|];
      && row.userId == c.userId && row.quizId == c.quizId
      && row.score == c.score && row.totalTime == c.totalTime && row.answers == c.answers
      && row.username == DisplayUsername(info) && row.firstName == DisplayFirstName(info)
    ensures c.userId !in r.db.sessions && c.userId !in r.timers
    ensures forall u :: u != c.userId ==> (u in r.db.sessions <==> u in b.db.sessions)
    ensures forall u :: u in r.db.sessions ==> r.db.sessions[u] == b.db.sessions[u]
    ensures r.db.users == b.db.users[(c.userId, c.quizId) := UserRow(DisplayUsername(info), DisplayFirstName(info), 1)]
    ensures r.db.nextResultId > b.db.nextResultId
    ensures r.polls == b.polls && r.timers == b.timers - {c.userId} && r.nextTimer == b.nextTimer
    ensures c.userId in b.timers ==> r.pending == b.pending - {b.timers[c.userId]}
    ensures c.userId !in b.timers ==> r.pending == b.pending
  {
    var name := DisplayUsername(info);
    var first := DisplayFirstName(info);
    var db1 := MarkUserAttempted(b.db, c.userId, c.quizId, name, first);
    var db2 := SaveResult(db1, c.userId, c.quizId, name, first, c.score, c.totalTime, c.answers);
    var db3 := DeleteQuizState(db2, c.userId);
    ClearTimer(b.(db := db3), c.userId)
  }
  /** When `bot.getChat` rejects, the saved result and the users row carry the
      'Unknown' and 'User' fallbacks. */
  lemma FailedChatSavesDefaults(b: Bot, c: Completion)
    ensures var r := FinishCommit(b, c, None);
      && r.db.results[|b.db.results|].username == "Unknown"
      && r.db.results[|b.db.results|].firstName == "User"
      && r.db.users[(c.userId, c.quizId)] == UserRow("Unknown", "User", 1)
  {
  }


  /** The result emoji of the completion message: percentage >= 80, >= 60, otherwise. */
  datatype Tier = Trophy | Clap | Muscle

  /** Compares `score / total * 100` with the thresholds exactly, without rounding. */
  function CompletionTier(score: int, totalQuestions: nat): (t: Tier)
    requires totalQuestions > 0
    ensures t == Trophy <==> score * 100 >= 80 * totalQuestions
    ensures t == Clap <==> 60 * totalQuestions <= score * 100 < 80 * totalQuestions
  {
    if score * 100 >= 80 * totalQuestions then Trophy
    else if score * 100 >= 60 * totalQuestions then Clap
    else Muscle
  }

  /** What one `sendQuestion` step did. */
  datatype Sent =
    | QuizDataNotFound
    | NoQuestions
    | Finishing(completion: Option<Completion>)
    | PollFailed
    | Posted(pollId: string, timer: nat)

  /** `sendQuestion`, with `poll` the id Telegram assigned to the posted poll (None when
      `sendPoll` rejected). An unknown quiz or an empty question list posts nothing; an
      index past the last question enters `finishQuiz`; otherwise the poll is registered
      and a fresh timeout is armed and recorded as the user's timer, overwriting (not
      clearing) any handle registered before. Asks start at index 0 and only ever move
      one question forward, so no caller produces a negative index; the JavaScript
      would throw reading `questions[-1]`, and the model posts nothing for one. */
  function SendQuestion(b: Bot, cat: Catalog, ask: Ask, poll: Option<string>, now: int): (r: (Bot, Sent))
    ensures GetQuiz(cat, ask.quizId).None? ==> r == (b, QuizDataNotFound)
    ensures GetQuiz(cat, ask.quizId).Some? && |GetQuiz(cat, ask.quizId).value.questions| == 0 ==> r == (b, NoQuestions)
    ensures GetQuiz(cat, ask.quizId).Some? && 0 < |GetQuiz(cat, ask.quizId).value.questions| <= ask.questionIndex ==>
      r == (b, Finishing(FinishBegin(b, cat, ask.userId, ask.quizId, now)))
    ensures r.1.Posted? ==>
      var q := GetQuiz(cat, ask.quizId).value;
      && 0 <= ask.questionIndex < |q.questions|
      && r.0.db == b.db
      && r.0.polls == b.polls[r.1.pollId := PollInfo(ask.userId, ask.chatId, ask.quizId, ask.questionIndex,
                                                      q.questions[ask.questionIndex].correct)]
      && (HandlesBelow(b) ==> r.1.timer !in b.pending)
      && r.0.pending == b.pending[r.1.timer := Timeout(ask.userId, ask.chatId, ask.quizId, ask.questionIndex, r.1.pollId)]
      && r.0.timers == b.timers[ask.userId := r.1.timer]
    ensures !r.1.Posted? ==> r.0 == b
    ensures r.1.Posted? <==>
      && GetQuiz(cat, ask.quizId).Some? && 0 <= ask.questionIndex < |GetQuiz(cat, ask.quizId).value.questions|
      && poll.Some?
    ensures r.1.Posted? ==> r.1 == Posted(poll.value, b.nextTimer) && r.0.nextTimer == b.nextTimer + 1
  {
    match GetQuiz(cat, ask.quizId)
    case None => (b, QuizDataNotFound)
    case Some(q) =>
      if |q.questions| == 0 then (b, NoQuestions)
      else if ask.questionIndex >= |q.questions| then (b, Finishing(FinishBegin(b, cat, ask.userId, ask.quizId, now)))
      else if ask.questionIndex < 0 then (b, PollFailed)
      else match poll
        case None => (b, PollFailed)
        case Some(pollId) =>
          var timer := b.nextTimer;
          var info := PollInfo(ask.userId, ask.chatId, ask.quizId, ask.questionIndex, q.questions[ask.questionIndex].correct);
          (b.(polls := b.polls[pollId := info],
              pending := b.pending[timer := Timeout(ask.userId, ask.chatId, ask.quizId, ask.questionIndex, pollId)],
              timers := b.timers[ask.userId := timer],
              nextTimer := timer + 1),
           Posted(pollId, timer))
  }

  /** Handles come from a counter, so every pending handle lies below `nextTimer`. */
  predicate HandlesBelow(b: Bot)
  {
    forall t :: t in b.pending ==> t < b.nextTimer
  }

  /** A session whose counters agree with its answers: one answer per question passed. */
  predicate SessionShaped(s: SessionRow)
  {
    s.currentQuestion == |s.answers| && 0 <= s.score <= |s.answers|
  }

  /** Recording an answer keeps a shaped session shaped exactly when the poll is for the
      question the session is on; a poll for a later question (the guard only checks
      `answers.length <= questionIndex`) desynchronises `current_question` from the
      answers. */
  lemma AnswerKeepsShapeIff(b: Bot, pollId: string, optionIds: seq<int>, now: int)
    requires pollId in b.polls
    requires Admits(b.db, b.polls[pollId].userId, b.polls[pollId].questionIndex)
    requires SessionShaped(b.db.sessions[b.polls[pollId].userId])
    ensures var u := b.polls[pollId].userId;
      var r := HandlePollAnswer(b, pollId, optionIds, now).0;
      SessionShaped(r.db.sessions[u]) <==> b.polls[pollId].questionIndex == |b.db.sessions[u].answers|
  {
  }

  /** The timeout counterpart of `AnswerKeepsShapeIff`. */
  lemma TimeoutKeepsShapeIff(b: Bot, timer: nat, now: int)
    requires timer in b.pending
    requires Admits(b.db, b.pending[timer].userId, b.pending[timer].questionIndex)
    requires SessionShaped(b.db.sessions[b.pending[timer].userId])
    ensures var u := b.pending[timer].userId;
      var r := TimerFire(b, timer, now).0;
      SessionShaped(r.db.sessions[u]) <==> b.pending[timer].questionIndex == |b.db.sessions[u].answers|
  {
  }

  /** The poll for question k and the timeout for question k race. */
  predicate RacingPair(b: Bot, pollId: string, timer: nat)
  {
    && pollId in b.polls && timer in b.pending
    && b.pending[timer].userId == b.polls[pollId].userId
    && b.pending[timer].questionIndex == b.polls[pollId].questionIndex
    && b.pending[timer].pollId == pollId
  }

  /** Answer first, then the timeout fires: the answer is recorded once and the timeout
      changes neither the session nor the polls, whether or not clearTimer had cancelled it.
      The session must be on the poll's question: for a poll ahead of the session the guard
      would admit both. */
  lemma AnswerThenTimeout(b: Bot, pollId: string, optionIds: seq<int>, timer: nat, now1: int, now2: int)
    requires RacingPair(b, pollId, timer)
    requires b.polls[pollId].userId in b.db.sessions
    requires |b.db.sessions[b.polls[pollId].userId].answers| == b.polls[pollId].questionIndex
    ensures var u := b.polls[pollId].userId;
      var b1 := HandlePollAnswer(b, pollId, optionIds, now1).0;
      var (b2, next) := TimerFire(b1, timer, now2);
      && b2.db == b1.db && next == None
      && b2.db.sessions[u].answers == b.db.sessions[u].answers + [ChosenOption(optionIds)]
  {
    var u := b.polls[pollId].userId;
    var k := b.polls[pollId].questionIndex;
    var b1 := HandlePollAnswer(b, pollId, optionIds, now1).0;
    assert |b1.db.sessions[u].answers| == |b.db.sessions[u].answers| + 1;
    assert !Admits(b1.db, u, k);
  }

  /** Timeout first, then the answer arrives: the timeout is recorded once, the poll is
      gone, and the late answer changes nothing. */
  lemma TimeoutThenAnswer(b: Bot, pollId: string, optionIds: seq<int>, timer: nat, now1: int, now2: int)
    requires RacingPair(b, pollId, timer)
    requires b.polls[pollId].userId in b.db.sessions
    requires |b.db.sessions[b.polls[pollId].userId].answers| == b.polls[pollId].questionIndex
    ensures var u := b.polls[pollId].userId;
      var b1 := TimerFire(b, timer, now1).0;
      var (b2, next) := HandlePollAnswer(b1, pollId, optionIds, now2);
      && b2 == b1 && next == None
      && b2.db.sessions[u].answers == b.db.sessions[u].answers + [None]
  {
  }

  /** Two answers for the same poll (a duplicate update): the second changes nothing. */
  lemma AnswerTwice(b: Bot, pollId: string, first: seq<int>, second: seq<int>, now1: int, now2: int)
    requires pollId in b.polls
    ensures var b1 := HandlePollAnswer(b, pollId, first, now1).0;
      HandlePollAnswer(b1, pollId, second, now2) == (b1, None)
  {
  }

  /** After `/resetquiz` or `/clearuser` deleted the session, a pending timeout fires
      without touching the database. */
  lemma TimeoutAfterReset(b: Bot, timer: nat, now: int)
    requires timer in b.pending
    ensures var b1 := b.(db := DeleteQuizState(b.db, b.pending[timer].userId));
      TimerFire(b1, timer, now).0.db == b1.db
  {
  }

  /** `finishQuiz` without a session reaches none of its writes. */
  lemma FinishWithoutSession(b: Bot, cat: Catalog, userId: UserId, quizId: string, now: int)
    requires userId !in b.db.sessions
    ensures FinishBegin(b, cat, userId, quizId, now) == None
  {
  }

  /** Two `finishQuiz` calls that both read the session before either reaches its writes
      (each is suspended in `getChat`) both commit: two result rows for one attempt. */
  lemma InterleavedFinishSavesTwice(b: Bot, cat: Catalog, userId: UserId, quizId: string, now1: int, now2: int,
                                    i1: Option<ChatInfo>, i2: Option<ChatInfo>)
    requires userId in b.db.sessions && GetQuiz(cat, quizId).Some?
    ensures var c1 := FinishBegin(b, cat, userId, quizId, now1);
      var c2 := FinishBegin(b, cat, userId, quizId, now2);
      && c1.Some? && c2.Some?
      && |FinishCommit(FinishCommit(b, c1.value, i1), c2.value, i2).db.results| == |b.db.results| + 2
  {
  }

  /** Every step keeps timer handles below the counter, so a freshly armed handle never
      collides with a pending one. */
  lemma StepsKeepHandlesBelow(b: Bot, cat: Catalog, pollId: string, optionIds: seq<int>, timer: nat,
                              ask: Ask, poll: Option<string>, c: Completion, info: Option<ChatInfo>, now: int)
    requires HandlesBelow(b)
    ensures HandlesBelow(HandlePollAnswer(b, pollId, optionIds, now).0)
    ensures HandlesBelow(TimerFire(b, timer, now).0)
    ensures HandlesBelow(SendQuestion(b, cat, ask, poll, now).0)
    ensures HandlesBelow(FinishCommit(b, c, info))
    ensures HandlesBelow(Boot(b.db))
  {
    AnswerKeepsHandlesBelow(b, pollId, optionIds, now);
    FireKeepsHandlesBelow(b, timer, now);
    SendKeepsHandlesBelow(b, cat, ask, poll, now);
  }

  lemma AnswerKeepsHandlesBelow(b: Bot, pollId: string, optionIds: seq<int>, now: int)
    requires HandlesBelow(b)
    ensures HandlesBelow(HandlePollAnswer(b, pollId, optionIds, now).0)
  {
  }

  lemma FireKeepsHandlesBelow(b: Bot, timer: nat, now: int)
    requires HandlesBelow(b)
    ensures HandlesBelow(TimerFire(b, timer, now).0)
  {
  }

  lemma SendKeepsHandlesBelow(b: Bot, cat: Catalog, ask: Ask, poll: Option<string>, now: int)
    requires HandlesBelow(b)
    ensures HandlesBelow(SendQuestion(b, cat, ask, poll, now).0)
  {
  }
}

=== FILE: quizplayer.dfy ===
/**
 * sb_quiz_website/src/components/quiz/QuizPlayer.tsx: the web quiz player.
 * The component's state hooks become one `Player` value. Its handlers become
 * pure steps: an option click, one tick of the one-second countdown, the
 * delayed advance after feedback, and "Try Again". The delayed advance is a
 * closure that captures the values it was created with, so it is modelled as
 * a `Closure` value that the component holds until it fires.
 */
module QuizPlayer {
  import opened Wrappers
  import opened QuizData
  import opened Database

  /** `QUESTION_TIME_LIMIT`, in seconds. */
  const TimeLimit := 60

  datatype Player = Player(
    current: nat,
    score: nat,
    answers: seq<Answer>,
    selected: Option<int>,
    showFeedback: bool,
    timeLeft: int,
    isComplete: bool,
    startTime: int,
    totalTime: int,
    timedOut: bool)

  /** The values the two-second advance timeout captures when it is armed. */
  datatype Closure = Closure(isCorrect: bool, current: nat, score: nat, answers: seq<Answer>)

  /** The arguments of `onComplete`. */
  datatype Report = Report(score: nat, timeSpent: int, answers: seq<Answer>)

  /** The component and the advance timeout it has armed, if any. */
  datatype Component = Component(state: Player, advance: Option<Closure>)

  /** The state hooks' initial values; `startTime` is the mount time. */
  function Mount(now: int): (c: Component)
    ensures c.state.current == 0 && c.state.score == 0 && c.state.answers == []
    ensures c.state.timeLeft == TimeLimit && !c.state.showFeedback && !c.state.isComplete
    ensures c.state.startTime == now && c.advance.None?
  {
    Component(Player(0, 0, [], None, false, TimeLimit, false, now, 0, false), None)
  }

  /** Number of recorded answers that match their question's `correct`. */
  function CountCorrect(qs: seq<Question>, answers: seq<Answer>): nat
  {
    if |answers| == 0 then 0
    else
      var k := |answers| - 1;
      CountCorrect(qs, answers[..k]) + (if k < |qs| && answers[k] == Some(qs[k].correct) then 1 else 0)
  }

  lemma CountCorrectSnoc(qs: seq<Question>, answers: seq<Answer>, a: Answer)
    ensures CountCorrect(qs, answers + [a]) ==
      CountCorrect(qs, answers) + (if |answers| < |qs| && a == Some(qs[|answers|].correct) then 1 else 0)
  {
    assert (answers + [a])[..|answers|] == answers;
  }

  /** `handleAnswer(answerIndex)`: ignored while feedback shows; otherwise it
      records the answer, scores it and arms the advance timeout. */
  function HandleAnswer(p: Player, qs: seq<Question>, a: Answer): (r: (Player, Option<Closure>))
    requires p.current < |qs|
    ensures p.showFeedback ==> r == (p, None)
    ensures !p.showFeedback ==>
      && r.0 == p.(selected := a, showFeedback := true, answers := p.answers + [a],
                   score := if a == Some(qs[p.current].correct) then p.score + 1 else p.score)
      && r.1 == Some(Closure(a == Some(qs[p.current].correct), p.current, p.score, p.answers + [a]))
  {
    if p.showFeedback then (p, None)
    else
      var isCorrect := a == Some(qs[p.current].correct);
      var newAnswers := p.answers + [a];
      var q := p.(selected := a, showFeedback := true, answers := newAnswers,
                  score := if isCorrect then p.score + 1 else p.score);
      (q, Some(Closure(isCorrect, p.current, p.score, newAnswers)))
  }

  /** The advance timeout: completes after the last question, reporting the
      captured score plus this answer and the whole seconds since mount;
      otherwise moves to the next question with a fresh countdown. */
  function Fire(p: Player, c: Closure, total: nat, now: int): (r: (Player, Option<Report>))
    ensures c.current + 1 >= total ==>
      && r.0 == p.(totalTime := (now - p.startTime) / 1000, isComplete := true)
      && r.1 == Some(Report(if c.isCorrect then c.score + 1 else c.score, (now - p.startTime) / 1000, c.answers))
    ensures c.current + 1 < total ==>
      && r.0 == p.(current := p.current + 1, selected := None, showFeedback := false,
                   timeLeft := TimeLimit, timedOut := false)
      && r.1.None?
  {
    if c.current + 1 >= total then
      var timeSpent := (now - p.startTime) / 1000;
      (p.(totalTime := timeSpent, isComplete := true),
       Some(Report(if c.isCorrect then c.score + 1 else c.score, timeSpent, c.answers)))
    else
      (p.(current := p.current + 1, selected := None, showFeedback := false,
          timeLeft := TimeLimit, timedOut := false), None)
  }

  /** One second of the countdown, which runs only while neither feedback nor
      the results show: at one second or less it submits no answer and shows 0. */
  function Tick(c: Component, qs: seq<Question>): (r: Component)
    requires !c.state.isComplete ==> c.state.current < |qs|
    ensures c.state.showFeedback || c.state.isComplete ==> r == c
    ensures !c.state.showFeedback && !c.state.isComplete && c.state.timeLeft > 1 ==>
      r == c.(state := c.state.(timeLeft := c.state.timeLeft - 1))
    ensures !c.state.showFeedback && !c.state.isComplete && c.state.timeLeft <= 1 ==>
      && r.state.answers == c.state.answers + [None] && r.state.showFeedback
      && r.state.timeLeft == 0 && r.state.timedOut && r.state.score == c.state.score
  {
    var p := c.state;
    if p.showFeedback || p.isComplete then c
    else if p.timeLeft <= 1 then
      var (q, adv) := HandleAnswer(p.(timedOut := true), qs, None);
      Component(q.(timeLeft := 0), adv)
    else c.(state := p.(timeLeft := p.timeLeft - 1))
  }

  /** `resetQuiz`, behind "Try Again": a fresh attempt that keeps the mount time. */
  function Reset(p: Player): (r: Player)
    ensures r.current == 0 && r.score == 0 && r.answers == [] && r.selected.None?
    ensures !r.showFeedback && r.timeLeft == TimeLimit && !r.isComplete && !r.timedOut
    ensures r.startTime == p.startTime && r.totalTime == p.totalTime
  {
    p.(current := 0, score := 0, answers := [], selected := None, showFeedback := false,
       timeLeft := TimeLimit, isComplete := false, timedOut := false)
  }

  datatype Event = Click(index: int) | Second | AdvanceFires(now: int) | TryAgain

  /** One event on the component. Options are clickable only on the question
      screen and only without feedback; "Try Again" exists only on the results screen. */
  function Step(c: Component, qs: seq<Question>, e: Event): (r: (Component, Option<Report>))
    requires Inv(c, qs)
    ensures Inv(r.0, qs)
    ensures r.1.Some? ==> |r.1.value.answers| == |qs| && r.1.value.score == CountCorrect(qs, r.1.value.answers)
    ensures r.1.Some? ==> r.1.value.answers == r.0.state.answers && r.1.value.score == r.0.state.score
    ensures r.1.Some? ==> e.AdvanceFires? && r.1.value.timeSpent == (e.now - c.state.startTime) / 1000
  {
    var p := c.state;
    match e
    case Click(i) =>
      if p.showFeedback || p.isComplete then (c, None)
      else
        var (q, adv) := HandleAnswer(p, qs, Some(i));
        CountCorrectSnoc(qs, p.answers, Some(i));
        (Component(q, adv), None)
    case Second =>
      CountCorrectSnoc(qs, p.answers, None);
      (Tick(c, qs), None)
    case AdvanceFires(now) =>
      (match c.advance
       case None => (c, None)
       case Some(cl) =>
         var (q, report) := Fire(p, cl, |qs|, now);
         (Component(q, None), report))
    case TryAgain =>
      if p.isComplete then (Component(Reset(p), None), None) else (c, None)
  }

  /** The component's consistency: the answers number the questions passed plus
      the one on feedback (the running score's denominator), the score counts the
      correct ones, an advance is armed exactly while feedback shows on the
      question screen and it captured the current values. */
  predicate Inv(c: Component, qs: seq<Question>)
  {
    var p := c.state;
    && |qs| > 0
    && |p.answers| == p.current + (if p.showFeedback then 1 else 0)
    && p.score == CountCorrect(qs, p.answers)
    && (!p.isComplete ==> p.current < |qs|)
    && (p.isComplete ==> p.showFeedback && p.current + 1 == |qs|)
    && (c.advance.Some? <==> p.showFeedback && !p.isComplete)
    && (c.advance.Some? ==>
          && c.advance.value.current == p.current
          && c.advance.value.answers == p.answers
          && (if c.advance.value.isCorrect then c.advance.value.score + 1 else c.advance.value.score) == p.score)
    && 0 <= p.timeLeft <= TimeLimit
  }

  lemma MountInv(qs: seq<Question>, now: int)
    requires |qs| > 0
    ensures Inv(Mount(now), qs)
  {
  }

  /** A click followed by the countdown running out, or two clicks, record one answer. */
  lemma AnswerRecordedOnce(c: Component, qs: seq<Question>, i: int, e: Event)
    requires Inv(c, qs) && !c.state.showFeedback && !c.state.isComplete
    requires e.Click? || e.Second?
    ensures var c1 := Step(c, qs, Click(i)).0;
      && c1.state.answers == c.state.answers + [Some(i)]
      && Step(c1, qs, e).0 == c1
  {
  }

  /** The countdown, left alone for `timeLeft` seconds, records a timeout. */
  function Seconds(c: Component, qs: seq<Question>, n: nat): (r: Component)
    requires Inv(c, qs)
    ensures Inv(r, qs)
    decreases n
  {
    if n == 0 then c else Seconds(Step(c, qs, Second).0, qs, n - 1)
  }

  lemma {:induction false} CountdownTimesOut(c: Component, qs: seq<Question>)
    requires Inv(c, qs) && !c.state.showFeedback && !c.state.isComplete && c.state.timeLeft >= 1
    ensures var r := Seconds(c, qs, c.state.timeLeft);
      && r.state.answers == c.state.answers + [None]
      && r.state.showFeedback && r.state.timedOut && r.state.timeLeft == 0
      && r.state.score == c.state.score && r.state.current == c.state.current
    decreases c.state.timeLeft
  {
    if c.state.timeLeft > 1 {
      var c1 := Step(c, qs, Second).0;
      assert c1 == c.(state := c.state.(timeLeft := c.state.timeLeft - 1));
      CountdownTimesOut(c1, qs);
    } else {
      var c1 := Step(c, qs, Second).0;
      assert Seconds(c1, qs, 0) == c1;
    }
  }

  /** What the score line shows: `score / (currentQuestion + (showFeedback ? 1 : 0))`;
      the denominator is always the number of recorded answers. */
  function ScoreLine(p: Player): (r: (nat, nat))
    ensures r.0 == p.score
    ensures r.1 == 0 <==> p.current == 0 && !p.showFeedback
    ensures r.1 <= p.current + 1
  {
    (p.score, p.current + (if p.showFeedback then 1 else 0))
  }

  lemma ScoreLineCounts(c: Component, qs: seq<Question>)
    requires Inv(c, qs)
    ensures ScoreLine(c.state).1 == |c.state.answers|
    ensures ScoreLine(c.state).0 == CountCorrect(qs, c.state.answers)
  {
  }

  lemma {:induction false} CountCorrectBound(qs: seq<Question>, answers: seq<Answer>)
    ensures CountCorrect(qs, answers) <= |answers|
  {
    if |answers| > 0 {
      CountCorrectBound(qs, answers[..|answers| - 1]);
    }
  }

  /** The running score never exceeds the number of answers. */
  lemma ScoreAtMostAnswers(c: Component, qs: seq<Question>)
    requires Inv(c, qs)
    ensures c.state.score <= |c.state.answers|
  {
    CountCorrectBound(qs, c.state.answers);
  }

  datatype TimerColor = Red | Orange | Grey

  /** The countdown's colour: red at 10 seconds or less, orange at 30 or less, grey above. */
  function ColorOf(timeLeft: int): (r: TimerColor)
    ensures r == Red <==> timeLeft <= 10
    ensures r == Orange <==> 10 < timeLeft <= 30
    ensures r == Grey <==> timeLeft > 30
  {
    if timeLeft <= 10 then Red else if timeLeft <= 30 then Orange else Grey
  }
}

=== FILE: quizresults.dfy ===
/**
 * sb_quiz_website/src/components/quiz/QuizResults.tsx: the web results
 * screen. The rounded percentage and its tier, the "Mm Ss" time label, the
 * share text and the per-question review classes. The percentage is computed
 * in integers: `Math.round(score / total * 100)` rounds half up.
 */
module QuizResults {
  import opened Wrappers
  import opened Text
  import opened QuizData
  import opened Database
  import MenuHandlers
  import QuizLogic

  // ----- percentage and tier -----

  /** `Math.round((score / totalQuestions) * 100)`: the nearest integer to
      100·score/total, halves rounded up. */
  function Percentage(score: int, total: int): (p: int)
    requires total > 0
    ensures 2 * total * p <= 200 * score + total < 2 * total * (p + 1)
    ensures 0 <= score <= total ==> 0 <= p <= 100
    ensures score == total ==> p == 100
    ensures score == 0 ==> p == 0
  {
    RoundingFacts(score, total);
    (200 * score + total) / (2 * total)
  }

  lemma RoundingFacts(score: int, total: int)
    requires total > 0
    ensures var p := (200 * score + total) / (2 * total);
      && 2 * total * p <= 200 * score + total < 2 * total * (p + 1)
      && (0 <= score <= total ==> 0 <= p <= 100)
      && (score == total ==> p == 100)
      && (score == 0 ==> p == 0)
  {
    var n := 200 * score + total;
    var p := n / (2 * total);
    assert n == 2 * total * p + n % (2 * total);
    if 0 <= score <= total {
      if p > 100 {
        MulMono(2 * total, 101, p);
      } else if p < 0 {
        MulMono(2 * total, p + 1, 0);
      }
    }
    if score == total {
      if p < 100 {
        MulMono(2 * total, p + 1, 100);
      }
    }
    if score == 0 {
      if p > 0 {
        MulMono(2 * total, 1, p);
      }
    }
  }

  lemma MulMono(k: int, a: int, b: int)
    requires k > 0 && a <= b
    ensures k * a <= k * b
  {
  }

  /** The four result messages of the results screen. */
  datatype WebTier = Excellent | GoodJob | KeepPracticing | Revisit

  /** The tier of a percentage: >= 80, >= 60, >= 40, otherwise. */
  function TierOf(percentage: int): (t: WebTier)
    ensures t == Excellent <==> percentage >= 80
    ensures t == GoodJob <==> 60 <= percentage < 80
    ensures t == KeepPracticing <==> 40 <= percentage < 60
    ensures t == Revisit <==> percentage < 40
  {
    if percentage >= 80 then Excellent
    else if percentage >= 60 then GoodJob
    else if percentage >= 40 then KeepPracticing
    else Revisit
  }

  /** The tier of a result, stated on the score itself: rounding moves every
      threshold down by half a percentage point. */
  function ResultTier(score: int, total: int): (t: WebTier)
    requires total > 0
    ensures t == Excellent <==> 200 * score >= 159 * total
    ensures t == GoodJob <==> 119 * total <= 200 * score < 159 * total
    ensures t == KeepPracticing <==> 79 * total <= 200 * score < 119 * total
    ensures t == Revisit <==> 200 * score < 79 * total
  {
    var p := Percentage(score, total);
    PercentageAtLeast(score, total, 80);
    PercentageAtLeast(score, total, 60);
    PercentageAtLeast(score, total, 40);
    TierOf(p)
  }

  /** The rounded percentage reaches `m` exactly when 200·score >= (2m − 1)·total. */
  lemma PercentageAtLeast(score: int, total: int, m: int)
    requires total > 0
    ensures Percentage(score, total) >= m <==> 200 * score >= (2 * m - 1) * total
  {
    var p := Percentage(score, total);
    if p >= m {
      MulMono(2 * total, m, p);
    } else {
      MulMono(2 * total, p + 1, m);
    }
  }

  /** A bot trophy is always a web "Excellent", but not the other way round:
      39 of 49 rounds to 80% on the web and stays below 80% in the bot. */
  lemma BotTrophyIsExcellent(score: int, total: nat)
    requires total > 0
    ensures QuizLogic.CompletionTier(score, total) == QuizLogic.Trophy ==> ResultTier(score, total) == Excellent
  {
  }

  lemma TiersDisagree()
    ensures ResultTier(39, 49) == Excellent
    ensures QuizLogic.CompletionTier(39, 49) == QuizLogic.Clap
  {
  }

  // ----- time label -----

  /** JavaScript's `%`: the remainder takes the sign of the dividend. */
  function JsRem(a: int, b: int): (r: int)
    requires b > 0
    ensures a >= 0 ==> 0 <= r < b && r == a % b
    ensures a < 0 ==> -b < r <= 0 && r == -((-a) % b)
  {
    if a >= 0 then a % b else -((-a) % b)
  }

  /** `formatTime(seconds)`: "Mm Ss" from one minute on, "Ss" below. */
  function FormatTime(seconds: int): (r: string)
    ensures |r| >= 2 && r[|r| - 1] == 's'
    ensures 'm' in r <==> seconds >= 60
  {
    var mins := seconds / 60;
    var secs := JsRem(seconds, 60);
    DigitsOnly(IntToString(secs));
    if mins > 0 then
      DigitsOnly(IntToString(mins));
      var r := IntToString(mins) + "m " + IntToString(secs) + "s";
      assert r[|IntToString(mins)|] == 'm';
      r
    else
      IntToString(secs) + "s"
  }

  lemma DigitsOnly2(s: string)
    requires AllDigits(s)
    ensures ' ' !in s + "m"
  {
  }

  /** A rendered integer holds no letter and no space. */
  lemma DigitsOnly(s: string)
    requires |s| > 0 && (AllDigits(s) || (s[0] == '-' && AllDigits(s[1..])))
    ensures 'm' !in s && ' ' !in s && 's' !in s
  {
    if s[0] == '-' {
      assert forall i :: 1 <= i < |s| ==> s[i] == s[1..][i - 1];
    }
  }

  /** Reads a time label back: "Ss" or "Mm Ss" with decimal M and S. */
  function ParseTime(t: string): Option<int>
  {
    if |t| == 0 || t[|t| - 1] != 's' then None else ParseClock(t[..|t| - 1])
  }

  function ParseClock(body: string): Option<int>
  {
    if ' ' in body then ParseMinutes(body[..FirstIndex(body, ' ')], body[FirstIndex(body, ' ') + 1..])
    else ParseDigits(body)
  }

  function ParseMinutes(m: string, sec: string): Option<int>
  {
    if |m| >= 2 && m[|m| - 1] == 'm' then
      match (ParseDigits(m[..|m| - 1]), ParseDigits(sec))
      case (Some(a), Some(b)) => Some(60 * a + b)
      case _ => None
    else None
  }

  /** Every non-negative duration reads back from its label, so distinct
      durations get distinct labels. */
  lemma FormatTimeRoundTrip(seconds: int)
    requires seconds >= 0
    ensures ParseTime(FormatTime(seconds)) == Some(seconds)
  {
    if seconds >= 60 {
      MinutesRoundTrip(seconds);
    } else {
      SecondsRoundTrip(seconds);
    }
  }

  lemma {:induction false} MinutesRoundTrip(seconds: int)
    requires seconds >= 60
    ensures ParseTime(FormatTime(seconds)) == Some(seconds)
  {
    FormatTimeShape(seconds);
    MinutesLabel(seconds);
  }

  /** The label built from the minutes and seconds of a duration reads back as it. */
  lemma {:induction false} MinutesLabel(seconds: int)
    requires seconds >= 60
    ensures ParseTime(NatToString(seconds / 60) + "m " + NatToString(seconds % 60) + "s") == Some(seconds)
  {
    var m, sec := seconds / 60, seconds % 60;
    NatToStringRoundTrip(m);
    NatToStringRoundTrip(sec);
    ClockRoundTrip(NatToString(m), NatToString(sec), m, sec);
  }

  /** An "Mm Ss" label whose fields read as M and S reads back as 60·M + S. */
  lemma {:induction false} ClockRoundTrip(ms: string, ss: string, m: nat, sec: nat)
    requires |ms| > 0 && AllDigits(ms) && ParseNat(ms) == m
    requires |ss| > 0 && AllDigits(ss) && ParseNat(ss) == sec
    ensures ParseTime(ms + "m " + ss + "s") == Some(60 * m + sec)
  {
    ParseMinutesSeconds(ms, ss);
  }

  lemma SecondsRoundTrip(seconds: int)
    requires 0 <= seconds < 60
    ensures ParseTime(FormatTime(seconds)) == Some(seconds)
  {
    FormatTimeShape(seconds);
    NatToStringRoundTrip(seconds);
    ParseSeconds(NatToString(seconds));
  }

  /** For a non-negative duration both fields are plain decimal numbers. */
  lemma FormatTimeShape(seconds: int)
    requires seconds >= 0
    ensures seconds >= 60 ==>
      FormatTime(seconds) == NatToString(seconds / 60) + "m " + NatToString(seconds % 60) + "s"
    ensures seconds < 60 ==> FormatTime(seconds) == NatToString(seconds) + "s"
  {
  }

  lemma ParseSeconds(ss: string)
    requires |ss| > 0 && AllDigits(ss)
    ensures ParseTime(ss + "s") == Some(ParseNat(ss))
  {
    DigitsOnly(ss);
    StripSuffix(ss);
    assert ParseClock(ss) == ParseDigits(ss);
  }

  lemma {:induction false} ParseMinutesSeconds(ms: string, ss: string)
    requires |ms| > 0 && AllDigits(ms) && |ss| > 0 && AllDigits(ss)
    ensures ParseTime(ms + "m " + ss + "s") == Some(60 * ParseNat(ms) + ParseNat(ss))
  {
    StripSuffix(ms + "m " + ss);
    ClockSplit(ms, ss);
    MinutesField(ms, ss);
  }

  lemma StripSuffix(body: string)
    ensures ParseTime(body + "s") == ParseClock(body)
  {
    assert (body + "s")[..|body|] == body;
  }

  /** The first space of "Mm Ss" follows the 'm'. */
  lemma ClockSplit(ms: string, ss: string)
    requires AllDigits(ms)
    ensures ParseClock(ms + "m " + ss) == ParseMinutes(ms + "m", ss)
  {
    DigitsOnly2(ms);
    var m := ms + "m";
    var body := ms + "m " + ss;
    assert body == m + " " + ss;
    assert body[..|m|] == m;
    FirstIndexAt(body, ' ', |m|);
    assert body[|m| + 1..] == ss;
  }

  lemma MinutesField(ms: string, ss: string)
    requires |ms| > 0 && AllDigits(ms) && |ss| > 0 && AllDigits(ss)
    ensures ParseMinutes(ms + "m", ss) == Some(60 * ParseNat(ms) + ParseNat(ss))
  {
    var m := ms + "m";
    assert m[..|m| - 1] == ms;
  }

  lemma FormatTimeInjective(a: int, b: int)
    requires a >= 0 && b >= 0 && FormatTime(a) == FormatTime(b)
    ensures a == b
  {
    FormatTimeRoundTrip(a);
    FormatTimeRoundTrip(b);
  }

  // ----- share text -----

  /** `handleShare`'s text for the page at `href`. */
  function ShareText(quiz: string, score: int, total: int, href: string): (r: string)
    requires total > 0
    ensures OccursAt(r, ScoreLabel(score, total), |"I scored "|)
    ensures Contains(r, href)
  {
    var scoreText := ScoreLabel(score, total);
    var rest := " on the " + quiz + " quiz! \U{1F64F}\n\nTry it yourself: ";
    SharedParts("I scored ", scoreText, rest, href);
    "I scored " + scoreText + rest + href
  }

  /** In a four-part text the second part sits right after the first, and the last part occurs. */
  lemma SharedParts(a: string, b: string, c: string, d: string)
    ensures OccursAt(a + b + c + d, b, |a|) && Contains(a + b + c + d, d)
  {
    assert a + b + c + d == a + b + (c + d);
    OccursAtMiddle(a, b, c + d);
    OccursAtEnd(a + b + c, d);
  }

  /** "score/total (p%)", with the percentage the screen shows. */
  function ScoreLabel(score: int, total: int): string
    requires total > 0
  {
    IntToString(score) + "/" + IntToString(total) + " (" + IntToString(Percentage(score, total)) + "%)"
  }

  /** The score label reads back: the digits before '/' are the score. */
  lemma ScoreLabelRoundTrip(score: nat, total: int)
    requires total > 0
    ensures '/' in ScoreLabel(score, total)
    ensures var l := ScoreLabel(score, total);
      AllDigits(l[..FirstIndex(l, '/')]) && ParseNat(l[..FirstIndex(l, '/')]) == score
  {
    var l := ScoreLabel(score, total);
    var s := NatToString(score);
    assert l[|s|] == '/';
    assert l[..|s|] == s;
    assert '/' !in s;
    assert FirstIndex(l, '/') == |s|;
    NatToStringRoundTrip(score);
  }

  // ----- review -----

  /** What `userAnswers[index]` holds: undefined past the end, else null or an index. */
  function SlotAt(answers: seq<Answer>, i: nat): Option<Answer>
  {
    if i < |answers| then Some(answers[i]) else None
  }

  /** `options[i]`, which renders nothing when there is no such option. */
  function OptionText(options: seq<string>, i: int): Option<string>
  {
    if 0 <= i < |options| then Some(options[i]) else None
  }

  /** One review row of the results screen. */
  datatype Mark =
    | TimeUp
    | AnsweredRight(chosen: Option<string>)
    | AnsweredWrong(chosen: Option<string>, correct: Option<string>)

  /** `isTimeout` is `=== null` and `isCorrect` is `=== question.correct`; an
      undefined slot is neither, so it shows as a wrong answer. */
  function Classify(q: Question, answers: seq<Answer>, i: nat): (m: Mark)
    ensures m.TimeUp? <==> i < |answers| && answers[i].None?
    ensures m.AnsweredRight? <==> i < |answers| && answers[i] == Some(q.correct)
    ensures m.AnsweredWrong? <==> i >= |answers| || (answers[i].Some? && answers[i].value != q.correct)
    ensures m.AnsweredRight? ==> m.chosen == OptionText(q.options, q.correct)
    ensures m.AnsweredWrong? ==> m.correct == OptionText(q.options, q.correct)
    ensures m.AnsweredWrong? && i < |answers| ==> m.chosen == OptionText(q.options, answers[i].value)
  {
    match SlotAt(answers, i)
    case Some(None) => TimeUp
    case Some(Some(c)) => if c == q.correct then AnsweredRight(OptionText(q.options, c))
                          else AnsweredWrong(OptionText(q.options, c), OptionText(q.options, q.correct))
    case None => AnsweredWrong(None, OptionText(q.options, q.correct))
  }

  /** For a stored answer with valid option indices the web review and the bot
      review agree class by class and text by text. */
  lemma ReviewsAgree(q: Question, answers: seq<Answer>, i: nat)
    requires WellFormedQuestion(q) && i < |answers|
    requires answers[i].Some? ==> 0 <= answers[i].value < |q.options|
    ensures MenuHandlers.ClassifyAnswer(q, answers, i).Some?
    ensures match (MenuHandlers.ClassifyAnswer(q, answers, i).value, Classify(q, answers, i))
      case (TimedOut, TimeUp) => true
      case (Correct(c), AnsweredRight(d)) => d == Some(c)
      case (Wrong(c, k), AnsweredWrong(d, l)) => d == Some(c) && l == Some(k)
      case _ => false
  {
  }

  /** Past the end of the answer list the two disagree: the bot shows a
      timeout, the web a wrong answer with no chosen option. */
  lemma ReviewsDisagreePastEnd(q: Question, answers: seq<Answer>, i: nat)
    requires i >= |answers|
    ensures MenuHandlers.ClassifyAnswer(q, answers, i) == Some(MenuHandlers.TimedOut)
    ensures Classify(q, answers, i).AnsweredWrong? && Classify(q, answers, i).chosen.None?
  {
  }
}

=== FILE: quizzespage.dfy ===
/**
 * sb_quiz_website/src/app/quizzes/page.tsx: the quiz browser. A search box
 * and a canto selector filter the live quizzes. With no canto selected, the
 * result is shown in groups by canto, in ascending canto order.
 */
module QuizzesPage {
  import opened Wrappers
  import opened Text
  import opened Seqs
  import opened WebQuizData

  /** The `filteredQuizzes` predicate: the search is empty or occurs, case-folded,
      in the title or the description, and no canto is selected or it is the quiz's. */
  predicate Matches(q: WebQuiz, search: string, canto: Option<int>)
  {
    && (search == "" || Contains(ToLower(q.title), ToLower(search))
                     || Contains(ToLower(q.description), ToLower(search)))
    && (canto.None? || q.cantoNumber == canto.value)
  }

  function MatchesFor(search: string, canto: Option<int>): WebQuiz -> bool
  {
    (q: WebQuiz) => Matches(q, search, canto)
  }

  /** `filteredQuizzes`: the matching quizzes, in catalog order. */
  function Filtered(all: seq<WebQuiz>, search: string, canto: Option<int>): (r: seq<WebQuiz>)
    ensures Subseq(r, all)
    ensures forall i :: 0 <= i < |all| ==> (all[i] in r <==> Matches(all[i], search, canto))
  {
    Filter(all, MatchesFor(search, canto))
  }

  /** An empty search with no canto selected keeps every quiz. */
  lemma NoFilterKeepsAll(all: seq<WebQuiz>)
    ensures Filtered(all, "", None) == all
  {
    FilterAll(all, MatchesFor("", None));
  }

  /** The search is case-insensitive: lower-casing it changes nothing. */
  lemma SearchIgnoresCase(q: WebQuiz, search: string, canto: Option<int>)
    ensures Matches(q, ToLower(search), canto) == Matches(q, search, canto)
  {
    ToLowerIdempotent(search);
  }

  /** A selected canto admits only its own quizzes. */
  lemma SelectedCantoOnly(all: seq<WebQuiz>, search: string, n: int)
    ensures forall i :: 0 <= i < |Filtered(all, search, Some(n))| ==>
      Filtered(all, search, Some(n))[i].cantoNumber == n
  {
  }

  // ----- grouping -----

  function CantoIs(k: int): WebQuiz -> bool
  {
    (q: WebQuiz) => q.cantoNumber == k
  }

  /** Some quiz of `qs` belongs to canto `k`. */
  ghost predicate HasCanto(qs: seq<WebQuiz>, k: int)
  {
    exists i :: 0 <= i < |qs| && qs[i].cantoNumber == k
  }

  lemma HasCantoSnoc(qs: seq<WebQuiz>, k: int)
    requires |qs| > 0
    ensures HasCanto(qs, k) <==> k == qs[|qs| - 1].cantoNumber || HasCanto(qs[..|qs| - 1], k)
  {
    var n := |qs| - 1;
    if HasCanto(qs, k) && k != qs[n].cantoNumber {
      var i :| 0 <= i < |qs| && qs[i].cantoNumber == k;
      assert qs[..n][i].cantoNumber == k;
    }
    if HasCanto(qs[..n], k) {
      var i :| 0 <= i < n && qs[..n][i].cantoNumber == k;
      assert qs[i].cantoNumber == k;
    }
  }

  /** The groups of `qs`: a group per canto present, holding that canto's quizzes in order. */
  ghost predicate Groups(qs: seq<WebQuiz>, g: map<int, seq<WebQuiz>>)
  {
    && (forall k :: k in g <==> HasCanto(qs, k))
    && (forall k :: k in g ==> g[k] == Filter(qs, CantoIs(k)))
  }

  /** `quizzesByCanto`: one `forEach` over the filtered list, creating a canto's
      group on first sight and pushing every quiz onto its group. */
  function Group(qs: seq<WebQuiz>): (g: map<int, seq<WebQuiz>>)
    ensures Groups(qs, g)
  {
    if |qs| == 0 then map[]
    else
      var g := Group(qs[..|qs| - 1]);
      GroupPush(qs, g);
      Push(g, qs[|qs| - 1])
  }

  /** One iteration of the `forEach`: `q` is pushed onto its canto's group. */
  function Push(g: map<int, seq<WebQuiz>>, q: WebQuiz): (r: map<int, seq<WebQuiz>>)
  {
    g[q.cantoNumber := (if q.cantoNumber in g then g[q.cantoNumber] else []) + [q]]
  }

  /** Pushing the last quiz onto its group extends the groups of the prefix. */
  lemma GroupPush(qs: seq<WebQuiz>, g: map<int, seq<WebQuiz>>)
    requires |qs| > 0 && Groups(qs[..|qs| - 1], g)
    ensures Groups(qs, Push(g, qs[|qs| - 1]))
  {
    var n := |qs| - 1;
    var q := qs[n];
    var g' := Push(g, q);
    assert qs == qs[..n] + [q];
    forall k ensures k in g' <==> HasCanto(qs, k) {
      HasCantoSnoc(qs, k);
    }
    forall k | k in g' ensures g'[k] == Filter(qs, CantoIs(k)) {
      FilterSnoc(qs[..n], q, CantoIs(k));
      if k !in g {
        assert k == q.cantoNumber;
        FilterNone(qs[..n], CantoIs(k));
      }
    }
  }

  lemma FilterNone(qs: seq<WebQuiz>, p: WebQuiz -> bool)
    requires forall i :: 0 <= i < |qs| ==> !p(qs[i])
    ensures Filter(qs, p) == []
  {
  }

  /** Strictly increasing. */
  predicate Ascending(s: seq<int>)
  {
    forall i, j :: 0 <= i < j < |s| ==> s[i] < s[j]
  }

  function InsertAscending(x: int, s: seq<int>): (r: seq<int>)
    requires Ascending(s) && x !in s
    ensures Ascending(r)
    ensures forall y :: y in r <==> y == x || y in s
    ensures |r| == |s| + 1
  {
    if |s| == 0 then [x]
    else if x < s[0] then [x] + s
    else
      var rest := InsertAscending(x, s[1..]);
      assert forall y :: y in s <==> y == s[0] || y in s[1..];
      assert forall i :: 0 <= i < |rest| ==> s[0] < rest[i] by {
        forall i | 0 <= i < |rest| ensures s[0] < rest[i] {
          assert rest[i] in rest;
          if rest[i] != x {
            var j :| 0 <= j < |s[1..]| && s[1..][j] == rest[i];
            assert s[j + 1] == rest[i];
          }
        }
      }
      [s[0]] + rest
  }

  predicate Distinct(s: seq<int>)
  {
    forall i, j :: 0 <= i < j < |s| ==> s[i] != s[j]
  }

  /** `.sort(([a], [b]) => Number(a) - Number(b))` on distinct keys. */
  function SortAscending(s: seq<int>): (r: seq<int>)
    requires Distinct(s)
    ensures Ascending(r)
    ensures forall y :: y in r <==> y in s
    ensures |r| == |s|
  {
    if |s| == 0 then []
    else
      var n := |s| - 1;
      assert forall y :: y in s <==> y == s[n] || y in s[..n];
      assert s[n] !in s[..n];
      InsertAscending(s[n], SortAscending(s[..n]))
  }

  /** The cantos in the order their groups were created: first appearance. */
  function Appearance(qs: seq<WebQuiz>): (r: seq<int>)
    ensures Distinct(r)
    ensures forall k :: k in r <==> HasCanto(qs, k)
  {
    if |qs| == 0 then []
    else
      var n := |qs| - 1;
      var o := Appearance(qs[..n]);
      forall k ensures HasCanto(qs, k) <==> k == qs[n].cantoNumber || HasCanto(qs[..n], k) {
        HasCantoSnoc(qs, k);
      }
      if qs[n].cantoNumber in o then o else o + [qs[n].cantoNumber]
  }

  /** One section of the grouped view. */
  datatype Section = Section(canto: int, quizzes: seq<WebQuiz>)

  /** One section per key, holding that key's group. */
  function SectionsOf(keys: seq<int>, g: map<int, seq<WebQuiz>>): (r: seq<Section>)
    requires forall i :: 0 <= i < |keys| ==> keys[i] in g
    ensures |r| == |keys|
    ensures forall i :: 0 <= i < |r| ==> r[i] == Section(keys[i], g[keys[i]])
  {
    seq(|keys|, i requires 0 <= i < |keys| => Section(keys[i], g[keys[i]]))
  }

  /** `Object.entries(quizzesByCanto)` sorted by canto number. */
  function Sections(qs: seq<WebQuiz>): (r: seq<Section>)
    ensures forall i, j :: 0 <= i < j < |r| ==> r[i].canto < r[j].canto
    ensures forall i :: 0 <= i < |r| ==> r[i].quizzes == Filter(qs, CantoIs(r[i].canto)) && |r[i].quizzes| > 0
    ensures forall i :: 0 <= i < |qs| ==> exists j :: 0 <= j < |r| && r[j].canto == qs[i].cantoNumber
  {
    var g := Group(qs);
    var keys := SortAscending(Appearance(qs));
    SectionsFacts(qs, g, keys);
    SectionsOf(keys, g)
  }

  /** Sorted keys of the groups give ordered, non-empty sections covering every quiz. */
  lemma SectionsFacts(qs: seq<WebQuiz>, g: map<int, seq<WebQuiz>>, keys: seq<int>)
    requires Groups(qs, g) && Ascending(keys)
    requires forall k :: k in keys <==> HasCanto(qs, k)
    ensures forall i :: 0 <= i < |keys| ==> keys[i] in g
    ensures var r := SectionsOf(keys, g);
      && (forall i, j :: 0 <= i < j < |r| ==> r[i].canto < r[j].canto)
      && (forall i :: 0 <= i < |r| ==> r[i].quizzes == Filter(qs, CantoIs(r[i].canto)) && |r[i].quizzes| > 0)
      && (forall i :: 0 <= i < |qs| ==> exists j :: 0 <= j < |r| && r[j].canto == qs[i].cantoNumber)
  {
    forall i | 0 <= i < |keys| ensures keys[i] in g {
      assert keys[i] in keys;
    }
    GroupsNonEmpty(qs, g);
    var r := SectionsOf(keys, g);
    forall i | 0 <= i < |qs| ensures exists j :: 0 <= j < |r| && r[j].canto == qs[i].cantoNumber {
      assert HasCanto(qs, qs[i].cantoNumber);
      var j :| 0 <= j < |keys| && keys[j] == qs[i].cantoNumber;
      assert r[j].canto == keys[j];
    }
  }

  lemma GroupsNonEmpty(qs: seq<WebQuiz>, g: map<int, seq<WebQuiz>>)
    requires Groups(qs, g)
    ensures forall k :: k in g ==> |g[k]| > 0
  {
    forall k | k in g ensures |g[k]| > 0 {
      var i :| 0 <= i < |qs| && qs[i].cantoNumber == k;
      assert qs[i] in Filter(qs, CantoIs(k));
    }
  }

  /** Each filtered quiz sits in exactly one section, the one of its canto. */
  lemma SectionOfQuiz(qs: seq<WebQuiz>, i: nat, j: nat)
    requires i < |qs| && j < |Sections(qs)|
    ensures qs[i] in Sections(qs)[j].quizzes <==> Sections(qs)[j].canto == qs[i].cantoNumber
  {
    var s := Sections(qs)[j];
    assert s.quizzes == Filter(qs, CantoIs(s.canto));
  }

  // ----- what the page shows -----

  /** "N quiz found" for exactly one quiz, "N quizzes found" otherwise. */
  function CountLabel(n: nat): (r: string)
    ensures r == NatToString(n) + " quiz found" <==> n == 1
    ensures n != 1 ==> r == NatToString(n) + " quizzes found"
  {
    NatToString(n) + " quiz" + (if n != 1 then "zes" else "") + " found"
  }

  datatype Listing =
    | NoneFound(hint: string)
    | Flat(quizzes: seq<WebQuiz>)
    | Grouped(sections: seq<Section>)

  /** The quiz list: a hint when nothing matches, a flat list when a canto is
      selected, and the canto sections otherwise. */
  function Page(all: seq<WebQuiz>, search: string, canto: Option<int>): (r: Listing)
    ensures r.NoneFound? <==> Filtered(all, search, canto) == []
    ensures r.NoneFound? ==>
      (r.hint == "Try adjusting your filters" <==> search != "" || (canto.Some? && canto.value != 0))
    ensures r.Flat? <==> Filtered(all, search, canto) != [] && canto.Some? && canto.value != 0
    ensures r.Grouped? <==> Filtered(all, search, canto) != [] && !(canto.Some? && canto.value != 0)
    ensures r.Flat? ==> r.quizzes == Filtered(all, search, canto)
    ensures r.Grouped? ==> r.sections == Sections(Filtered(all, search, canto))
  {
    var f := Filtered(all, search, canto);
    if |f| == 0 then
      NoneFound(if search != "" || (canto.Some? && canto.value != 0) then "Try adjusting your filters"
                else "Quizzes are being prepared. Check back soon!")
    else if canto.Some? && canto.value != 0 then Flat(f)
    else Grouped(Sections(f))
  }
}

=== FILE: ranking.dfy ===
/**
 * Ordering rows by a two-part rank key, as an SQL `ORDER BY a DESC, b DESC`
 * does, and keeping the first rows (`LIMIT n`).
 */
module Ranking {

  /** Key `a` ranks strictly above key `b`: larger first part, ties broken by a larger second part. */
  predicate Outranks(a: (int, int), b: (int, int))
  {
    a.0 > b.0 || (a.0 == b.0 && a.1 > b.1)
  }

  /** No row ranks strictly above a row listed before it. */
  predicate SortedBy<T>(s: seq<T>, key: T -> (int, int))
  {
    forall i, j :: 0 <= i < j < |s| ==> !Outranks(key(s[j]), key(s[i]))
  }

  /** A row that no later row outranks may head a sorted list. */
  lemma ConsSorted<T>(h: T, t: seq<T>, key: T -> (int, int))
    requires SortedBy(t, key)
    requires forall k :: 0 <= k < |t| ==> !Outranks(key(t[k]), key(h))
    ensures SortedBy([h] + t, key)
  {
    var r := [h] + t;
    forall i, j | 0 <= i < j < |r|
      ensures !Outranks(key(r[j]), key(r[i]))
    {
      assert r[j] == t[j - 1];
      if i > 0 {
        assert r[i] == t[i - 1];
      }
    }
  }

  function Insert<T>(x: T, s: seq<T>, key: T -> (int, int)): (r: seq<T>)
    requires SortedBy(s, key)
    ensures SortedBy(r, key)
    ensures multiset(r) == multiset(s) + multiset{x}
  {
    if |s| == 0 then [x]
    else if Outranks(key(x), key(s[0])) then
      assert s == [s[0]] + s[1..];
      ConsSorted(x, s, key);
      [x] + s
    else
      var t := Insert(x, s[1..], key);
      assert s == [s[0]] + s[1..];
      assert forall k :: 0 <= k < |t| ==> !Outranks(key(t[k]), key(s[0])) by {
        forall k | 0 <= k < |t| ensures !Outranks(key(t[k]), key(s[0])) {
          assert t[k] in multiset(t);
          if t[k] != x {
            assert t[k] in multiset(s[1..]);
            var m :| 0 <= m < |s[1..]| && s[1..][m] == t[k];
            assert s[m + 1] == t[k];
          }
        }
      }
      ConsSorted(s[0], t, key);
      [s[0]] + t
  }

  /** The rows of `s` reordered so that better-ranked rows come first. */
  function SortBy<T>(s: seq<T>, key: T -> (int, int)): (r: seq<T>)
    ensures SortedBy(r, key)
    ensures multiset(r) == multiset(s)
    ensures |r| == |s|
  {
    if |s| == 0 then []
    else
      assert s == [s[0]] + s[1..];
      Insert(s[0], SortBy(s[1..], key), key)
  }

  /** `LIMIT n` */
  function Take<T>(s: seq<T>, n: nat): (r: seq<T>)
    ensures |r| == if |s| < n then |s| else n
    ensures r == s[..|r|]
  {
    if |s| < n then s else s[..n]
  }

  /** Cutting a sorted list leaves out nothing that ranks above the last row kept. */
  lemma TakeDropsNoBetter<T>(s: seq<T>, n: nat, key: T -> (int, int))
    requires SortedBy(s, key)
    requires 0 < n < |s|
    ensures forall x :: x in s[n..] ==> !Outranks(key(x), key(s[n - 1]))
  {
    forall x | x in s[n..] ensures !Outranks(key(x), key(s[n - 1])) {
      var k :| 0 <= k < |s| - n && s[n..][k] == x;
      assert s[n + k] == x;
    }
  }

  /** The first `n` rows of a sorted arrangement of `all`: drawn from `all`, and no row
      left out ranks above the last row kept. */
  lemma TakeSortedFacts<T>(all: seq<T>, sorted: seq<T>, n: nat, key: T -> (int, int))
    requires SortedBy(sorted, key) && multiset(sorted) == multiset(all)
    ensures multiset(Take(sorted, n)) <= multiset(all)
    ensures forall i :: 0 <= i < |Take(sorted, n)| ==> Take(sorted, n)[i] in all
    ensures |Take(sorted, n)| > 0 ==> forall x :: x in multiset(all) - multiset(Take(sorted, n)) ==>
      !Outranks(key(x), key(Take(sorted, n)[|Take(sorted, n)| - 1]))
  {
    var r := Take(sorted, n);
    assert sorted == r + sorted[|r|..];
    assert multiset(sorted) == multiset(r) + multiset(sorted[|r|..]);
    forall i | 0 <= i < |r| ensures r[i] in all {
      assert r[i] in multiset(r);
      assert r[i] in multiset(all);
    }
    if 0 < |r| < |sorted| {
      TakeDropsNoBetter(sorted, |r|, key);
      forall x | x in multiset(all) - multiset(r) ensures !Outranks(key(x), key(r[|r| - 1])) {
        assert x in multiset(sorted[|r|..]);
      }
    }
  }
}

=== FILE: records.dfy ===
/**
 * A JavaScript object literal used as a dictionary: its own keys with their
 * values, in insertion order (the order `Object.values` enumerates
 * non-numeric keys in), and indexing `obj[key]` on it.
 */
module Records {
  import opened Wrappers

  type Entries<V> = seq<(string, V)>

  function Keys<V>(c: Entries<V>): (r: seq<string>)
    ensures |r| == |c|
    ensures forall i :: 0 <= i < |c| ==> r[i] == c[i].0
  {
    if |c| == 0 then [] else [c[0].0] + Keys(c[1..])
  }

  /** `Object.values(obj)` */
  function Values<V>(c: Entries<V>): (r: seq<V>)
    ensures |r| == |c|
    ensures forall i :: 0 <= i < |c| ==> r[i] == c[i].1
  {
    if |c| == 0 then [] else [c[0].1] + Values(c[1..])
  }

  /** Keys of an object literal are unique. */
  predicate DistinctKeys<V>(c: Entries<V>)
  {
    forall i, j :: 0 <= i < j < |c| ==> c[i].0 != c[j].0
  }

  /** The own property `key`, or None when the object has no such own property. */
  function Lookup<V>(c: Entries<V>, key: string): (r: Option<V>)
    ensures r.Some? <==> key in Keys(c)
    ensures r.Some? ==> (key, r.value) in c
  {
    if |c| == 0 then None
    else if c[0].0 == key then Some(c[0].1)
    else Lookup(c[1..], key)
  }

  /** With unique keys the value found is the one stored under that key. */
  lemma LookupUnique<V>(c: Entries<V>, i: nat)
    requires DistinctKeys(c) && i < |c|
    ensures Lookup(c, c[i].0) == Some(c[i].1)
  {
    var r := Lookup(c, c[i].0);
    var j :| 0 <= j < |c| && c[j] == (c[i].0, r.value);
  }

  /** The names every plain object inherits from `Object.prototype`; all of them are
      truthy (functions, or the prototype object itself for `__proto__`). */
  const PrototypeNames: seq<string> := [
    "constructor", "__proto__", "hasOwnProperty", "isPrototypeOf", "propertyIsEnumerable",
    "toLocaleString", "toString", "valueOf",
    "__defineGetter__", "__defineSetter__", "__lookupGetter__", "__lookupSetter__"]

  /** What `obj[key]` evaluates to on an object literal. */
  datatype Property<V> = Own(value: V) | Inherited(name: string) | Undefined

  /** Property access `obj[key]`: an own property first, then the prototype chain. */
  function Get<V>(c: Entries<V>, key: string): (r: Property<V>)
    ensures key in Keys(c) ==> r == Own(Lookup(c, key).value)
    ensures key !in Keys(c) && key in PrototypeNames ==> r == Inherited(key)
    ensures r == Undefined <==> key !in Keys(c) && key !in PrototypeNames
  {
    match Lookup(c, key)
    case Some(v) => Own(v)
    case None => if key in PrototypeNames then Inherited(key) else Undefined
  }
}

=== FILE: seqs.dfy ===
/**
 * Order-preserving selection (`Array.prototype.filter`) and the subsequence
 * relation it produces.
 */
module Seqs {

  /** `a` can be obtained from `b` by deleting elements. */
  predicate Subseq<T(==)>(a: seq<T>, b: seq<T>)
    decreases |b|
  {
    |a| == 0 || (|b| > 0 && ((a[0] == b[0] && Subseq(a[1..], b[1..])) || Subseq(a, b[1..])))
  }

  /** Number of elements of `s` that satisfy `p`. */
  function CountIf<T>(s: seq<T>, p: T -> bool): nat
  {
    if |s| == 0 then 0 else (if p(s[0]) then 1 else 0) + CountIf(s[1..], p)
  }

  /** `s.filter(p)`: the elements that satisfy `p`, in their original order.
      Its contract pins it down: a subsequence, every element selected, and as
      many elements as `s` has that satisfy `p`. */
  function Filter<T(==)>(s: seq<T>, p: T -> bool): (r: seq<T>)
    ensures Subseq(r, s)
    ensures forall i :: 0 <= i < |r| ==> r[i] in s && p(r[i])
    ensures forall i :: 0 <= i < |s| ==> (s[i] in r <==> p(s[i]))
    ensures |r| == CountIf(s, p)
  {
    if |s| == 0 then []
    else if p(s[0]) then [s[0]] + Filter(s[1..], p)
    else Filter(s[1..], p)
  }

  lemma {:induction false} SubseqTransitive<T>(a: seq<T>, b: seq<T>, c: seq<T>)
    requires Subseq(a, b) && Subseq(b, c)
    ensures Subseq(a, c)
    decreases |c|
  {
    if |a| > 0 {
      assert |c| > 0;
      if b[0] == c[0] && Subseq(b[1..], c[1..]) {
        if a[0] == b[0] && Subseq(a[1..], b[1..]) {
          SubseqTransitive(a[1..], b[1..], c[1..]);
        } else {
          SubseqTransitive(a, b[1..], c[1..]);
        }
      } else {
        SubseqTransitive(a, b, c[1..]);
      }
    }
  }

  /** Selecting with a stronger predicate selects a subsequence of what the weaker one selects. */
  lemma {:induction false} FilterStronger<T>(s: seq<T>, p: T -> bool, q: T -> bool)
    requires forall x :: p(x) ==> q(x)
    ensures Subseq(Filter(s, p), Filter(s, q))
  {
    if |s| > 0 {
      FilterStronger(s[1..], p, q);
      var fp := Filter(s[1..], p);
      var fq := Filter(s[1..], q);
      if p(s[0]) {
        assert ([s[0]] + fp)[1..] == fp;
        assert ([s[0]] + fq)[1..] == fq;
      } else if q(s[0]) {
        assert ([s[0]] + fq)[1..] == fq;
      }
    }
  }

  /** Filtering a list extended by one element. */
  lemma {:induction false} FilterSnoc<T>(s: seq<T>, x: T, p: T -> bool)
    ensures Filter(s + [x], p) == Filter(s, p) + (if p(x) then [x] else [])
  {
    if |s| > 0 {
      assert (s + [x])[1..] == s[1..] + [x];
      FilterSnoc(s[1..], x, p);
    } else {
      assert s + [x] == [x];
    }
  }

  /** A predicate that every element satisfies selects everything. */
  lemma {:induction false} FilterAll<T>(s: seq<T>, p: T -> bool)
    requires forall i :: 0 <= i < |s| ==> p(s[i])
    ensures Filter(s, p) == s
  {
    if |s| > 0 {
      FilterAll(s[1..], p);
      assert s == [s[0]] + s[1..];
    }
  }
}

=== FILE: telegram.dfy ===
/**
 * The shapes of what the bot hands to the Telegram Bot API: a message text
 * with an inline keyboard. Every keyboard the bot builds has one button per
 * row, so a keyboard is a list of buttons.
 */
module Telegram {

  /** An inline-keyboard button: its label and the `callback_data` it sends back. */
  datatype Button = Button(text: string, data: string)

  datatype Message = Message(text: string, buttons: seq<Button>)

  /** The callback data of every button of a keyboard. */
  function CallbackData(buttons: seq<Button>): (r: seq<string>)
    ensures |r| == |buttons|
    ensures forall i :: 0 <= i < |buttons| ==> r[i] == buttons[i].data
  {
    if |buttons| == 0 then [] else [buttons[0].data] + CallbackData(buttons[1..])
  }
}

=== FILE: text.dfy ===
/**
 * String helpers shared by the bot and the web front-end: joining, substring
 * search, ASCII case folding, trimming, splitting and decimal rendering of
 * natural numbers.
 */
module Text {
  import opened Wrappers

  /** `parts.join(sep)` */
  function Join(parts: seq<string>, sep: string): (r: string)
    ensures |parts| == 0 ==> r == ""
    ensures |parts| == 1 ==> r == parts[0]
  {
    if |parts| == 0 then ""
    else if |parts| == 1 then parts[0]
    else parts[0] + sep + Join(parts[1..], sep)
  }

  /** JavaScript's `length`: UTF-16 code units, so a character outside the Basic
      Multilingual Plane (an emoji such as U+1F4DD) counts twice. */
  function Utf16Length(s: string): (n: nat)
    ensures |s| <= n <= 2 * |s|
  {
    if |s| == 0 then 0
    else Utf16Length(s[..|s| - 1]) + (if s[|s| - 1] as int >= 0x10000 then 2 else 1)
  }

  /** The UTF-16 length of a concatenation is the sum of the lengths. */
  lemma {:induction false} Utf16Append(a: string, b: string)
    ensures Utf16Length(a + b) == Utf16Length(a) + Utf16Length(b)
    decreases |b|
  {
    if |b| > 0 {
      var n := |b| - 1;
      assert (a + b)[..|a + b| - 1] == a + b[..n];
      assert b[..|b| - 1] == b[..n];
      Utf16Append(a, b[..n]);
    } else {
      assert a + b == a;
    }
  }

  /** A character outside the Basic Multilingual Plane is two units, one inside it is one. */
  lemma Utf16Astral()
    ensures Utf16Length("\U{1F4DD}") == 2 && Utf16Length("a") == 1
  {
    assert "\U{1F4DD}"[..0] == "";
    assert "a"[..0] == "";
  }

  /** Sum of the lengths of the parts. */
  function TotalLength(parts: seq<string>): nat
  {
    if |parts| == 0 then 0 else |parts[0]| + TotalLength(parts[1..])
  }

  /** The length of a join: every part plus one separator between neighbours. */
  lemma {:induction false} JoinLength(parts: seq<string>, sep: string)
    requires |parts| > 0
    ensures |Join(parts, sep)| == TotalLength(parts) + (|parts| - 1) * |sep|
  {
    if |parts| > 1 {
      JoinLength(parts[1..], sep);
    }
  }

  /** Joining a non-empty list extended by one more part. */
  lemma {:induction false} JoinSnoc(parts: seq<string>, p: string, sep: string)
    requires |parts| > 0
    ensures Join(parts + [p], sep) == Join(parts, sep) + sep + p
  {
    if |parts| == 1 {
      assert parts + [p] == [parts[0], p];
      assert ([parts[0], p])[1..] == [p];
    } else {
      assert (parts + [p])[1..] == parts[1..] + [p];
      JoinSnoc(parts[1..], p, sep);
    }
  }

  /** Joining two non-empty lists is joining their joins. */
  lemma {:induction false} JoinAppend(a: seq<string>, b: seq<string>, sep: string)
    requires |a| > 0 && |b| > 0
    ensures Join(a + b, sep) == Join(a, sep) + sep + Join(b, sep)
  {
    if |a| == 1 {
      assert (a + b)[1..] == b;
    } else {
      assert (a + b)[1..] == a[1..] + b;
      JoinAppend(a[1..], b, sep);
    }
  }

  /** `s.startsWith(prefix)` */
  predicate StartsWith(s: string, prefix: string)
  {
    |prefix| <= |s| && s[..|prefix|] == prefix
  }

  /** `hay.includes(needle)`: some position of `hay` begins a copy of `needle`. */
  predicate Contains(hay: string, needle: string)
  {
    exists i | 0 <= i <= |hay| - |needle| :: OccursAt(hay, needle, i)
  }

  /** `needle` sits in `hay` starting at position `i`. */
  predicate OccursAt(hay: string, needle: string, i: int)
  {
    0 <= i <= |hay| - |needle| && hay[i..i + |needle|] == needle
  }

  /** The middle of a three-part concatenation occurs right after the first part. */
  lemma OccursAtMiddle(a: string, b: string, c: string)
    ensures OccursAt(a + b + c, b, |a|) && Contains(a + b + c, b)
  {
    assert (a + b + c)[|a|..|a| + |b|] == b;
    assert OccursAt(a + b + c, b, |a|);
  }

  lemma ContainsEmpty(hay: string)
    ensures Contains(hay, "")
  {
    assert OccursAt(hay, "", 0);
  }

  /** The ASCII part of `String.prototype.toLowerCase`. */
  function LowerChar(c: char): (r: char)
    ensures 'A' <= c <= 'Z' ==> 'a' <= r <= 'z'
    ensures !('A' <= c <= 'Z') ==> r == c
  {
    if 'A' <= c <= 'Z' then (c as int - 'A' as int + 'a' as int) as char else c
  }

  function ToLower(s: string): (r: string)
    ensures |r| == |s|
    ensures forall i :: 0 <= i < |s| ==> r[i] == LowerChar(s[i])
  {
    if |s| == 0 then "" else [LowerChar(s[0])] + ToLower(s[1..])
  }

  /** Lower-casing is idempotent: a lower-cased string has no upper-case letter left. */
  lemma ToLowerIdempotent(s: string)
    ensures ToLower(ToLower(s)) == ToLower(s)
  {
  }

  /** The whitespace `String.prototype.trim` removes, restricted to the common code points. */
  predicate IsSpace(c: char)
  {
    c == ' ' || c == '\t' || c == '\n' || c == '\r' || c == '\U{000B}' || c == '\U{000C}'
    || c == '\U{00A0}' || c == '\U{FEFF}' || c == '\U{2028}' || c == '\U{2029}'
  }

  function TrimStart(s: string): (r: string)
    ensures |r| <= |s| && r == s[|s| - |r|..]
    ensures |r| > 0 ==> !IsSpace(r[0])
    ensures forall i :: 0 <= i < |s| - |r| ==> IsSpace(s[i])
  {
    if |s| > 0 && IsSpace(s[0]) then TrimStart(s[1..]) else s
  }

  function TrimEnd(s: string): (r: string)
    ensures |r| <= |s| && r == s[..|r|]
    ensures |r| > 0 ==> !IsSpace(r[|r| - 1])
    ensures forall i :: |r| <= i < |s| ==> IsSpace(s[i])
  {
    if |s| > 0 && IsSpace(s[|s| - 1]) then TrimEnd(s[..|s| - 1]) else s
  }

  /** `s.trim()` */
  function Trim(s: string): string
  {
    TrimEnd(TrimStart(s))
  }

  /** Trimming yields an empty string exactly when the input is all whitespace. */
  lemma TrimEmptyIff(s: string)
    ensures Trim(s) == "" <==> forall i :: 0 <= i < |s| ==> IsSpace(s[i])
  {
    var t := TrimStart(s);
    if |t| > 0 {
      assert !IsSpace(t[0]);
      assert t[0] == s[|s| - |t|];
    }
  }

  /** `s.split(sep)`: the pieces between occurrences of `sep`; there is always at least one. */
  function Split(s: string, sep: char): (r: seq<string>)
    ensures |r| > 0
    ensures forall k, j :: 0 <= k < |r| && 0 <= j < |r[k]| ==> r[k][j] != sep
  {
    if |s| == 0 then [""]
    else
      var rest := Split(s[1..], sep);
      if s[0] == sep then [""] + rest
      else [[s[0]] + rest[0]] + rest[1..]
  }

  /** Joining the pieces with the separator gives back the original string. */
  lemma {:induction false} SplitJoin(s: string, sep: char)
    ensures Join(Split(s, sep), [sep]) == s
  {
    if |s| > 0 {
      var rest := Split(s[1..], sep);
      SplitJoin(s[1..], sep);
      if s[0] == sep {
        assert ([""] + rest)[1..] == rest;
        if |rest| == 1 {
          assert Join([""] + rest, [sep]) == "" + [sep] + rest[0];
        }
        assert s == [s[0]] + s[1..];
      } else {
        var first := [s[0]] + rest[0];
        if |rest| == 1 {
          assert s == [s[0]] + s[1..];
        } else {
          assert ([first] + rest[1..])[1..] == rest[1..];
          assert Join(rest, [sep]) == rest[0] + [sep] + Join(rest[1..], [sep]);
          assert s == [s[0]] + s[1..];
        }
      }
    }
  }

  /** A string without the separator splits into itself. */
  lemma {:induction false} SplitAbsent(s: string, sep: char)
    requires sep !in s
    ensures Split(s, sep) == [s]
  {
    if |s| > 0 {
      SplitAbsent(s[1..], sep);
      assert s == [s[0]] + s[1..];
    }
  }

  /** Position of the first occurrence of `c` in `s`. */
  function FirstIndex(s: string, c: char): (i: nat)
    requires c in s
    ensures i < |s| && s[i] == c && c !in s[..i]
  {
    if s[0] == c then 0
    else
      assert c in s[1..] by {
        var k :| 0 <= k < |s| && s[k] == c;
        assert s[1..][k - 1] == c;
      }
      var j := FirstIndex(s[1..], c);
      assert s[..j + 1] == [s[0]] + s[1..][..j];
      j + 1
  }

  /** The first occurrence is the one with no earlier occurrence. */
  lemma FirstIndexAt(s: string, c: char, i: nat)
    requires i < |s| && s[i] == c && c !in s[..i]
    ensures c in s && FirstIndex(s, c) == i
  {
    assert s[..i + 1] == s[..i] + [c];
  }

  /** The end of a concatenation occurs right after its first part. */
  lemma OccursAtEnd(a: string, b: string)
    ensures OccursAt(a + b, b, |a|) && Contains(a + b, b)
  {
    assert (a + b)[|a|..|a| + |b|] == b;
    assert OccursAt(a + b, b, |a|);
  }

  /** `s.replace(c, '')` with a one-character string pattern: only the first occurrence goes. */
  function RemoveFirst(s: string, c: char): (r: string)
    ensures c !in s ==> r == s
    ensures c in s ==> r == s[..FirstIndex(s, c)] + s[FirstIndex(s, c) + 1..]
  {
    if c in s then s[..FirstIndex(s, c)] + s[FirstIndex(s, c) + 1..] else s
  }

  /** Decimal digits of a natural number, most significant first, without leading zeros. */
  function NatToString(n: nat): (r: string)
    ensures |r| > 0
    ensures forall i :: 0 <= i < |r| ==> '0' <= r[i] <= '9'
    ensures |r| > 1 ==> r[0] != '0'
  {
    if n < 10 then [Digit(n)] else NatToString(n / 10) + [Digit(n % 10)]
  }

  function Digit(d: nat): (c: char)
    requires d < 10
    ensures '0' <= c <= '9'
  {
    ('0' as int + d) as char
  }

  /** Reads a string of decimal digits back into the number it denotes. */
  /** Every character of `s` is a decimal digit. */
  predicate AllDigits(s: string)
  {
    forall i :: 0 <= i < |s| ==> '0' <= s[i] <= '9'
  }

  /** The value of a non-empty run of digits; None for anything else. */
  function ParseDigits(s: string): Option<int>
  {
    if |s| > 0 && AllDigits(s) then Some(ParseNat(s)) else None
  }

  function ParseNat(s: string): nat
    requires forall i :: 0 <= i < |s| ==> '0' <= s[i] <= '9'
  {
    if |s| == 0 then 0 else 10 * ParseNat(s[..|s| - 1]) + (s[|s| - 1] as int - '0' as int)
  }

  lemma {:induction false} NatToStringRoundTrip(n: nat)
    ensures ParseNat(NatToString(n)) == n
  {
    if n >= 10 {
      var s := NatToString(n);
      NatToStringRoundTrip(n / 10);
      assert s[..|s| - 1] == NatToString(n / 10);
    }
  }

  /** Distinct numbers render differently. */
  lemma NatToStringInjective(m: nat, n: nat)
    requires NatToString(m) == NatToString(n)
    ensures m == n
  {
    NatToStringRoundTrip(m);
    NatToStringRoundTrip(n);
  }

  /** Template-literal rendering of an integer: a '-' before the digits of a negative one. */
  function IntToString(n: int): (r: string)
    ensures |r| > 0
    ensures n >= 0 ==> r == NatToString(n)
    ensures n < 0 ==> r == "-" + NatToString(-n)
  {
    if n >= 0 then NatToString(n) else "-" + NatToString(-n)
  }

  /** Concatenation of a list of lists. */
  function Concat(gs: seq<seq<string>>): (r: seq<string>)
  {
    if |gs| == 0 then [] else gs[0] + Concat(gs[1..])
  }

  /** Each list joined with `sep`. */
  function JoinEach(gs: seq<seq<string>>, sep: string): (r: seq<string>)
    ensures |r| == |gs|
    ensures forall i :: 0 <= i < |gs| ==> r[i] == Join(gs[i], sep)
  {
    if |gs| == 0 then [] else [Join(gs[0], sep)] + JoinEach(gs[1..], sep)
  }

  /** Joining the joins of non-empty groups is joining everything at once. */
  lemma {:induction false} JoinOfJoins(gs: seq<seq<string>>, sep: string)
    requires forall i :: 0 <= i < |gs| ==> |gs[i]| > 0
    ensures Join(JoinEach(gs, sep), sep) == Join(Concat(gs), sep)
  {
    if |gs| > 1 {
      JoinOfJoins(gs[1..], sep);
      ConcatNonEmpty(gs[1..]);
      JoinAppend(gs[0], Concat(gs[1..]), sep);
    } else if |gs| == 1 {
      assert Concat(gs) == gs[0] + Concat(gs[1..]);
      assert gs[0] + [] == gs[0];
    }
  }

  lemma {:induction false} ConcatNonEmpty(gs: seq<seq<string>>)
    requires |gs| > 0 && forall i :: 0 <= i < |gs| ==> |gs[i]| > 0
    ensures |Concat(gs)| > 0
  {
  }
}

=== FILE: utils.dfy ===
/**
 * utils.js: HTML escaping for Telegram's HTML parse mode and the deep link
 * that shares a quiz.
 */
module Utils {
  import opened Wrappers
  import opened Text

  /** `s.replace(/c/g, rep)` for a one-character pattern. */
  function ReplaceAll(s: string, c: char, rep: string): string
  {
    if |s| == 0 then "" else (if s[0] == c then rep else [s[0]]) + ReplaceAll(s[1..], c, rep)
  }

  /** `escapeHtml`: three global replacements, '&' first, then '<', then '>'. The
      escaped text never contains a tag delimiter. */
  function EscapeHtml(text: string): (r: string)
    ensures '<' !in r && '>' !in r
  {
    var amp := ReplaceAll(text, '&', "&amp;");
    var lt := ReplaceAll(amp, '<', "&lt;");
    ReplaceAllLeavesOut(amp, '<', '<', "&lt;");
    ReplaceAllLeavesOut(lt, '>', '<', "&gt;");
    ReplaceAllLeavesOut(lt, '>', '>', "&gt;");
    ReplaceAll(lt, '>', "&gt;")
  }

  /** Reference definition: each character escaped on its own. */
  function EscapeChar(c: char): string
  {
    if c == '&' then "&amp;" else if c == '<' then "&lt;" else if c == '>' then "&gt;" else [c]
  }

  function EscapeEach(s: string): string
  {
    if |s| == 0 then "" else EscapeChar(s[0]) + EscapeEach(s[1..])
  }

  /** Number of occurrences of `c` in `s`. */
  function Count(s: string, c: char): nat
  {
    if |s| == 0 then 0 else (if s[0] == c then 1 else 0) + Count(s[1..], c)
  }

  /** Left-to-right decoding of the three entities `escapeHtml` produces. */
  function Unescape(s: string): string
    decreases |s|
  {
    if |s| == 0 then ""
    else if StartsWith(s, "&amp;") then "&" + Unescape(s[5..])
    else if StartsWith(s, "&lt;") then "<" + Unescape(s[4..])
    else if StartsWith(s, "&gt;") then ">" + Unescape(s[4..])
    else [s[0]] + Unescape(s[1..])
  }

  lemma {:induction false} ReplaceAllAppend(a: string, b: string, c: char, rep: string)
    ensures ReplaceAll(a + b, c, rep) == ReplaceAll(a, c, rep) + ReplaceAll(b, c, rep)
  {
    if |a| > 0 {
      assert (a + b)[1..] == a[1..] + b;
      ReplaceAllAppend(a[1..], b, c, rep);
    } else {
      assert a + b == b;
    }
  }

  lemma {:induction false} ReplaceAllAbsent(s: string, c: char, rep: string)
    requires c !in s
    ensures ReplaceAll(s, c, rep) == s
  {
    if |s| > 0 {
      ReplaceAllAbsent(s[1..], c, rep);
    }
  }

  /** A pass leaves out a character its replacement lacks when that character is
      the one replaced or was already absent. */
  lemma {:induction false} ReplaceAllLeavesOut(s: string, c: char, d: char, rep: string)
    requires d !in rep && (d == c || d !in s)
    ensures d !in ReplaceAll(s, c, rep)
  {
    if |s| > 0 {
      ReplaceAllLeavesOut(s[1..], c, d, rep);
    }
  }

  /** A one-character string is replaced whole or kept. */
  lemma ReplaceAllSingle(c: char, d: char, rep: string)
    ensures ReplaceAll([c], d, rep) == if c == d then rep else [c]
  {
    assert ([c])[1..] == [];
  }

  /** `escapeHtml` on one character escapes that character. */
  lemma EscapeHtmlChar(c: char)
    ensures EscapeHtml([c]) == EscapeChar(c)
  {
    ReplaceAllSingle(c, '&', "&amp;");
    if c == '&' {
      ReplaceAllAbsent("&amp;", '<', "&lt;");
      ReplaceAllAbsent("&amp;", '>', "&gt;");
    } else {
      ReplaceAllSingle(c, '<', "&lt;");
      if c == '<' {
        ReplaceAllAbsent("&lt;", '>', "&gt;");
      } else {
        ReplaceAllSingle(c, '>', "&gt;");
      }
    }
  }

  /** `escapeHtml` distributes over concatenation. */
  lemma EscapeHtmlAppend(a: string, b: string)
    ensures EscapeHtml(a + b) == EscapeHtml(a) + EscapeHtml(b)
  {
    ReplaceAllAppend(a, b, '&', "&amp;");
    var a1, b1 := ReplaceAll(a, '&', "&amp;"), ReplaceAll(b, '&', "&amp;");
    ReplaceAllAppend(a1, b1, '<', "&lt;");
    var a2, b2 := ReplaceAll(a1, '<', "&lt;"), ReplaceAll(b1, '<', "&lt;");
    ReplaceAllAppend(a2, b2, '>', "&gt;");
  }

  /** The three passes of `escapeHtml` agree with escaping every character once:
      no replacement text contains a character a later pass rewrites. */
  lemma {:induction false} EscapeHtmlIsEscapeEach(s: string)
    ensures EscapeHtml(s) == EscapeEach(s)
  {
    if |s| > 0 {
      assert s == [s[0]] + s[1..];
      EscapeHtmlAppend([s[0]], s[1..]);
      EscapeHtmlChar(s[0]);
      EscapeHtmlIsEscapeEach(s[1..]);
    }
  }

  /** A string that differs from `p` at position `k` neither equals nor starts with `p`. */
  lemma DiffersAt(s: string, p: string, k: nat)
    requires k < |s| && k < |p| && s[k] != p[k]
    ensures s != p && !StartsWith(s, p)
  {
    if |p| <= |s| {
      assert s[..|p|][k] == s[k];
    }
  }

  /** Decoding an escaped character followed by anything decodes that character first. */
  lemma UnescapeStep(c: char, rest: string)
    ensures Unescape(EscapeChar(c) + rest) == [c] + Unescape(rest)
  {
    var e := EscapeChar(c) + rest;
    if c == '&' {
      assert e[..5] == "&amp;" && e[5..] == rest;
    } else if c == '<' {
      assert e[..4] == "&lt;" && e[4..] == rest;
      DiffersAt(e, "&amp;", 1);
    } else if c == '>' {
      assert e[..4] == "&gt;" && e[4..] == rest;
      DiffersAt(e, "&amp;", 1);
      DiffersAt(e, "&lt;", 1);
    } else {
      assert e[0] == c && e[1..] == rest;
      DiffersAt(e, "&amp;", 0);
      DiffersAt(e, "&lt;", 0);
      DiffersAt(e, "&gt;", 0);
    }
  }

  lemma {:induction false} UnescapeEscapeEach(s: string)
    ensures Unescape(EscapeEach(s)) == s
  {
    if |s| > 0 {
      UnescapeEscapeEach(s[1..]);
      UnescapeStep(s[0], EscapeEach(s[1..]));
      assert s == [s[0]] + s[1..];
    }
  }

  /** One left-to-right decoding pass recovers the input: '&' is escaped first,
      so no entity produced by a later pass is ever escaped again. */
  lemma UnescapeEscapeHtml(s: string)
    ensures Unescape(EscapeHtml(s)) == s
  {
    EscapeHtmlIsEscapeEach(s);
    UnescapeEscapeEach(s);
  }

  /** Text without '&', '<' and '>' passes through unchanged. */
  lemma EscapeHtmlPlain(s: string)
    requires '&' !in s && '<' !in s && '>' !in s
    ensures EscapeHtml(s) == s
  {
    ReplaceAllAbsent(s, '&', "&amp;");
    ReplaceAllAbsent(s, '<', "&lt;");
    ReplaceAllAbsent(s, '>', "&gt;");
  }

  lemma {:induction false} EscapeEachLength(s: string)
    ensures |EscapeEach(s)| == |s| + 4 * Count(s, '&') + 3 * Count(s, '<') + 3 * Count(s, '>')
  {
    if |s| > 0 {
      EscapeEachLength(s[1..]);
    }
  }

  /** Each '&' grows by four characters, each '<' and '>' by three. */
  lemma EscapeHtmlLength(s: string)
    ensures |EscapeHtml(s)| == |s| + 4 * Count(s, '&') + 3 * Count(s, '<') + 3 * Count(s, '>')
  {
    EscapeHtmlIsEscapeEach(s);
    EscapeEachLength(s);
  }

  lemma {:induction false} EscapeEachKeepsOther(s: string, q: char)
    requires q != '&' && q != '<' && q != '>' && q != 'a' && q != 'm' && q != 'p' && q != ';'
    requires q != 'l' && q != 'g' && q != 't'
    ensures Count(EscapeEach(s), q) == Count(s, q)
  {
    if |s| > 0 {
      EscapeEachKeepsOther(s[1..], q);
      CountAppend(EscapeChar(s[0]), EscapeEach(s[1..]), q);
      if s[0] == '&' || s[0] == '<' || s[0] == '>' {
        CountAbsent(EscapeChar(s[0]), q);
      } else {
        assert EscapeChar(s[0])[1..] == [];
      }
    }
  }

  lemma {:induction false} CountAbsent(s: string, c: char)
    requires c !in s
    ensures Count(s, c) == 0
  {
    if |s| > 0 {
      CountAbsent(s[1..], c);
    }
  }

  lemma {:induction false} CountAppend(a: string, b: string, c: char)
    ensures Count(a + b, c) == Count(a, c) + Count(b, c)
  {
    if |a| > 0 {
      assert (a + b)[1..] == a[1..] + b;
      CountAppend(a[1..], b, c);
    } else {
      assert a + b == b;
    }
  }

  /** Quotes are never escaped: the output holds exactly as many as the input. */
  lemma EscapeHtmlKeepsQuotes(s: string)
    ensures Count(EscapeHtml(s), '"') == Count(s, '"')
    ensures Count(EscapeHtml(s), '\'') == Count(s, '\'')
  {
    EscapeHtmlIsEscapeEach(s);
    EscapeEachKeepsOther(s, '"');
    EscapeEachKeepsOther(s, '\'');
  }

  /** config.js: `BOT_USERNAME`, the environment value or 'sb_quizz_bot' when unset or empty. */
  function BotUsername(env: Option<string>): (r: string)
    ensures env.Some? && env.value != "" ==> r == env.value
    ensures !(env.Some? && env.value != "") ==> r == "sb_quizz_bot"
    ensures r != ""
  {
    match env
    case Some(v) => if v != "" then v else "sb_quizz_bot"
    case None => "sb_quizz_bot"
  }

  /** `getShareableLink`: a Telegram deep link that opens the bot with `/start <quizId>`.
      The link carries exactly the quiz id, provided the bot name has no '?'
      (Telegram user names are letters, digits and underscores). */
  function ShareableLink(botUsername: string, quizId: string): (r: string)
    ensures '?' !in botUsername ==> StartParameter(r) == Some(quizId)
  {
    var r := "https://t.me/" + botUsername + "?start=" + quizId;
    assert '?' !in botUsername ==> StartParameter(r) == Some(quizId) by {
      if '?' !in botUsername {
        StartParameterAfter("https://t.me/" + botUsername, quizId);
      }
    }
    r
  }

  /** What Telegram hands to `/start` for a deep link: the text after the first '?start='. */
  function StartParameter(link: string): Option<string>
  {
    if '?' in link && StartsWith(link[FirstIndex(link, '?') + 1..], "start=")
    then Some(link[FirstIndex(link, '?') + 7..])
    else None
  }

  /** The text after a first '?' that opens "start=" is what `/start` receives. */
  lemma StartParameterAfter(prefix: string, quizId: string)
    requires '?' !in prefix
    ensures StartParameter(prefix + "?start=" + quizId) == Some(quizId)
  {
    var link := prefix + "?start=" + quizId;
    var p := |prefix|;
    assert link[p] == '?';
    assert link[..p] == prefix;
    assert FirstIndex(link, '?') == p;
    assert link[p + 1..] == "start=" + quizId;
    assert link[p + 7..] == quizId;
  }
}

=== FILE: webquizdata.dfy ===
/**
 * sb_quiz_website/src/data/quizData.ts: the web catalog. Quizzes carry their
 * canto and chapter; `CANTOS` lists the twelve cantos with their chapter
 * counts. Questions have the bot's shape; the optional `explanation` and
 * `verseReference` fields are unused by every quiz and left out.
 */
module WebQuizData {
  import opened Wrappers
  import opened Seqs
  import opened Records
  import opened QuizData

  datatype Canto = Canto(number: int, title: string, sanskritTitle: string, chapters: int)

  datatype WebQuiz = WebQuiz(
    id: string,
    cantoNumber: int,
    chapterNumber: int,
    title: string,
    sanskritTitle: Option<string>,
    description: string,
    createdDate: string,
    live: bool,
    questions: seq<Question>)

  type WebCatalog = Entries<WebQuiz>

  /** `getQuiz`: the quiz stored under `quizId` as an own key, or null. */
  function GetWebQuiz(c: WebCatalog, quizId: string): (r: Option<WebQuiz>)
    ensures r.Some? <==> quizId in Keys(c)
    ensures r.Some? ==> (quizId, r.value) in c
    ensures DistinctKeys(c) ==> forall i :: 0 <= i < |c| && c[i].0 == quizId ==> r == Some(c[i].1)
  {
    LookupAll(c);
    Lookup(c, quizId)
  }

  /** `getQuiz` as written, `QUIZZES[quizId] || null`: like the bot's lookup it also finds
      the properties every object inherits. */
  function GetWebQuizAsWritten(c: WebCatalog, quizId: string): (r: Property<WebQuiz>)
    ensures r.Own? <==> GetWebQuiz(c, quizId).Some?
    ensures r.Own? ==> r.value == GetWebQuiz(c, quizId).value
    ensures r.Inherited? <==> GetWebQuiz(c, quizId).None? && quizId in PrototypeNames
  {
    Get(c, quizId)
  }

  /** "constructor" is no quiz of the web catalog, yet the written lookup returns something truthy. */
  lemma WebConstructorPassesGuard()
    ensures GetWebQuiz(WEB_QUIZZES, "constructor").None?
    ensures GetWebQuizAsWritten(WEB_QUIZZES, "constructor") == Inherited("constructor")
  {
    assert "constructor" !in Keys(WEB_QUIZZES) by {
      forall i | 0 <= i < |WEB_QUIZZES|
        ensures Keys(WEB_QUIZZES)[i] != "constructor"
      {
        assert WEB_QUIZZES[i].0[..6] == "canto_";
      }
    }
    assert "constructor" in PrototypeNames;
  }

  predicate IsLiveWeb(q: WebQuiz)
  {
    q.live
  }

  /** `getAvailableQuizzes`: the live quizzes in catalog order. */
  function GetAvailableWebQuizzes(c: WebCatalog): (r: seq<WebQuiz>)
    ensures Subseq(r, Values(c))
    ensures forall i :: 0 <= i < |r| ==> r[i].live
    ensures forall i :: 0 <= i < |c| ==> (c[i].1 in r <==> c[i].1.live)
  {
    Filter(Values(c), IsLiveWeb)
  }

  /** `getQuizzesByCanto(n)`: the live quizzes of canto n, in catalog order. */
  function GetQuizzesByCanto(c: WebCatalog, n: int): (r: seq<WebQuiz>)
    ensures Subseq(r, GetAvailableWebQuizzes(c))
    ensures forall i :: 0 <= i < |r| ==> r[i].live && r[i].cantoNumber == n
    ensures forall i :: 0 <= i < |c| ==> (c[i].1 in r <==> c[i].1.live && c[i].1.cantoNumber == n)
  {
    var p := (q: WebQuiz) => q.cantoNumber == n && q.live;
    FilterStronger(Values(c), p, IsLiveWeb);
    Filter(Values(c), p)
  }

  /** `getCantoInfo(n)`: the first `CANTOS` entry numbered n, or undefined. */
  function GetCantoInfo(cantos: seq<Canto>, n: int): (r: Option<Canto>)
    ensures r.Some? <==> exists i :: 0 <= i < |cantos| && cantos[i].number == n
    ensures r.Some? ==> r.value in cantos && r.value.number == n
    ensures DistinctNumbers(cantos) ==> forall i :: 0 <= i < |cantos| && cantos[i].number == n ==> r == Some(cantos[i])
  {
    if |cantos| == 0 then None
    else if cantos[0].number == n then Some(cantos[0])
    else
      var r := GetCantoInfo(cantos[1..], n);
      assert forall i :: 1 <= i < |cantos| ==> cantos[i] == cantos[1..][i - 1];
      r
  }

  predicate DistinctNumbers(cantos: seq<Canto>)
  {
    forall i, j :: 0 <= i < j < |cantos| ==> cantos[i].number != cantos[j].number
  }

  /** `CANTOS` lists cantos 1 to 12 in order, each once. */
  lemma CantosNumbered()
    ensures |CANTOS| == 12
    ensures forall i :: 0 <= i < 12 ==> CANTOS[i].number == i + 1
    ensures DistinctNumbers(CANTOS)
  {
  }

  /** `getCantoInfo` finds exactly the numbers 1 to 12. */
  lemma CantoInfoRange(n: int)
    ensures GetCantoInfo(CANTOS, n).Some? <==> 1 <= n <= 12
    ensures 1 <= n <= 12 ==> GetCantoInfo(CANTOS, n) == Some(CANTOS[n - 1])
  {
    CantosNumbered();
    if 1 <= n <= 12 {
      assert CANTOS[n - 1].number == n;
    } else {
      assert forall i :: 0 <= i < |CANTOS| ==> CANTOS[i].number != n;
    }
  }

  /** A quiz belongs to an existing canto and chapter, keyed by its own id, with at least
      one question and every answer index in range. */
  predicate WellFormedWeb(c: WebCatalog)
  {
    && DistinctKeys(c)
    && (forall i :: 0 <= i < |c| ==> c[i].0 == c[i].1.id)
    && (forall i :: 0 <= i < |c| ==> WellFormedWebQuiz(c[i].1))
  }

  predicate WellFormedWebQuiz(q: WebQuiz)
  {
    && |q.questions| >= 1
    && (forall j :: 0 <= j < |q.questions| ==> WellFormedQuestion(q.questions[j]))
    && InCanto(q.cantoNumber, q.chapterNumber)
  }

  /** Chapter `chapter` exists in canto `canto` (`CANTOS` is indexed by canto number,
      see `CantoInfoRange`). */
  predicate InCanto(canto: int, chapter: int)
  {
    1 <= canto <= |CANTOS| && 1 <= chapter <= CANTOS[canto - 1].chapters
  }

  /** `InCanto` agrees with looking the canto up by number. */
  lemma InCantoIff(canto: int, chapter: int)
    ensures InCanto(canto, chapter) <==>
      GetCantoInfo(CANTOS, canto).Some? && 1 <= chapter <= GetCantoInfo(CANTOS, canto).value.chapters
  {
    CantoInfoRange(canto);
  }

  /** The shipped web catalog satisfies the data invariants. */
  lemma WebQuizzesWellFormed()
    ensures WellFormedWeb(WEB_QUIZZES)
  {
    assert CANTOS[2].chapters == 33;
    assert WellFormedWebQuiz(WebQuiz1);
    assert WellFormedWebQuiz(WebQuiz2);
    assert WellFormedWebQuiz(WebQuiz3);
    assert WellFormedWebQuiz(WebQuiz4);
    var c := WEB_QUIZZES;
    assert c == [(WebQuiz1.id, WebQuiz1), (WebQuiz2.id, WebQuiz2), (WebQuiz3.id, WebQuiz3), (WebQuiz4.id, WebQuiz4)];
  }

  const CANTOS: seq<Canto> := [
    Canto(1, "Creation", "Sṛṣṭi", 19),
    Canto(2, "The Cosmic Manifestation", "Viśva-sṛṣṭi", 10),
    Canto(3, "The Status Quo", "Yathāvasthita", 33),
    Canto(4, "The Creation of the Fourth Order", "Caturtha-sarga", 31),
    Canto(5, "The Creative Impetus", "Sṛṣṭi-kāraṇa", 26),
    Canto(6, "Prescribed Duties for Mankind", "Puṁsāṁ Vṛtti", 19),
    Canto(7, "The Science of God", "Bhagavat-vijñāna", 15),
    Canto(8, "Withdrawal of the Cosmic Creations", "Pralaya", 24),
    Canto(9, "Liberation", "Mukti", 24),
    Canto(10, "The Summum Bonum", "Āśraya", 90),
    Canto(11, "General History", "Sāmānya-itihāsa", 31),
    Canto(12, "The Age of Deterioration", "Kali-yuga", 13)
  ]

  /** `QUIZZES`, as written in quizData.ts. */
  const WEB_QUIZZES: WebCatalog := [
    ("canto_3_chapter_17", WebQuiz1),
    ("canto_3_chapter_18", WebQuiz2),
    ("canto_3_chapter_19", WebQuiz3),
    ("canto_3_chapter_20", WebQuiz4)
  ]

  const WebQuiz1: WebQuiz := WebQuiz(
    "canto_3_chapter_17", 3, 17,
    "Victory of Hiraṇyākṣa Over All the Directions of the Universe",
    Some("Hiraṇyākṣa Digvijaya"),
    "Śrīmad Bhāgavatam Quiz - Canto 3 Chapter 17", "2025-12-23", true, [
      Question(
        "According to the Pinda-siddhi logic mentioned in the SB 3/17/18 purport, why was Hiranyakasipu considered the elder twin despite being born second?",
        ["He was delivered from the right side of the womb.", "Brahma explicitly named him the elder in a benediction.", "He was the first to be conceived in the womb.", "He exhibited greater physical strength at the moment of birth."],
        2),
      Question(
        "What was the cause of natural disturbances & bad omen throughout the universe?",
        ["Attack's caused by the demon's", "It was the time for a dissolution of the universe.", "End of Brahma's Kalpa.", "Birth of Diti's son's"],
        3),
      Question(
        "Which of the following was NOT described as an inauspicious omen at the birth of the demons?",
        ["She-jackals vomited fire and howled ominously.", "Cows passed dung and urine out of sheer terror.", "Flowers rained from the sky in the heavenly planets.", "The earth and mountains quaked violently."],
        2),
      Question(
        "When Hiranyaksa entered the ocean searching for a fight, how did the aquatic creatures react?",
        ["They formed an army to defend the palace of Varuna.", "They remained indifferent as he was a land-dweller.", "They fled in great fear, even though he did not strike them.", "They gathered to offer him tributes of gold and jewels."],
        2),
      Question(
        "Which one is lord Varuna's Planet?",
        ["Virajā", "Varuna loka", "Indraloka", "Vibhavari"],
        3)
    ])

  const WebQuiz2: WebQuiz := WebQuiz(
    "canto_3_chapter_18", 3, 18,
    "The Battle Between Lord Boar and the Demon Hiraṇyākṣa",
    Some("Varāha-Hiraṇyākṣa Yuddha"),
    "Śrīmad Bhāgavatam Quiz - Canto 3 Chapter 18", "2025-12-24", true, [
      Question(
        "Who is described as the most independent demigod of the universe who came to witness the fight?",
        ["Lord Shiva", "Lord Brahma", "Indra", "Manu"],
        1),
      Question(
        "How did Lord Varaha ensure the safety of the Earth before engaging in the final duel?",
        ["He placed her on the water and empowered her to float", "He hid the Earth behind the sun", "He handed the Earth over to Lord Brahma", "He swallowed the Earth to keep her safe inside His body"],
        0),
      Question(
        "Did the demon Hiranyaksha glorify the Lord with his words, despite his wanting to deride Him?",
        ["True", "False"],
        0),
      Question(
        "Who refuses liberation even if it is offered to them?",
        ["Impersonalists", "Asuras", "Karmis", "Devotees of the Lord"],
        3)
    ])

  const WebQuiz3: WebQuiz := WebQuiz(
    "canto_3_chapter_19", 3, 19,
    "The Killing of the Demon Hiraṇyākṣa",
    Some("Hiraṇyākṣa-vadha"),
    "Śrīmad Bhāgavatam Quiz - Canto 3 Chapter 19", "2025-12-25", true, [
      Question(
        "What spiritual benefit is gained by hearing or telling this story?",
        ["They will gain the physical strength of a boar.", "They will never face any financial loss.", "They are freed from even the sin of killing a brahmana and gain Vaikuṇṭha.", "They will become the next Lord Brahma."],
        2),
      Question(
        "Why did Brahmā call Hiraṇyākṣa 'blessed'?",
        ["Because his brother would eventually avenge him.", "Because he died while seeing the face of the Supreme Lord.", "Because he was the strongest demon to ever live.", "Because he was granted a place in the sun planet."],
        1),
      Question(
        "How was Hiraṇyākṣa finally killed by the Lord?",
        ["By the striking of His mace", "By the Sudarśana Cakra", "By a simple slap at the root of the ear", "By the crushing of His forefeet"],
        2),
      Question(
        "How did the Lord feel the impact of the demon's hard fist?",
        ["Like a mountain struck by a thunderbolt", "Like an elephant struck by flowers", "It caused Him great pain", "He felt a slight scratch on His chest"],
        1),
      Question(
        "What did Hiraṇyākṣa do when all his weapons were broken and his magic failed?",
        ["He tried to crush the Lord in embrace.", "He begged for a boon of immortality.", "He dove back into the depths of the ocean to hide.", "He threw a mountain at the Lord."],
        0),
      Question(
        "How did the Lord bring an end to all the demon's mystic conjuring tricks?",
        ["By drinking the rain of blood and pus.", "By blowing His conchshell, the Pāñcajanya.", "By striking the ground with His hoof.", "By casting His Sudarśana Cakra."],
        3),
      Question(
        "How did Hiraṇyākṣa react when the Lord stood before him unarmed after losing His mace?",
        ["He laughed and tried to grab the Earth.", "He immediately struck the Lord's chest.", "He respected the laws of combat and did not strike.", "He surrendered out of respect for the Lord's bravery."],
        2),
      Question(
        "What distinguishes the Lord from the inhabitants of Vaikuṇṭha?",
        ["They have distinct bodily form", "His wearing of a golden Mukuta", "His wearing of a peacock feather", "The Śrīvatsa mark on His chest"],
        3)
    ])

  const WebQuiz4: WebQuiz := WebQuiz(
    "canto_3_chapter_20", 3, 20,
    "Conversation Between Maitreya and Vidura",
    Some("Maitreya-Vidura Saṁvāda"),
    "Śrīmad Bhāgavatam Quiz - Canto 3 Chapter 20", "2025-12-26", true, [
      Question(
        "What happened to Brahmā's body when his sons, the Kumāras, refused to follow his orders?",
        ["He became filled with a terrible anger that he tried to suppress.", "He immediately gave up his life and took a new body.", "He laughed at their determination.", "He fell into a deep sleep out of disappointment."],
        0),
      Question(
        "Who was born from between the eyebrows of Brahmā as a result of his suppressed anger?",
        ["Lord Rudra (Śiva)", "Nārada Muni", "Dakṣa", "Kardama Muni"],
        0),
      Question(
        "Which group of beings was created from Brahmā's 'shining' and 'jovial' form, associated with the daytime?",
        ["The ghosts and spirits.", "The Demigods (Devas).", "The Rakshasas (Man-eaters).", "The Pitṛs (Ancestors)."],
        1),
      Question(
        "From which part of Brahmā were the sages (like Marīci, Atri, and Vasiṣṭha) born?",
        ["From various limbs and parts of his body.", "From his breath (Prāna).", "From his hair.", "From his tears."],
        0),
      Question(
        "When the Yakṣas and Rākṣasas were born, what was their immediate reaction toward Brahma?",
        ["They offered him prayers and flowers.", "They ran to Eat him out of extreme hunger and thirst.", "They asked him for a kingdom to rule.", "They immediately began performing severe penance."],
        1),
      Question(
        "What entities were created from the hair that dropped from Brahma's body while he was crawling in a frustrated state?",
        ["Birds and flying insects.", "Ferocious snakes and cobras (Nāgas).", "The forest trees and medicinal herbs.", "Small animals like rabbits and deer."],
        1),
      Question(
        "From which part of Brahma's body were the ghosts (Bhūtas) and fiends (Piśācas) evolved?",
        ["From his sloth and laziness.", "From his laughter.", "From his shadow.", "From his fingernails."],
        0),
      Question(
        "The more one is free from the desire for sex, the more he is promoted to the level of the demigods.",
        ["True", "False"],
        0)
    ])}

=== FILE: wiring.dfy ===
/**
 * bot.js: which Telegram updates reach the handlers. The process registers the
 * command listeners, the `callback_query` listener and two error loggers; no
 * listener for `poll_answer` updates is registered, so `handlePollAnswer` is
 * never called and the only thing that moves a quiz forward is the timeout.
 *
 * A `World` is the bot's state together with the asynchronous continuations
 * still to run: the `sendQuestion` calls that follow an answer, a timeout or a
 * start button (each after its `sleep`), and the `finishQuiz` calls waiting on
 * `getChat`. `Step` applies one update or one continuation; its `pollAnswers`
 * flag says whether poll answers are delivered to `handlePollAnswer`.
 */
module Wiring {
  import opened Wrappers
  import opened QuizData
  import opened Database
  import opened QuizLogic
  import opened CallbackHandlers
  import opened CommandHandlers
  import opened Config

  datatype World = World(bot: Bot, asks: seq<Ask>, finishing: seq<Completion>)

  datatype Event =
    | PollAnswer(pollId: string, optionIds: seq<int>, now: int)
    | TimerFires(timer: nat, now: int)
    | StartPressed(chatId: int, userId: UserId, username: string, quizId: string, now: int)
    | Resume(i: nat, poll: Option<string>, now: int)
    | Commit(i: nat, info: Option<ChatInfo>)
    | ResetQuiz(userId: UserId, username: string)
    | ClearUser(username: string, target: string, quizId: string)

  /** The process after start-up: no continuation is pending. */
  function Start(db: Db): (w: World)
    ensures w.bot == Boot(db) && w.asks == [] && w.finishing == []
  {
    World(Boot(db), [], [])
  }

  function Queue(ask: Option<Ask>): (r: seq<Ask>)
    ensures ask.None? ==> r == []
    ensures ask.Some? ==> r == [ask.value]
  {
    match ask
    case None => []
    case Some(a) => [a]
  }

  /** Continuation `i` has run and leaves the queue; the others keep their order. */
  function RemoveAt<T>(s: seq<T>, i: nat): (r: seq<T>)
    requires i < |s|
    ensures |r| == |s| - 1
    ensures forall x :: x in r ==> x in s
  {
    s[..i] + s[i + 1..]
  }

  /** One update or continuation. Callback branches other than `start_` leave the
      state alone, so only the start button appears here. */
  function Step(w: World, cat: Catalog, admins: seq<string>, pollAnswers: bool, e: Event): (r: World)
    ensures e.PollAnswer? && !pollAnswers ==> r == w
    ensures (e.Resume? && e.i >= |w.asks|) || (e.Commit? && e.i >= |w.finishing|) ==> r == w
    ensures e.Resume? && e.i < |w.asks| ==> |r.asks| == |w.asks| - 1 && |r.finishing| <= |w.finishing| + 1
    ensures e.Commit? && e.i < |w.finishing| ==>
      && r.asks == w.asks && |r.finishing| == |w.finishing| - 1
      && |r.bot.db.results| == |w.bot.db.results| + 1
    ensures !e.Resume? && !e.Commit? ==> r.finishing == w.finishing && |r.asks| <= |w.asks| + 1
  {
    match e
    case PollAnswer(pollId, optionIds, now) =>
      if !pollAnswers then w
      else
        var (b, ask) := HandlePollAnswer(w.bot, pollId, optionIds, now);
        World(b, w.asks + Queue(ask), w.finishing)
    case TimerFires(timer, now) =>
      var (b, ask) := TimerFire(w.bot, timer, now);
      World(b, w.asks + Queue(ask), w.finishing)
    case StartPressed(chatId, userId, username, quizId, now) =>
      var (b, _, ask) := StartBranch(w.bot, cat, IsAdmin(admins, username), chatId, userId, quizId, now);
      World(b, w.asks + Queue(ask), w.finishing)
    case Resume(i, poll, now) =>
      if i >= |w.asks| then w
      else
        var (b, sent) := SendQuestion(w.bot, cat, w.asks[i], poll, now);
        var done := if sent.Finishing? && sent.completion.Some? then [sent.completion.value] else [];
        World(b, RemoveAt(w.asks, i), w.finishing + done)
    case Commit(i, info) =>
      if i >= |w.finishing| then w
      else World(FinishCommit(w.bot, w.finishing[i], info), w.asks, RemoveAt(w.finishing, i))
    case ResetQuiz(userId, username) =>
      World(ResetQuizCommand(w.bot, admins, userId, username).0, w.asks, w.finishing)
    case ClearUser(username, target, quizId) =>
      World(w.bot.(db := ClearUserCommand(w.bot.db, admins, username, target, quizId).0), w.asks, w.finishing)
  }

  function Run(w: World, cat: Catalog, admins: seq<string>, pollAnswers: bool, events: seq<Event>): World
    decreases |events|
  {
    if |events| == 0 then w
    else Run(Step(w, cat, admins, pollAnswers, events[0]), cat, admins, pollAnswers, events[1..])
  }

  /** No point has been scored since start-up: every session and every pending
      completion holds score 0, and so does every result saved with an id from
      `bootId` on. */
  predicate NoPoints(w: World, bootId: nat)
  {
    && (forall u :: u in w.bot.db.sessions ==> w.bot.db.sessions[u].score == 0)
    && (forall c :: c in w.finishing ==> c.score == 0)
    && (forall row :: row in w.bot.db.results && row.id >= bootId ==> row.score == 0)
    && bootId <= w.bot.db.nextResultId
  }

  lemma StartNoPoints(db: Db)
    requires ResultIdsFresh(db)
    ensures NoPoints(Start(db), db.nextResultId)
  {
    forall row | row in Start(db).bot.db.results
      ensures row.id < db.nextResultId
    {
      var i :| 0 <= i < |db.results| && db.results[i] == row;
    }
  }

  lemma TimerKeepsNoPoints(w: World, cat: Catalog, admins: seq<string>, pollAnswers: bool, e: Event, bootId: nat)
    requires NoPoints(w, bootId) && e.TimerFires?
    ensures NoPoints(Step(w, cat, admins, pollAnswers, e), bootId)
  {
    var r := TimerFire(w.bot, e.timer, e.now);
    assert Step(w, cat, admins, pollAnswers, e).bot == r.0;
  }

  lemma ResumeKeepsNoPoints(w: World, cat: Catalog, admins: seq<string>, pollAnswers: bool, e: Event, bootId: nat)
    requires NoPoints(w, bootId) && e.Resume? && e.i < |w.asks|
    ensures NoPoints(Step(w, cat, admins, pollAnswers, e), bootId)
  {
    var ask := w.asks[e.i];
    var r := SendQuestion(w.bot, cat, ask, e.poll, e.now);
    if r.1.Finishing? && r.1.completion.Some? {
      assert r.1.completion == FinishBegin(w.bot, cat, ask.userId, ask.quizId, e.now);
      assert r.1.completion.value.score == w.bot.db.sessions[ask.userId].score;
    }
  }

  lemma CommitKeepsNoPoints(w: World, cat: Catalog, admins: seq<string>, pollAnswers: bool, e: Event, bootId: nat)
    requires NoPoints(w, bootId) && e.Commit? && e.i < |w.finishing|
    ensures NoPoints(Step(w, cat, admins, pollAnswers, e), bootId)
  {
    var c := w.finishing[e.i];
    var b := FinishCommit(w.bot, c, e.info);
    var n := |w.bot.db.results|;
    assert b.db.results == w.bot.db.results + [b.db.results[n]];
  }

  lemma ClearKeepsNoPoints(w: World, cat: Catalog, admins: seq<string>, pollAnswers: bool, e: Event, bootId: nat)
    requires NoPoints(w, bootId) && e.ClearUser?
    ensures NoPoints(Step(w, cat, admins, pollAnswers, e), bootId)
  {
    var db := ClearUserCommand(w.bot.db, admins, e.username, e.target, e.quizId).0;
    forall row | row in db.results
      ensures row in w.bot.db.results
    {
      var i :| 0 <= i < |db.results| && db.results[i] == row;
    }
  }

  lemma StartKeepsNoPoints(w: World, cat: Catalog, admins: seq<string>, pollAnswers: bool, e: Event, bootId: nat)
    requires NoPoints(w, bootId) && e.StartPressed?
    ensures NoPoints(Step(w, cat, admins, pollAnswers, e), bootId)
  {
    var r := StartBranch(w.bot, cat, IsAdmin(admins, e.username), e.chatId, e.userId, e.quizId, e.now);
    assert Step(w, cat, admins, pollAnswers, e).bot == r.0;
  }

  lemma ResetKeepsNoPoints(w: World, cat: Catalog, admins: seq<string>, pollAnswers: bool, e: Event, bootId: nat)
    requires NoPoints(w, bootId) && e.ResetQuiz?
    ensures NoPoints(Step(w, cat, admins, pollAnswers, e), bootId)
  {
    var r := ResetQuizCommand(w.bot, admins, e.userId, e.username);
    assert Step(w, cat, admins, pollAnswers, e).bot == r.0;
  }

  /** As bot.js is written, no update or continuation ever scores a point. */
  lemma AsWrittenKeepsNoPoints(w: World, cat: Catalog, admins: seq<string>, e: Event, bootId: nat)
    requires NoPoints(w, bootId)
    ensures NoPoints(Step(w, cat, admins, false, e), bootId)
  {
    match e
    case PollAnswer(_, _, _) =>
    case TimerFires(_, _) => TimerKeepsNoPoints(w, cat, admins, false, e, bootId);
    case StartPressed(_, _, _, _, _) => StartKeepsNoPoints(w, cat, admins, false, e, bootId);
    case Resume(i, _, _) =>
      if i < |w.asks| {
        ResumeKeepsNoPoints(w, cat, admins, false, e, bootId);
      }
    case Commit(i, _) =>
      if i < |w.finishing| {
        CommitKeepsNoPoints(w, cat, admins, false, e, bootId);
      }
    case ResetQuiz(_, _) => ResetKeepsNoPoints(w, cat, admins, false, e, bootId);
    case ClearUser(_, _, _) => ClearKeepsNoPoints(w, cat, admins, false, e, bootId);
  }

  lemma {:induction false} AsWrittenRunKeepsNoPoints(w: World, cat: Catalog, admins: seq<string>,
                                                     events: seq<Event>, bootId: nat)
    requires NoPoints(w, bootId)
    ensures NoPoints(Run(w, cat, admins, false, events), bootId)
    decreases |events|
  {
    if |events| > 0 {
      AsWrittenKeepsNoPoints(w, cat, admins, events[0], bootId);
      AsWrittenRunKeepsNoPoints(Step(w, cat, admins, false, events[0]), cat, admins, events[1..], bootId);
    }
  }

  /** Whatever users and admins do after start-up, every result saved since then
      scores 0 and every completion message being sent reports 0. */
  lemma EveryResultScoresZero(db: Db, cat: Catalog, admins: seq<string>, events: seq<Event>)
    requires ResultIdsFresh(db)
    ensures var w := Run(Start(db), cat, admins, false, events);
      && (forall row :: row in w.bot.db.results && row.id >= db.nextResultId ==> row.score == 0)
      && (forall c :: c in w.finishing ==> c.score == 0)
  {
    StartNoPoints(db);
    AsWrittenRunKeepsNoPoints(Start(db), cat, admins, events, db.nextResultId);
  }

  /** With poll answers delivered, a correct answer to a poll the guard admits
      scores a point and queues the next question; as written the update is lost. */
  lemma DeliveredAnswerScores(w: World, cat: Catalog, admins: seq<string>, pollId: string, now: int)
    requires pollId in w.bot.polls
    requires Admits(w.bot.db, w.bot.polls[pollId].userId, w.bot.polls[pollId].questionIndex)
    ensures var p := w.bot.polls[pollId];
      var r := Step(w, cat, admins, true, PollAnswer(pollId, [p.correctAnswer], now));
      && p.userId in r.bot.db.sessions
      && r.bot.db.sessions[p.userId].score == w.bot.db.sessions[p.userId].score + 1
      && r.asks == w.asks + [Ask(p.chatId, p.userId, p.quizId, p.questionIndex + 1)]
    ensures Step(w, cat, admins, false, PollAnswer(pollId, [w.bot.polls[pollId].correctAnswer], now)) == w
  {
  }

  /** Pressing the start button of an available quiz not yet taken opens a fresh
      session and queues its first question. */
  lemma PerfectStep0(w: World, cat: Catalog, admins: seq<string>, chatId: int, userId: UserId,
                     username: string, quizId: string, t: int)
    requires GetQuiz(cat, quizId).Some?
    requires !HasUserAttempted(w.bot.db, userId, quizId) || IsAdmin(admins, username)
    requires w.asks == [] && w.finishing == []
    ensures var r := Step(w, cat, admins, true, StartPressed(chatId, userId, username, quizId, t));
      && userId in r.bot.db.sessions && r.bot.db.sessions[userId] == SessionRow(quizId, 0, 0, t, t, [])
      && r.asks == [Ask(chatId, userId, quizId, 0)] && r.finishing == []
      && r.bot.db.results == w.bot.db.results
  {
  }

  /** Continuation `i` sends its question: the bot takes the send's state, the
      continuation leaves the queue, and a completion read by `finishQuiz` is queued. */
  lemma ResumeStep(w: World, cat: Catalog, admins: seq<string>, pollAnswers: bool, i: nat, poll: Option<string>, now: int)
    requires i < |w.asks|
    ensures var s := SendQuestion(w.bot, cat, w.asks[i], poll, now);
      var r := Step(w, cat, admins, pollAnswers, Resume(i, poll, now));
      && r.bot == s.0 && r.asks == RemoveAt(w.asks, i)
      && r.finishing == w.finishing + (if s.1.Finishing? && s.1.completion.Some? then [s.1.completion.value] else [])
  {
  }

  /** Resuming the first question posts its poll; the database is untouched. */
  lemma PerfectStep1(w: World, cat: Catalog, admins: seq<string>, chatId: int, userId: UserId,
                     quizId: string, pollId: string, t: int)
    requires GetQuiz(cat, quizId).Some? && |GetQuiz(cat, quizId).value.questions| == 1
    requires w.asks == [Ask(chatId, userId, quizId, 0)] && w.finishing == []
    ensures var r := Step(w, cat, admins, true, Resume(0, Some(pollId), t));
      && pollId in r.bot.polls
      && r.bot.polls[pollId] == PollInfo(userId, chatId, quizId, 0, GetQuiz(cat, quizId).value.questions[0].correct)
      && r.bot.db == w.bot.db && r.asks == [] && r.finishing == []
  {
    var s := SendQuestion(w.bot, cat, w.asks[0], Some(pollId), t);
    ResumeStep(w, cat, admins, true, 0, Some(pollId), t);
    assert RemoveAt(w.asks, 0) == [];
    assert s.1.pollId == pollId;
  }

  /** The delivered correct answer scores the point and queues question 1. */
  lemma PerfectStep2(w: World, cat: Catalog, admins: seq<string>, chatId: int, userId: UserId,
                     quizId: string, pollId: string, correct: int, t: int)
    requires pollId in w.bot.polls && w.bot.polls[pollId] == PollInfo(userId, chatId, quizId, 0, correct)
    requires userId in w.bot.db.sessions && w.bot.db.sessions[userId] == SessionRow(quizId, 0, 0, t, t, [])
    requires w.asks == [] && w.finishing == []
    ensures var r := Step(w, cat, admins, true, PollAnswer(pollId, [correct], t));
      && userId in r.bot.db.sessions && r.bot.db.sessions[userId] == SessionRow(quizId, 1, 1, t, t, [Some(correct)])
      && r.asks == [Ask(chatId, userId, quizId, 1)] && r.finishing == []
      && r.bot.db.results == w.bot.db.results
  {
    assert Admits(w.bot.db, userId, 0);
  }

  /** Question 1 is past the end, so `finishQuiz` reads the session: score 1 of 1. */
  lemma PerfectStep3(w: World, cat: Catalog, admins: seq<string>, chatId: int, userId: UserId,
                     quizId: string, correct: int, t: int)
    requires GetQuiz(cat, quizId).Some? && |GetQuiz(cat, quizId).value.questions| == 1
    requires userId in w.bot.db.sessions && w.bot.db.sessions[userId] == SessionRow(quizId, 1, 1, t, t, [Some(correct)])
    requires w.asks == [Ask(chatId, userId, quizId, 1)] && w.finishing == []
    ensures var r := Step(w, cat, admins, true, Resume(0, None, t));
      && r.finishing == [Completion(userId, quizId, 1, 0, [Some(correct)], 1)]
      && r.bot.db.results == w.bot.db.results
  {
    var s := SendQuestion(w.bot, cat, w.asks[0], None, t);
    ResumeStep(w, cat, admins, true, 0, None, t);
    assert s.1 == Finishing(FinishBegin(w.bot, cat, userId, quizId, t));
    assert FinishBegin(w.bot, cat, userId, quizId, t) == Some(Completion(userId, quizId, 1, 0, [Some(correct)], 1));
  }

  /** `getChat` returns and the result row is saved. */
  lemma PerfectStep4(w: World, cat: Catalog, admins: seq<string>, userId: UserId, quizId: string, correct: int)
    requires w.finishing == [Completion(userId, quizId, 1, 0, [Some(correct)], 1)]
    ensures var r := Step(w, cat, admins, true, Commit(0, None));
      && |r.bot.db.results| == |w.bot.db.results| + 1
      && var row := r.bot.db.results[|w.bot.db.results|];
         row.userId == userId && row.quizId == quizId && row.score == 1 && row.answers == [Some(correct)]
  {
  }

  /** Proof helper for `DeliveredPerfectRun`: a run of five events is five steps. */
  lemma {:induction false} RunFive(w: World, cat: Catalog, admins: seq<string>, pollAnswers: bool, events: seq<Event>)
    requires |events| == 5
    ensures Run(w, cat, admins, pollAnswers, events) ==
      var w1 := Step(w, cat, admins, pollAnswers, events[0]);
      var w2 := Step(w1, cat, admins, pollAnswers, events[1]);
      var w3 := Step(w2, cat, admins, pollAnswers, events[2]);
      var w4 := Step(w3, cat, admins, pollAnswers, events[3]);
      Step(w4, cat, admins, pollAnswers, events[4])
  {
    var w1 := Step(w, cat, admins, pollAnswers, events[0]);
    var w2 := Step(w1, cat, admins, pollAnswers, events[1]);
    var w3 := Step(w2, cat, admins, pollAnswers, events[2]);
    var w4 := Step(w3, cat, admins, pollAnswers, events[3]);
    var w5 := Step(w4, cat, admins, pollAnswers, events[4]);
    assert Run(w4, cat, admins, pollAnswers, events[4..]) == Run(w5, cat, admins, pollAnswers, []) by {
      assert events[4..][0] == events[4] && events[4..][1..] == [];
    }
    assert Run(w3, cat, admins, pollAnswers, events[3..]) == Run(w4, cat, admins, pollAnswers, events[4..]) by {
      assert events[3..][0] == events[3] && events[3..][1..] == events[4..];
    }
    assert Run(w2, cat, admins, pollAnswers, events[2..]) == Run(w3, cat, admins, pollAnswers, events[3..]) by {
      assert events[2..][0] == events[2] && events[2..][1..] == events[3..];
    }
    assert Run(w1, cat, admins, pollAnswers, events[1..]) == Run(w2, cat, admins, pollAnswers, events[2..]) by {
      assert events[1..][0] == events[1] && events[1..][1..] == events[2..];
    }
  }

  /** The five steps of a one-question quiz answered correctly. */
  function PerfectRun(chatId: int, userId: UserId, username: string, quizId: string, pollId: string,
                      correct: int, t: int): (r: seq<Event>)
    ensures |r| == 5
  {
    [StartPressed(chatId, userId, username, quizId, t), Resume(0, Some(pollId), t),
     PollAnswer(pollId, [correct], t), Resume(0, None, t), Commit(0, None)]
  }

  /** With poll answers delivered, a user who answers the only question of a quiz
      correctly gets a saved result with full marks. */
  lemma DeliveredPerfectRun(db: Db, cat: Catalog, admins: seq<string>, chatId: int, userId: UserId,
                            username: string, quizId: string, pollId: string, t: int)
    requires GetQuiz(cat, quizId).Some? && |GetQuiz(cat, quizId).value.questions| == 1
    requires !HasUserAttempted(db, userId, quizId) || IsAdmin(admins, username)
    ensures var correct := GetQuiz(cat, quizId).value.questions[0].correct;
      var w := Run(Start(db), cat, admins, true, PerfectRun(chatId, userId, username, quizId, pollId, correct, t));
      && |w.bot.db.results| == |db.results| + 1
      && var row := w.bot.db.results[|db.results|];
         row.userId == userId && row.quizId == quizId && row.score == 1 && row.answers == [Some(correct)]
  {
    var correct := GetQuiz(cat, quizId).value.questions[0].correct;
    var events := PerfectRun(chatId, userId, username, quizId, pollId, correct, t);
    var w0 := Start(db);
    var w1 := Step(w0, cat, admins, true, events[0]);
    PerfectStep0(w0, cat, admins, chatId, userId, username, quizId, t);
    var w2 := Step(w1, cat, admins, true, events[1]);
    PerfectStep1(w1, cat, admins, chatId, userId, quizId, pollId, t);
    var w3 := Step(w2, cat, admins, true, events[2]);
    PerfectStep2(w2, cat, admins, chatId, userId, quizId, pollId, correct, t);
    var w4 := Step(w3, cat, admins, true, events[3]);
    PerfectStep3(w3, cat, admins, chatId, userId, quizId, correct, t);
    PerfectStep4(w4, cat, admins, userId, quizId, correct);
    RunFive(w0, cat, admins, true, events);
  }
}

=== FILE: wrappers.dfy ===
/** The optional value used throughout the model for JavaScript's `null` / `undefined`. */
module Wrappers {

  datatype Option<+T> = None | Some(value: T) {

    /** Returns the value in Some, or `default` for None (JavaScript's `x || default` on objects). */
    function GetOr(default: T): T {
      match this
      case Some(v) => v
      case None => default
    }
  }
}
